=== FILE: README.md ===
# lit-masterclass components in Dafny

This project models the logic under the templates of the lit-masterclass
example components. Each component becomes one Dafny module of pure
state-transition functions. A component's properties are an immutable
record. An event the component dispatches is returned as an extra value
next to the new state. Clocks, random numbers, the viewport width and the
document's class list are parameters.

Modules, by source file:

- `Highlight` (highlight.dfy): the `highlight` directive. The document fragment is a sequence of `Plain` and `Hit` segments. The scan loop carries a covering invariant, and the covering is shown to be unique.
- `TaskChart` (chart.dfy): data preparation in `tm-task-chart`: the "nice" y-axis maximum, the tick list, segment angles, colour and label fallbacks, the view choice and `_styleMap`.
- `TestingTodoList` (testing_todo.dfy) and `ReactivityTodoList` (reactivity_todo.dfy): the two todo lists.
- `Dashboard` (dashboard.dfy): the filter-then-sort of `data-dashboard`, built on `Sorting` (sorting.dfy), an insertion sort over a total order that is proved stable.
- `RepeatExample` (repeat_example.dfy): the Fisher–Yates shuffle as a loop over given random draws, plus sorting, adding and removing.
- `ValidationForm` (validation_form.dfy) and `TaskForm` (task_form.dfy): the form validators and their submit steps.
- `Counter` (counter.dfy): the bounded counter element.
- `AsyncLoad` (async_load.dfy): the `asyncLoad` directive. Promises are integer tokens and settlement is an explicit call.
- `StyleDirectiveExample`, `CacheDirectiveExample` and `FocusDirectiveExample`: the directive example pages.
- `LitTabs`, `Sidebar`, `ThemeSelector` and `AppShell`: navigation state.
- `ActivityCard` and `TaskCard`: the relative-time texts, with the time difference in milliseconds as a parameter.
- `ProductShowcase` (product_showcase.dfy): the product element's selection, quantity, wishlist and star display.
- `Shop`, `VanillaShop` and `AngularShop`: the two host pages' handlers for the element's events.
- `Text` (text.dfy): the string built-ins the components use. These are `trim`, `length` in UTF-16 code units, ASCII `toLowerCase`, `indexOf`, `includes`, `replace` with a string pattern, number printing and `parseInt`.
- `Lists` (lists.dfy) and `Results` (results.dfy): `Array.filter` with its subsequence facts, and the `Option`/`Result` types.

Most properties are about more than one call. Examples are round trips (a
displayed text parses back to its bucket), invariants kept by every
action (quantity at least one, exactly one colour theme, no duplicate
wishlist ids), and agreement between two definitions (the e-mail check
against the regular expression, the two host pages against each other).

## Model

| member | source | states |
|---|---|---|
| Text.Trim | 07-testing/src/components/validation-form.js:132-135 | `trim` yields the empty string exactly when every character is white space; otherwise the result starts and ends with a non-space character |
| Text.Utf16Length | 07-testing/src/components/validation-form.js:135 | `length` counts UTF-16 code units: between one and two per character, and one per character when none lies outside the Basic Multilingual Plane |
| Text.EmojiIsTwoUnits | 07-testing/src/components/validation-form.js:135 | one emoji is a single character but two code units of `length` |
| Text.Lower | 05-directives-and-advanced-logic/src/components/data-dashboard.js:192-195 | the ASCII lower-casing keeps the length and maps each character on its own |
| Text.IndexOf | 05-directives-and-advanced-logic/src/directives/highlight-directive.js:54 | `indexOf` returns -1 or an occurrence at or after the start position, and no occurrence lies before the result |
| Text.Includes | 05-directives-and-advanced-logic/src/components/data-dashboard.js:193-195 | `includes` holds exactly when the term occurs somewhere |
| Text.ReplaceFirst | 05-directives-and-advanced-logic/src/components/examples/style-directive-example.js:253 | a string-pattern `replace` rewrites only the first occurrence and leaves text without one unchanged |
| Text.ParseIntRoundTrip | 06-integration-examples/vanilla-integration/src/components/product-showcase.js:262 | printing an integer and reading it back with `parseInt` gives the integer (for integers that a double holds exactly and prints without an exponent, see Left out) |
| Text.ParseIntOfPrefix | 05-directives-and-advanced-logic/src/components/examples/focus-directive-example.js:140 | `parseInt` reads a printed number from the front of a longer text that does not continue the number |
| Text.MagnitudeOfNat | 06-integration-examples/vanilla-integration/src/components/product-showcase.js:262 | the digits of a natural number read back as that number |
| Text.DecimalValueOfNat | 06-integration-examples/vanilla-integration/src/components/product-showcase.js:262 | the decimal value of the printed digits is the number printed |
| Sorting.SortBy | 05-directives-and-advanced-logic/src/components/data-dashboard.js:199-221 | the comparator sort returns a permutation of its input, ordered by the key in the chosen direction, and the elements of each key keep their input order, as the engine's sort is stable |
| Sorting.InsertSorted | 05-directives-and-advanced-logic/src/components/data-dashboard.js:199-221 | inserting into an ordered list keeps it ordered |
| Sorting.InsertStable | 05-directives-and-advanced-logic/src/components/data-dashboard.js:199-221 | one insertion step passes over elements of other keys only, so it keeps the order among elements of equal key |
| Sorting.StrLeTotal | 05-directives-and-advanced-logic/src/components/data-dashboard.js:205 | the string order stands in for `localeCompare` and relates every pair of strings |
| Sorting.StrLeTransitive | 05-directives-and-advanced-logic/src/components/data-dashboard.js:205 | the string order is transitive, so the comparator is consistent |
| Sorting.StrLeAntisymmetric | 05-directives-and-advanced-logic/src/components/data-dashboard.js:205 | two strings ordered both ways are equal |
| Lists.KeepAppend | 02-reactivity-and-templates/src/components/todo-list.js:115-120 | `filter` of a concatenation is the concatenation of the filtered parts |
| Dashboard.FilterItemsCounts | 05-directives-and-advanced-logic/src/components/data-dashboard.js:176-197 | the status, priority and search filters keep each item as often as it occurs when it matches all three, and drop it otherwise |
| Dashboard.ProcessData | 05-directives-and-advanced-logic/src/components/data-dashboard.js:176-224 | `_processData` returns the matching items, as a permutation of the matching part of the data, sorted ascending only for "asc", with items of equal key in the order the filters leave them |
| Dashboard.NoFilterKeepsAll | 05-directives-and-advanced-logic/src/components/data-dashboard.js:157-163 | with the constructor's "all"/"all"/"" filter every item is shown |
| Dashboard.ShownExactly | 05-directives-and-advanced-logic/src/components/data-dashboard.js:176-224 | an item is shown exactly when it is in the data and matches the filter |
| Dashboard.HandleFilterChange | 05-directives-and-advanced-logic/src/components/data-dashboard.js:227-232 | the chosen filter key takes the new value; the other keys and the sort settings stay |
| Dashboard.HandleSortChange | 05-directives-and-advanced-logic/src/components/data-dashboard.js:234-236 | only the sort key changes |
| Dashboard.HandleSortDirectionChange | 05-directives-and-advanced-logic/src/components/data-dashboard.js:238-240 | only the sort direction changes |
| TaskChart.Log10Floor | 08-project-final/src/components/charts/tm-task-chart.js:370 | the magnitude is the largest power of ten not above the maximum |
| TaskChart.YAxisMax | 08-project-final/src/components/charts/tm-task-chart.js:366-381 | the axis maximum is 10 for no data, otherwise at least the data maximum and at most two and a half times it |
| TaskChart.YAxisMaxIsNice | 08-project-final/src/components/charts/tm-task-chart.js:373-380 | the axis maximum is 1, 2 or 5 times a power of ten |
| TaskChart.YAxisMaxByMagnitude | 08-project-final/src/components/charts/tm-task-chart.js:370-380 | each threshold of the normalised value bounds the result by the matching multiple of the magnitude |
| TaskChart.YAxisMaxIsLeast | 08-project-final/src/components/charts/tm-task-chart.js:366-381 | no smaller number of the form 1, 2 or 5 times a power of ten reaches the data maximum |
| TaskChart.YAxisValues | 08-project-final/src/components/charts/tm-task-chart.js:310-312 | six rounded ticks from 0 to the axis maximum, never decreasing |
| TaskChart.MaxOfValues | 08-project-final/src/components/charts/tm-task-chart.js:302-306 | the running maximum bounds every value and is the start value or one of the values |
| TaskChart.MaxOfDatasets | 08-project-final/src/components/charts/tm-task-chart.js:300-306 | the maximum over all datasets bounds every value and comes from the data or the start value 0 |
| TaskChart.WithColor | 08-project-final/src/components/charts/tm-task-chart.js:316-319 | a dataset keeps its fields and gets its own colour or the palette colour for its index |
| TaskChart.ColorDatasets | 08-project-final/src/components/charts/tm-task-chart.js:314-320 | every dataset is coloured by its own index |
| TaskChart.ProcessBarData | 08-project-final/src/components/charts/tm-task-chart.js:296-321 | missing labels or datasets leave the chart alone; otherwise the datasets are coloured, the axis maximum is the nice maximum of the largest value, which it covers, and the ticks are the six ticks of that maximum |
| TaskChart.BarValue | 08-project-final/src/components/charts/tm-task-chart.js:454 | a missing value reads as 0 |
| TaskChart.BarsFitTheAxis | 08-project-final/src/components/charts/tm-task-chart.js:453-455 | every bar height is at most 100 percent, and non-negative for non-negative values |
| TaskChart.HeightBounds | 08-project-final/src/components/charts/tm-task-chart.js:455 | a value within the axis gives a height between 0 and 100 percent |
| TaskChart.SegmentColor | 08-project-final/src/components/charts/tm-task-chart.js:350 | a segment takes its own background colour when one is given and non-empty, and the palette colour otherwise |
| TaskChart.SegmentLabel | 08-project-final/src/components/charts/tm-task-chart.js:351 | a segment takes its label when given and non-empty, and "Item n" (counting from 1) otherwise |
| TaskChart.BuildSegments | 08-project-final/src/components/charts/tm-task-chart.js:337-355 | one segment per value, the first starting at the current angle |
| TaskChart.SegmentsFollowValues | 08-project-final/src/components/charts/tm-task-chart.js:340-352 | segment k carries value k, colour k and label k |
| TaskChart.SegmentsContiguous | 08-project-final/src/components/charts/tm-task-chart.js:337-355 | each segment ends where the next starts, spans its own angle, and a zero total gives zero angles and percentages |
| TaskChart.ProcessDonutData | 08-project-final/src/components/charts/tm-task-chart.js:326-361 | without datasets nothing changes; otherwise one segment per value of the first dataset, starting at angle 0, with the total of the values |
| TaskChart.DonutSegmentsContiguous | 08-project-final/src/components/charts/tm-task-chart.js:326-361 | the processed segments tile the circle: contiguous from 0 degrees, the last ending at 360 when the total is not zero; an all-zero dataset gives empty segments |
| TaskChart.SegmentsEnd | 08-project-final/src/components/charts/tm-task-chart.js:342-358 | the last segment ends at the start angle plus the share of the remaining values in 360 degrees |
| TaskChart.SegmentsCloseCircle | 08-project-final/src/components/charts/tm-task-chart.js:342-358 | with a non-zero total the accumulated angle ends at exactly 360 degrees |
| TaskChart.LargeArc | 08-project-final/src/components/charts/tm-task-chart.js:400 | the large-arc flag is 1 exactly for segments wider than 180 degrees |
| TaskChart.ProcessData | 08-project-final/src/components/charts/tm-task-chart.js:278-291 | no data leaves the chart alone; "bar" prepares bars, "pie" and "doughnut" prepare segments, any other kind does nothing |
| TaskChart.ChooseView | 08-project-final/src/components/charts/tm-task-chart.js:541-556 | bars are drawn exactly for "bar" with bar data, a circle exactly for "pie" or "doughnut" with segments of non-zero total, and rendering throws exactly when the cached data has the other kind's shape (chart:420-437 and 485-500) |
| TaskChart.PreparedBarsDrawn | 08-project-final/src/components/charts/tm-task-chart.js:269-273 | a render that meets bar data already processed from labels and a dataset draws bars, whatever was cached before; it does not say when such a render happens (see Findings) |
| TaskChart.PreparedDonutDrawn | 08-project-final/src/components/charts/tm-task-chart.js:269-273 | a render that meets pie data already processed with a non-zero sum draws the circle; it does not say when such a render happens (see Findings) |
| TaskChart.UpdateAsWritten | 08-project-final/src/components/charts/tm-task-chart.js:265-273 | one update as written: the view is chosen from the data cached before this update, so a chart with nothing processed yet shows the empty state, and the processed data is left only in the non-reactive cache |
| TaskChart.MountedBarsShowEmptyState | 08-project-final/src/components/charts/tm-task-chart.js:265-273 | a chart mounted with drawable bar data shows "No data available" after its first update, although the data it then holds would be drawn |
| TaskChart.Update | 08-project-final/src/components/charts/tm-task-chart.js:265-273 | the corrected update processes before rendering: the view shown is the view of the resulting state, bars for accepted bar data and a circle for pie data with a non-zero sum |
| TaskChart.MountedChartsDrawn | 08-project-final/src/components/charts/tm-task-chart.js:265-273 | with processing before rendering, mounted bar and doughnut charts draw their data on the first update, and a pie chart switched to bar data draws bars instead of throwing |
| TaskChart.SwitchToBarThrows | 08-project-final/src/components/charts/tm-task-chart.js:417-437 | switching a drawn pie chart to "bar" throws on the render before reprocessing |
| TaskChart.ZeroTotalShowsEmptyState | 08-project-final/src/components/charts/tm-task-chart.js:484-486 | a pie or doughnut whose values sum to 0 shows the empty state after processing |
| TaskChart.Declarations | 08-project-final/src/components/charts/tm-task-chart.js:561-566 | at most one declaration per style entry |
| TaskChart.Defined | 08-project-final/src/components/charts/tm-task-chart.js:563 | at most the entries whose value is defined |
| TaskChart.StyleMapRoundTrip | 08-project-final/src/components/charts/tm-task-chart.js:561-566 | the serialised style splits back into exactly the defined entries, in order |
| TaskChart.SplitJoin | 08-project-final/src/components/charts/tm-task-chart.js:565 | joining with "; " and splitting again gives the parts back |
| TaskChart.DeclarationsNonEmpty | 08-project-final/src/components/charts/tm-task-chart.js:561-566 | the style string is empty exactly when no entry is defined |
| TestingTodoList.Find | 07-testing/src/components/todo-list.js:171 | `find` returns the first todo with the id, or none exactly when no todo has it |
| TestingTodoList.AddTodo | 07-testing/src/components/todo-list.js:146-164 | blank text adds nothing; otherwise one open todo with the text and the clock's id is appended and announced |
| TestingTodoList.ToggleTodo | 07-testing/src/components/todo-list.js:170-182 | an unknown id changes nothing; otherwise the first todo with the id flips and is announced, the rest stay |
| TestingTodoList.WithoutId | 07-testing/src/components/todo-list.js:192 | the todos with another id remain, each as often as before, in order; the others are gone |
| TestingTodoList.RemoveTodo | 07-testing/src/components/todo-list.js:188-199 | an unknown id changes nothing; otherwise every todo with the id goes and the first one is announced |
| TestingTodoList.WithStatus | 07-testing/src/components/todo-list.js:216-218 | exactly the todos with the given state remain, each with all its copies, in order |
| TestingTodoList.FilteredTodos | 07-testing/src/components/todo-list.js:213-223 | "active" and "completed" select by state, keeping every copy of each selected todo; every other filter shows the whole list |
| TestingTodoList.SetFilter | 07-testing/src/components/todo-list.js:205-207 | the filter changes and nothing else |
| TestingTodoList.LoadBegin | 07-testing/src/components/todo-list.js:229-230 | the loading flag rises and the list stays |
| TestingTodoList.LoadFinish | 07-testing/src/components/todo-list.js:232-246 | the three mock todos replace the list, one completed, and loading ends |
| TestingTodoList.HandleSubmit | 07-testing/src/components/todo-list.js:321-328 | a blank input changes nothing; otherwise the todo is added and the input cleared |
| TestingTodoList.ListView | 07-testing/src/components/todo-list.js:288-316 | loading shows the message, an empty filtered list the empty state, otherwise the filtered todos |
| TestingTodoList.ToggleTwiceRestores | 07-testing/src/components/todo-list.js:170-182 | toggling the same id twice restores the list |
| TestingTodoList.FindStable | 07-testing/src/components/todo-list.js:171-175 | a toggle keeps the first match of every id in place |
| TestingTodoList.RemoveIsComplete | 07-testing/src/components/todo-list.js:188-199 | after removal no todo has the id, and removing again does nothing |
| TestingTodoList.StatusesPartition | 07-testing/src/components/todo-list.js:213-223 | the active and completed lists together count every todo once |
| TestingTodoList.AddedTodoIsActive | 07-testing/src/components/todo-list.js:149-155 | a new todo shows under the "active" filter |
| TestingTodoList.LoadedCounts | 07-testing/src/components/todo-list.js:237-241 | after loading, two todos are active and one is completed |
| ValidationForm.ValidEmailMatches | 07-testing/src/components/validation-form.js:141 | the direct e-mail check accepts only strings the regular expression matches |
| ValidationForm.MatchingEmailValid | 07-testing/src/components/validation-form.js:141 | the direct e-mail check accepts every string the regular expression matches |
| ValidationForm.IsValidEmailMatchesPattern | 07-testing/src/components/validation-form.js:141 | the direct e-mail check and the regular expression agree on every string |
| ValidationForm.FirstAt | 07-testing/src/components/validation-form.js:141 | an '@' preceded only by e-mail characters is the first '@' |
| ValidationForm.FieldError | 07-testing/src/components/validation-form.js:131-157 | the name fails below two UTF-16 code units once trimmed, the e-mail when blank or not matching, the message below ten trimmed code units, the subject never |
| ValidationForm.Validate | 07-testing/src/components/validation-form.js:127-170 | the error map holds exactly the failing fields with their messages, and the form is valid exactly when no field fails |
| ValidationForm.EveryField | 07-testing/src/components/validation-form.js:127-170 | only the three checked fields can make the form invalid |
| ValidationForm.ValidExactly | 07-testing/src/components/validation-form.js:127-170 | the form is valid exactly when the trimmed name is two code units long, the e-mail matches the pattern and the trimmed message is ten code units long |
| ValidationForm.EmailValidExactly | 07-testing/src/components/validation-form.js:140-148 | the e-mail passes exactly when the untrimmed value matches `/^[^\s@]+@[^\s@]+\.[^\s@]+$/` |
| ValidationForm.EmojiNameLongEnough | 07-testing/src/components/validation-form.js:135 | a name of one emoji is long enough, because `length` counts code units |
| ValidationForm.ErrorMessages | 07-testing/src/components/validation-form.js:131-157 | the "required" message for a blank field, the length or format message otherwise |
| ValidationForm.Set | 07-testing/src/components/validation-form.js:178-181 | the named field takes the value and the others stay |
| ValidationForm.HandleInput | 07-testing/src/components/validation-form.js:176-189 | the field takes the value and loses its error; other fields and errors stay |
| ValidationForm.SubmitBegin | 07-testing/src/components/validation-form.js:195-202 | the errors are recomputed; an invalid form announces them and stops, a valid one starts loading |
| ValidationForm.SubmitFinish | 07-testing/src/components/validation-form.js:208-224 | the typed data is announced and the form is cleared and stops loading |
| ValidationForm.SubmitRoundTrip | 07-testing/src/components/validation-form.js:195-224 | a valid submission announces exactly what was typed and ends empty with no errors |
| ValidationForm.InitialDataInvalid | 07-testing/src/components/validation-form.js:113-118 | the initial form has the three "required" errors and none for the subject |
| ValidationForm.EditingClearsOnlyThatError | 07-testing/src/components/validation-form.js:183-188 | editing a field after validation clears that field's error and no other |
| Counter.Increment | 07-testing/src/components/counter-element.js:68-77 | below the maximum the count rises by one and is announced; at or above it nothing happens; a click never reaches one above a finite maximum, and from a whole count never passes a whole maximum |
| Counter.Reset | 07-testing/src/components/counter-element.js:79-86 | the count returns to 0 and 0 is announced |
| Counter.Render | 07-testing/src/components/counter-element.js:88-113 | the button is disabled and the count highlighted exactly when the maximum is reached |
| Counter.ClicksSaturate | 07-testing/src/components/counter-element.js:68-77 | n clicks raise the count by one per effective click and announce each new count; all n are effective without a maximum, none at or above it, and otherwise the least number that reaches a finite maximum, capped at n |
| Counter.ClicksReachMax | 07-testing/src/components/counter-element.js:88-98 | at least `max` clicks from 0 always disable the button, for a fractional maximum too |
| Counter.ClicksOvershootLessThanOne | 07-testing/src/components/counter-element.js:68-77 | from below a finite maximum the count ends less than one above it, and at or below it when the count and `max` are whole |
| Counter.FractionalMaxPassed | 07-testing/src/components/counter-element.js:13-15 | with `max="2.5"` three clicks from 0 end at 3, past the maximum, because 2 < 2.5 |
| AsyncLoad.Current | 05-directives-and-advanced-logic/src/directives/async-load-directive.js:21-35 | the same promise shows the error template for a truthy error, else the value if not null, else the loading template |
| AsyncLoad.Render | 05-directives-and-advanced-logic/src/directives/async-load-directive.js:19-84 | the same promise re-renders its state; any other argument resets the fields and waits on the new promise |
| AsyncLoad.Resolve | 05-directives-and-advanced-logic/src/directives/async-load-directive.js:53-63 | only the active promise's value is stored and shown |
| AsyncLoad.Reject | 05-directives-and-advanced-logic/src/directives/async-load-directive.js:65-79 | only the active promise's error is stored and the error template shown |
| AsyncLoad.Disconnected | 05-directives-and-advanced-logic/src/directives/async-load-directive.js:87-92 | every field returns to its initial value |
| AsyncLoad.LatestPromiseWins | 05-directives-and-advanced-logic/src/directives/async-load-directive.js:53-79 | after a new render, settling any other promise changes nothing |
| AsyncLoad.FunctionArgumentAlwaysReloads | 05-directives-and-advanced-logic/src/directives/async-load-directive.js:21-48 | a function argument starts a new load on every render |
| AsyncLoad.RenderSamePromiseIdempotent | 05-directives-and-advanced-logic/src/directives/async-load-directive.js:20-36 | rendering the same promise again leaves the state as it is and shows what the first render showed |
| AsyncLoad.PromiseLifecycle | 05-directives-and-advanced-logic/src/directives/async-load-directive.js:19-84 | loading until settled, then the value, or the error template when the reason is truthy |
| AsyncLoad.DisconnectedIgnoresSettlement | 05-directives-and-advanced-logic/src/directives/async-load-directive.js:87-92 | after disconnection no settlement changes anything |
| Highlight.Create | 05-directives-and-advanced-logic/src/directives/highlight-directive.js:12-18 | the directive can only be created on a child part; anything else raises the error with the source's message |
| Highlight.Fold | 05-directives-and-advanced-logic/src/directives/highlight-directive.js:51 | the search text keeps the length of the text |
| Highlight.CoversMeaning | 05-directives-and-advanced-logic/src/directives/highlight-directive.js:53-82 | the segments spell the covered text, plain runs are non-empty and every highlighted run is an occurrence of the term |
| Highlight.CoversUnique | 05-directives-and-advanced-logic/src/directives/highlight-directive.js:53-82 | the covering is unique, so the segments are determined by the text and term |
| Highlight.ScanStep | 05-directives-and-advanced-logic/src/directives/highlight-directive.js:56-75 | one round of the loop appends the text before the match and the match itself, keeping the covering invariant |
| Highlight.ScanTail | 05-directives-and-advanced-logic/src/directives/highlight-directive.js:78-82 | the final plain run completes the covering when no match remains |
| Highlight.Scan | 05-directives-and-advanced-logic/src/directives/highlight-directive.js:53-82 | the loop produces a covering of the whole text |
| Highlight.HighlightText | 05-directives-and-advanced-logic/src/directives/highlight-directive.js:39-85 | an empty term leaves the text; otherwise the fragment spells the text, with the leftmost non-overlapping occurrences of the folded term highlighted, the search resuming after each match |
| Highlight.HighlightingMeaning | 05-directives-and-advanced-logic/src/directives/highlight-directive.js:39-85 | every highlighted run equals the term after folding, and plain runs are non-empty |
| Highlight.Render | 05-directives-and-advanced-logic/src/directives/highlight-directive.js:25-36 | the arguments are remembered; an empty term or text returns the text itself |
| Highlight.Update | 05-directives-and-advanced-logic/src/directives/highlight-directive.js:87-98 | re-rendering happens exactly when one argument differs from the remembered ones |
| Highlight.RenderDeterministic | 05-directives-and-advanced-logic/src/directives/highlight-directive.js:25-85 | two renders of the same arguments give the same view |
| RepeatExample.ScaledIndex | 05-directives-and-advanced-logic/src/components/examples/repeat-example.js:73 | `Math.floor(Math.random() * n)` is a valid index |
| RepeatExample.Shuffle | 05-directives-and-advanced-logic/src/components/examples/repeat-example.js:69-77 | the shuffle returns a permutation of the items whose last position holds the item the first draw picks |
| RepeatExample.Swap | 05-directives-and-advanced-logic/src/components/examples/repeat-example.js:74 | the swap exchanges two positions and keeps the contents |
| RepeatExample.SortItems | 05-directives-and-advanced-logic/src/components/examples/repeat-example.js:80-89 | the items are sorted by name in the current direction, as a permutation, items of equal name keep their order, and the direction flips |
| RepeatExample.SortTwiceAlternates | 05-directives-and-advanced-logic/src/components/examples/repeat-example.js:80-89 | two sorts in a row go ascending then descending and return to "asc" |
| RepeatExample.AddItem | 05-directives-and-advanced-logic/src/components/examples/repeat-example.js:92-106 | one item is appended with id `now`: a vegetable from the vegetable list when the first draw exceeds 0.5, a fruit from the fruit list otherwise |
| RepeatExample.RemoveItem | 05-directives-and-advanced-logic/src/components/examples/repeat-example.js:109-111 | the items with another id remain, each as often as before, in order; the others are gone |
| RepeatExample.AddThenRemove | 05-directives-and-advanced-logic/src/components/examples/repeat-example.js:92-111 | removing the id of an item just added, when no other item had it, restores the list |
| RepeatExample.RemoveTwice | 05-directives-and-advanced-logic/src/components/examples/repeat-example.js:109-111 | removing an id twice is removing it once |
| ReactivityTodoList.FilteredTasks | 02-reactivity-and-templates/src/components/todo-list.js:66-75 | "active" and "completed" select by state, each task as often as it occurs and in order; any other filter shows every task |
| ReactivityTodoList.TotalTasks | 02-reactivity-and-templates/src/components/todo-list.js:78-80 | the number of tasks |
| ReactivityTodoList.CompletedTasks | 02-reactivity-and-templates/src/components/todo-list.js:82-84 | the number of completed tasks |
| ReactivityTodoList.ActiveTasks | 02-reactivity-and-templates/src/components/todo-list.js:86-88 | the difference of the two counts is the number of tasks not done |
| ReactivityTodoList.CountsAddUp | 02-reactivity-and-templates/src/components/todo-list.js:86-88 | the difference of the totals is the number of open tasks, so active and completed add up to the total |
| ReactivityTodoList.InitialCounts | 02-reactivity-and-templates/src/components/todo-list.js:55-60 | the initial list has four tasks, one completed |
| ReactivityTodoList.HandleFilterChange | 02-reactivity-and-templates/src/components/todo-list.js:91-93 | only the filter changes |
| ReactivityTodoList.HandleAddTask | 02-reactivity-and-templates/src/components/todo-list.js:95-104 | one open task with the event's text is appended |
| ReactivityTodoList.HandleTaskToggle | 02-reactivity-and-templates/src/components/todo-list.js:106-113 | every task with the id flips and the others stay |
| ReactivityTodoList.ToggleTwiceRestores | 02-reactivity-and-templates/src/components/todo-list.js:106-113 | toggling the same id twice restores the list |
| ReactivityTodoList.HandleTaskDelete | 02-reactivity-and-templates/src/components/todo-list.js:115-120 | the tasks with another id remain, each as often as before, in order; the others are gone |
| ReactivityTodoList.AddThenDelete | 02-reactivity-and-templates/src/components/todo-list.js:95-120 | deleting the id of a task just added, when no task had it, restores the list |
| ReactivityTodoList.AddedTaskShown | 02-reactivity-and-templates/src/components/todo-list.js:66-104 | unless only completed tasks are shown, a new task appears at the end of the visible list |
| TaskForm.HandleInput | 02-reactivity-and-templates/src/components/task-form.js:72-79 | the text is stored and the error cleared |
| TaskForm.HandleSubmit | 02-reactivity-and-templates/src/components/task-form.js:82-102 | a trimmed text shorter than the minimum in UTF-16 code units sets the error and sends nothing; otherwise the trimmed text is sent and the form cleared |
| TaskForm.SubmitDisabled | 02-reactivity-and-templates/src/components/task-form.js:105-119 | the button is disabled exactly when a submit would send nothing |
| TaskForm.MessageNamesMinimum | 02-reactivity-and-templates/src/components/task-form.js:88 | the error message names the minimum length as a number that reads back |
| TaskForm.SubmittedTextIsTrimmed | 02-reactivity-and-templates/src/components/task-form.js:85-97 | a sent text is non-blank and has no surrounding white space |
| StyleDirectiveExample.Initial | 05-directives-and-advanced-logic/src/components/examples/style-directive-example.js:106-129 | the box, shadow and primary classes are on and the colour theme is "primary" |
| StyleDirectiveExample.ActiveClasses | 05-directives-and-advanced-logic/src/components/examples/style-directive-example.js:110-118 | the classes that are on |
| StyleDirectiveExample.ToggleClass | 05-directives-and-advanced-logic/src/components/examples/style-directive-example.js:132-137 | one class flips and the rest stay |
| StyleDirectiveExample.ToggleTwice | 05-directives-and-advanced-logic/src/components/examples/style-directive-example.js:132-137 | toggling a class twice restores the classes |
| StyleDirectiveExample.SetColorTheme | 05-directives-and-advanced-logic/src/components/examples/style-directive-example.js:140-151 | the chosen theme is on, the other colour themes off, the other classes unchanged |
| StyleDirectiveExample.SetColorThemeExclusive | 05-directives-and-advanced-logic/src/components/examples/style-directive-example.js:139-151 | after choosing a colour theme exactly one colour theme class is on |
| StyleDirectiveExample.UpdateStyle | 05-directives-and-advanced-logic/src/components/examples/style-directive-example.js:154-159 | one style property takes the value and the rest stay |
| StyleDirectiveExample.InitialOneColorTheme | 05-directives-and-advanced-logic/src/components/examples/style-directive-example.js:110-128 | the initial classes have exactly one colour theme on, the current one |
| StyleDirectiveExample.ApplyKeepsOneColorTheme | 05-directives-and-advanced-logic/src/components/examples/style-directive-example.js:172-205 | every control the page offers keeps exactly one colour theme on |
| StyleDirectiveExample.RunKeepsOneColorTheme | 05-directives-and-advanced-logic/src/components/examples/style-directive-example.js:172-255 | any sequence of offered controls keeps exactly one colour theme on |
| StyleDirectiveExample.ScaleRoundTrip | 05-directives-and-advanced-logic/src/components/examples/style-directive-example.js:253-255 | the scale slider writes `scale(v)` and reads `v` back |
| CacheDirectiveExample.Initial | 05-directives-and-advanced-logic/src/components/examples/cache-directive-example.js:84-91 | tab one is active, the counters are 0 and caching is on |
| CacheDirectiveExample.SetActiveTab | 05-directives-and-advanced-logic/src/components/examples/cache-directive-example.js:94-96 | the tab name is stored and nothing else changes |
| CacheDirectiveExample.IncrementCounter | 05-directives-and-advanced-logic/src/components/examples/cache-directive-example.js:99-111 | the addressed counter rises by one; an unknown tab changes nothing |
| CacheDirectiveExample.DecrementCounter | 05-directives-and-advanced-logic/src/components/examples/cache-directive-example.js:114-126 | the addressed counter falls by one only when positive |
| CacheDirectiveExample.ToggleCache | 05-directives-and-advanced-logic/src/components/examples/cache-directive-example.js:129-131 | only the caching flag flips |
| CacheDirectiveExample.StepsKeepValid | 05-directives-and-advanced-logic/src/components/examples/cache-directive-example.js:114-126 | no step makes a counter negative |
| CacheDirectiveExample.IncrementThenDecrement | 05-directives-and-advanced-logic/src/components/examples/cache-directive-example.js:99-126 | incrementing then decrementing the same tab restores the state |
| CacheDirectiveExample.SelectContent | 05-directives-and-advanced-logic/src/components/examples/cache-directive-example.js:197-205 | tab one and tab two by name, tab three for any other name |
| CacheDirectiveExample.RenderAsWrittenAlwaysThrows | 05-directives-and-advanced-logic/src/components/examples/cache-directive-example.js:196-205 | the body method is called without its receiver and every render fails |
| CacheDirectiveExample.Render | 05-directives-and-advanced-logic/src/components/examples/cache-directive-example.js:196-248 | with the receiver bound, every render succeeds |
| CacheDirectiveExample.RenderShowsActiveCounter | 05-directives-and-advanced-logic/src/components/examples/cache-directive-example.js:134-194 | the shown counter is that of the selected tab |
| CacheDirectiveExample.InactiveCounterHidden | 05-directives-and-advanced-logic/src/components/examples/cache-directive-example.js:196-205 | changing another tab's counter does not change the shown body |
| FocusDirectiveExample.Initial | 05-directives-and-advanced-logic/src/components/examples/focus-directive-example.js:97-113 | the name field has focus, every option is off with delay 0, and the country is "us" |
| FocusDirectiveExample.FocusField | 05-directives-and-advanced-logic/src/components/examples/focus-directive-example.js:116-118 | only the focused field changes |
| FocusDirectiveExample.HandleInput | 05-directives-and-advanced-logic/src/components/examples/focus-directive-example.js:121-126 | one form field takes the value and the rest stay |
| FocusDirectiveExample.ToggleOption | 05-directives-and-advanced-logic/src/components/examples/focus-directive-example.js:129-134 | one option flips and the others stay |
| FocusDirectiveExample.DelayOf | 05-directives-and-advanced-logic/src/components/examples/focus-directive-example.js:140 | the number `parseInt` reads, or 0 when it reads none |
| FocusDirectiveExample.UpdateDelay | 05-directives-and-advanced-logic/src/components/examples/focus-directive-example.js:137-142 | only the delay changes |
| FocusDirectiveExample.UpdateDelayReadsNumber | 05-directives-and-advanced-logic/src/components/examples/focus-directive-example.js:137-142 | a typed number becomes the delay and text without digits gives 0 |
| FocusDirectiveExample.ResetForm | 05-directives-and-advanced-logic/src/components/examples/focus-directive-example.js:145-153 | the form data and focus return to their initial values and the options stay |
| FocusDirectiveExample.ResetUndoesEditing | 05-directives-and-advanced-logic/src/components/examples/focus-directive-example.js:145-153 | resetting forgets any edit and focus change made before |
| LitTabs.Initial | 03-components-and-slots/src/components/lit-tabs.js:66-74 | three enabled tabs, the first active |
| LitTabs.HandleTabClick | 03-components-and-slots/src/components/lit-tabs.js:77-91 | a disabled tab does nothing; otherwise it becomes active and is announced with its index and id |
| LitTabs.ClickKeepsActiveEnabled | 03-components-and-slots/src/components/lit-tabs.js:77-91 | the active tab stays an enabled one, and a click is announced exactly when the tab is enabled |
| LitTabs.ReclickReports | 03-components-and-slots/src/components/lit-tabs.js:77-91 | clicking the active tab changes nothing but is still announced |
| Sidebar.Initial | 08-project-final/src/components/tm-sidebar.js:150-153 | the dashboard route is active |
| Sidebar.HandleNavClick | 08-project-final/src/components/tm-sidebar.js:155-164 | a new route becomes active and is announced; the active route does nothing |
| Sidebar.ClickActivates | 08-project-final/src/components/tm-sidebar.js:155-164 | after a click the clicked route is active |
| Sidebar.RepeatedClickSilent | 08-project-final/src/components/tm-sidebar.js:155-164 | a second click on the same route announces nothing |
| Sidebar.Reported | 08-project-final/src/components/tm-sidebar.js:155-164 | a sequence of clicks reports at most one event per click |
| Sidebar.SameRouteReportedOnce | 08-project-final/src/components/tm-sidebar.js:155-164 | clicking one route many times reports it at most once, and never when it is already active |
| ThemeSelector.Initial | 04-styling-and-theming/src/components/theme-selector.js:80-90 | five themes, "default" current, each with a known theme class |
| ThemeSelector.ApplyTheme | 04-styling-and-theming/src/components/theme-selector.js:126-131 | the root gets the chosen theme class, loses the other theme classes and keeps every other class |
| ThemeSelector.ApplyThemeLastWins | 04-styling-and-theming/src/components/theme-selector.js:126-131 | applying two themes in turn is the same as applying the second |
| ThemeSelector.FirstUpdated | 04-styling-and-theming/src/components/theme-selector.js:92-95 | the first update applies the current theme |
| ThemeSelector.SelectTheme | 04-styling-and-theming/src/components/theme-selector.js:113-124 | a different theme becomes current, is applied and announced; the current one does nothing |
| ThemeSelector.SelectKeepsInSync | 04-styling-and-theming/src/components/theme-selector.js:113-131 | the root carries exactly the current theme's class after any selection |
| ThemeSelector.FirstUpdatedInSync | 04-styling-and-theming/src/components/theme-selector.js:80-95 | after the first update the root carries exactly the default theme's class |
| AppShell.Initial | 08-project-final/src/components/tm-app-shell.js:70-74 | the dashboard view with the sidebar closed |
| AppShell.ToggleSidebar | 08-project-final/src/components/tm-app-shell.js:76-78 | only the sidebar flag flips |
| AppShell.HandleRouteChange | 08-project-final/src/components/tm-app-shell.js:80-86 | the view follows the route; at 768 pixels or narrower the sidebar closes, wider it stays |
| AppShell.ClickKeepsFollowing | 08-project-final/src/components/tm-app-shell.js:80-86 | after a sidebar click the shell's view is the sidebar's active route |
| AppShell.InitialFollows | 08-project-final/src/components/tm-app-shell.js:70-74 | the shell and the sidebar start on the same route |
| ActivityCard.ElapsedMinutes | 08-project-final/src/components/cards/tm-activity-card.js:177 | the whole minutes elapsed, rounded down |
| ActivityCard.Bucket | 08-project-final/src/components/cards/tm-activity-card.js:177-189 | "Just now" under a minute, minutes under an hour, hours under a day, days after; each count is the whole units elapsed |
| ActivityCard.ParseCount | 08-project-final/src/components/cards/tm-activity-card.js:182 | a printed count is read back from the front of the phrase |
| ActivityCard.UnitRoundTrip | 08-project-final/src/components/cards/tm-activity-card.js:182-188 | the unit text names its unit and count |
| ActivityCard.PhraseRoundTrip | 08-project-final/src/components/cards/tm-activity-card.js:179-189 | every phrase reads back as its bucket, count and unit included |
| ActivityCard.JustNowRoundTrip | 08-project-final/src/components/cards/tm-activity-card.js:180 | "Just now" reads back as the first bucket |
| ActivityCard.FormatTimeAgo | 08-project-final/src/components/cards/tm-activity-card.js:174-190 | the displayed text determines the bucket of the elapsed time |
| ActivityCard.SingularExactlyForOne | 08-project-final/src/components/cards/tm-activity-card.js:182-188 | the unit is plural exactly when the count is not one |
| Text.Plural | 08-project-final/src/components/cards/tm-task-card.js:236-240 | the word is left alone exactly when the count is one, and otherwise gains exactly one character, a final 's' |
| TaskCard.DaysRemaining | 08-project-final/src/components/cards/tm-task-card.js:232-233 | `Math.ceil` of the time to the due date in days: the least whole number of days not before it |
| TaskCard.Classify | 08-project-final/src/components/cards/tm-task-card.js:235-241 | overdue for a negative count, due today for 0, days left for a positive count |
| TaskCard.DueTextRanges | 08-project-final/src/components/cards/tm-task-card.js:229-242 | overdue from a full day late, due today within the last day before the due time, days left for any time before it |
| TaskCard.ParseCount | 08-project-final/src/components/cards/tm-task-card.js:236-240 | a printed count is read back from the front of the text |
| TaskCard.DueTodayRoundTrip | 08-project-final/src/components/cards/tm-task-card.js:238 | "Due today" reads back as due today |
| TaskCard.TailsDiffer | 08-project-final/src/components/cards/tm-task-card.js:236-240 | "left" and "overdue" texts never coincide |
| TaskCard.TextRoundTrip | 08-project-final/src/components/cards/tm-task-card.js:235-241 | every due text reads back as its case and count |
| TaskCard.DaysRemainingText | 08-project-final/src/components/cards/tm-task-card.js:229-242 | the shown text recovers the whole number of days to the due date |
| TaskCard.StatusLabel | 08-project-final/src/components/cards/tm-task-card.js:267-269 | the three known statuses have their labels, and exactly the other statuses read "Overdue" |
| TaskCard.StatusLabelInverse | 08-project-final/src/components/cards/tm-task-card.js:267-269 | the label recovers the status for the three known statuses |
| ProductShowcase.Initial | 06-integration-examples/vanilla-integration/src/components/product-showcase.js:200-232 | the first colour, the middle size, quantity 1, not in the wishlist |
| ProductShowcase.SelectColor | 06-integration-examples/vanilla-integration/src/components/product-showcase.js:235-238 | the colour changes and the new selection is announced |
| ProductShowcase.SelectSize | 06-integration-examples/vanilla-integration/src/components/product-showcase.js:241-244 | the size changes and the new selection is announced |
| ProductShowcase.IncreaseQuantity | 06-integration-examples/vanilla-integration/src/components/product-showcase.js:247-250 | the quantity rises by one and is announced |
| ProductShowcase.DecreaseQuantity | 06-integration-examples/vanilla-integration/src/components/product-showcase.js:253-258 | the quantity falls by one and is announced only above one |
| ProductShowcase.UpdateQuantity | 06-integration-examples/vanilla-integration/src/components/product-showcase.js:261-269 | a typed positive number becomes the quantity and is announced; anything else keeps it |
| ProductShowcase.ToggleWishlist | 06-integration-examples/vanilla-integration/src/components/product-showcase.js:272-283 | the wishlist flag flips and the new value is announced with the product |
| ProductShowcase.AddItemToCart | 06-integration-examples/vanilla-integration/src/components/product-showcase.js:286-297 | the state stays and the product with its colour, size and quantity is announced |
| ProductShowcase.ActionsKeepValid | 06-integration-examples/vanilla-integration/src/components/product-showcase.js:247-269 | no action takes the quantity below one, and only the quantity controls change it |
| ProductShowcase.RunKeepsValid | 06-integration-examples/vanilla-integration/src/components/product-showcase.js:235-297 | any sequence of actions keeps the quantity at least one |
| ProductShowcase.IncreaseThenDecrease | 06-integration-examples/vanilla-integration/src/components/product-showcase.js:247-258 | increasing then decreasing restores the state |
| ProductShowcase.ToggleWishlistTwice | 06-integration-examples/vanilla-integration/src/components/product-showcase.js:272-283 | toggling the wishlist twice restores the state |
| ProductShowcase.TypedNumberIsTaken | 06-integration-examples/vanilla-integration/src/components/product-showcase.js:261-265 | typing a printed positive number sets exactly that quantity |
| ProductShowcase.Ceil | 06-integration-examples/vanilla-integration/src/components/product-showcase.js:320 | `Math.ceil`: the least integer not below the rating |
| ProductShowcase.StarsAsWrittenLoseASlot | 06-integration-examples/vanilla-integration/src/components/product-showcase.js:314-323 | a rating with a fraction below one half is drawn with four glyphs instead of five |
| ProductShowcase.FourPointTwo | 06-integration-examples/vanilla-integration/src/components/product-showcase.js:314-323 | the rating 4.2 is drawn as four full stars and nothing else |
| ProductShowcase.StarsAsWritten | 06-integration-examples/vanilla-integration/src/components/product-showcase.js:314-323 | as written: text exactly for ratings in [0, 5], made of floor(rating) full stars, a half star exactly when the fraction is at least one half, and `5 - Math.ceil(rating)` empty stars, so four glyphs when the fraction lies strictly between 0 and one half, five otherwise |
| ProductShowcase.Stars | 06-integration-examples/vanilla-integration/src/components/product-showcase.js:314-323 | ratings from 0 to 5 are drawn with exactly five glyphs: floor(rating) full stars, a half star exactly when the fraction is at least one half, and empty stars for the rest; others raise the `repeat` range error |
| ProductShowcase.StarsShowRating | 06-integration-examples/vanilla-integration/src/components/product-showcase.js:314-323 | the stars shown are the rating rounded down to a half star |
| ProductShowcase.StarsAgreeOffTheGap | 06-integration-examples/vanilla-integration/src/components/product-showcase.js:314-323 | the corrected display and the one as written agree on whole and upper-half ratings |
| Shop.CartItemOf | 06-integration-examples/vanilla-integration/src/main.js:87-94 | the cart line copies the product's id, name and price and the chosen colour, size and quantity |
| Shop.UpdateWishlist | 06-integration-examples/vanilla-integration/src/main.js:111-119 | adding appends the id unless present; removing drops every copy and keeps the rest in order |
| Shop.UpdateWishlistNoDuplicates | 06-integration-examples/vanilla-integration/src/main.js:111-119 | the wishlist never holds an id twice |
| Shop.AddThenRemove | 06-integration-examples/vanilla-integration/src/main.js:111-119 | adding then removing a product leaves no trace of it |
| Shop.ActionOf | 06-integration-examples/vanilla-integration/src/main.js:97-100 | each event kind is recorded as its own last action |
| VanillaShop.Initial | 06-integration-examples/vanilla-integration/src/main.js:30-38 | an empty cart and wishlist, no selection, quantity 1 |
| VanillaShop.SyncFrom | 06-integration-examples/vanilla-integration/src/main.js:72-79 | the element's selection and wishlist flag are copied and nothing else changes |
| VanillaShop.HandleAddToCart | 06-integration-examples/vanilla-integration/src/main.js:85-104 | one cart line, copied from the event, is appended and recorded as the last action |
| VanillaShop.HandleWishlistChange | 06-integration-examples/vanilla-integration/src/main.js:107-129 | the mirror flag follows the event and agrees with the list |
| VanillaShop.HandleConfigChange | 06-integration-examples/vanilla-integration/src/main.js:132-147 | the selection is copied and recorded |
| VanillaShop.Handle | 06-integration-examples/vanilla-integration/src/main.js:64-66 | every event becomes the last action |
| VanillaShop.ProcessInvariant | 06-integration-examples/vanilla-integration/src/main.js:85-129 | the cart has one line per add-to-cart event and the wishlist never holds an id twice |
| VanillaShop.MirrorAgrees | 06-integration-examples/vanilla-integration/src/main.js:107-129 | after events from one product, the mirror flag says whether it is in the wishlist |
| AngularShop.Initial | 06-integration-examples/angular-integration/src/app/app.component.ts:33-37 | an empty cart and wishlist and no last action |
| AngularShop.HandleAddToCart | 06-integration-examples/angular-integration/src/app/app.component.ts:39-56 | one cart line, copied from the event, is appended and recorded |
| AngularShop.HandleWishlistChange | 06-integration-examples/angular-integration/src/app/app.component.ts:58-76 | the id is in the list exactly when the event says so |
| AngularShop.HandleConfigChange | 06-integration-examples/angular-integration/src/app/app.component.ts:78-86 | the change is recorded and nothing else changes |
| AngularShop.HostsAgree | 06-integration-examples/angular-integration/src/app/app.component.ts:33-86 | both host pages keep the same cart, wishlist and last action for every sequence of events |

## Left out

- Rendering: templates, CSS and shadow-DOM queries are not modelled. Where a view matters, a small datatype stands for what `render` derives from the state.
- Event dispatch: bubbling and composition are not modelled. An event is a value returned with the new state.
- Timers and asynchrony: the simulated delays in `loadTodos` and the validation form's `handleSubmit` are split into a begin step and a finish step. `@lit/task` and `fetchSampleData` in the dashboard are left out, and the data is a parameter of `Dashboard.ProcessData`.
- The dashboard's 300 ms search debounce (`_handleSearchInput`) is left out: only the filter update that ends it is modelled, as `Dashboard.HandleFilterChange` on the search field.
- Clock and randomness: `Date.now()` ids and the current time are parameters. `Math.random()` draws are parameters in [0, 1).
- `localeCompare` is replaced by the lexicographic order on character codes, a total order. Date comparison uses millisecond timestamps.
- Case and white space: `toLowerCase` maps only ASCII letters. Unicode case mappings that change a string's length are not modelled. `trim` and `\s` use the full ECMAScript white-space set.
- Floating point: ratings, prices, segment angles and percentages are exact reals. Bar heights are a real division. Float rounding, `toFixed` and the trigonometric donut path coordinates are left out. Only the path's large-arc flag is modelled.
- Text.ParseIntRoundTrip: counts, quantities, ids and day counts are exact unbounded integers. A JavaScript number prints in exponent notation from 1e21 (`parseInt("1e+21")` is 1) and loses exactness past 2^53; neither is modelled, so the round trip is promised only below those bounds.
- Counter.Increment: `count` and `max` are exact reals. NaN and the float rounding of `count++` are not modelled.
- TaskChart.YAxisMax: chart values are whole numbers and the axis maximum is computed with exact integer powers of ten. Fractional data and the rounding of `Math.log10` are not modelled.
- Dynamic typing: a missing, `null` or empty-string colour or label is one case. Arguments of unexpected types are not modelled, such as a non-string search term or a `null` promise.
- StyleDirectiveExample.Initial: the initial opacity, the number 1, is stored as the string "1". The sliders' `parseFloat` is left out; only the text written and read back is modelled (`ScaleRoundTrip`).
- CacheDirectiveExample.Render: the `cache` directive's retention of DOM between tab switches is not modelled. Caching is only a flag, because the rendered body does not depend on it.
- The focus directive (`focus-directive.js`) is not part of this model. It moves focus with timers and DOM calls. Its example page's state updates are modelled.
- RepeatExample.Shuffle: the result is stated to be a permutation whose last position holds the item the first draw picks. Which items the later draws fix is not stated, and neither is the uniformity of the shuffle, a probabilistic property.
- VanillaShop.SyncFrom: the deferred copy in `initializeProductShowcase` is a separate function. When it runs relative to the first events is left to the caller.
- TestingTodoList.ToggleTodo: the source flips the found todo object in place, so the object returned by `addTodo` and sent in earlier event details changes with it. The model's todos are values without aliasing; it states only the new list and the event.
- TaskChart.PreparedBarsDrawn: states only what a render draws once processed data is cached. As written, processing runs after `render` and writes the non-reactive `_chartData`, so the data appears only when some later update re-renders; `UpdateAsWritten` and the Findings table record this lag.
- TaskChart.ChooseView: Lit's update cycle around the throwing render is not modelled. When `render` throws, `updated` does not run, so the data is not reprocessed; the model states only which view a render meets.
- Host pages: `updateUI`, the console logging and the React and Vue hosts are not modelled.

## Findings

| source | as written | input that shows it | evidently intended | confidence | as-written member | corrected member |
|---|---|---|---|---|---|---|
| 06-integration-examples/vanilla-integration/src/components/product-showcase.js:314-323 | the empty stars number `5 - Math.ceil(rating)`, so a half star is not shown for a fraction below one half, yet the slot it would fill still goes | rating 4.2: four full stars, no half star, `5 - 5 = 0` empty stars, four glyphs in all | five glyphs for every rating from 0 to 5: full stars, a half star for a fraction of one half or more, and empty stars for the rest | high (not executed) | ProductShowcase.StarsAsWrittenLoseASlot | ProductShowcase.StarsShowRating |
| 08-project-final/src/components/charts/tm-task-chart.js:265-273 | `_processData` runs in `firstUpdated` and `updated`, after `render` has read `_chartData`, and it writes `_chartData`, which is not a reactive property, so no second update follows | a `tm-task-chart` mounted with `type="bar"` and bar data with labels and one dataset: the first render finds `_chartData` null and shows "No data available", and nothing re-renders until another reactive property changes | the data is processed before rendering (for example in `willUpdate`), so the first update draws the chart | medium (not executed) | TaskChart.MountedBarsShowEmptyState | TaskChart.MountedChartsDrawn |
| 05-directives-and-advanced-logic/src/components/examples/cache-directive-example.js:196-205 | `render` stores `this.renderTabOne` (or Two, Three) in a local and calls it without a receiver. Class bodies are strict code, so `this` is `undefined` and reading a counter throws a TypeError | any state, for example the initial one with tab one active | the tab body is rendered with the element as its receiver, showing that tab's counter | high (not executed) | CacheDirectiveExample.RenderAsWrittenAlwaysThrows | CacheDirectiveExample.RenderShowsActiveCounter |

=== FILE: activity_card.dfy ===
/** The relative time shown by `tm-activity-card`: the time since an
    activity, in whole minutes, hours or days.  The clock is a parameter:
    `elapsed` is the current time minus the activity's timestamp, in
    milliseconds. */
module ActivityCard {

  import opened Results
  import opened Text

  const MsPerMinute := 60000
  const MsPerHour := 3600000
  const MsPerDay := 86400000

  /** The four phrasings. */
  datatype Ago = JustNow | MinutesAgo(n: nat) | HoursAgo(n: nat) | DaysAgo(n: nat)

  /** `Math.floor(elapsed / 60000)`. */
  function ElapsedMinutes(elapsed: int): (m: int)
    ensures m * MsPerMinute <= elapsed < (m + 1) * MsPerMinute
  {
    elapsed / MsPerMinute
  }

  /** The bucket of `_formatTimeAgo`.  Each count is the whole number of
      its unit that has fully elapsed. */
  function Bucket(elapsed: int): (b: Ago)
    ensures b == JustNow <==> elapsed < MsPerMinute
    ensures b.MinutesAgo? <==> MsPerMinute <= elapsed < MsPerHour
    ensures b.HoursAgo? <==> MsPerHour <= elapsed < MsPerDay
    ensures b.DaysAgo? <==> MsPerDay <= elapsed
    ensures b.MinutesAgo? ==> 1 <= b.n < 60 && b.n * MsPerMinute <= elapsed < (b.n + 1) * MsPerMinute
    ensures b.HoursAgo? ==> 1 <= b.n < 24 && b.n * MsPerHour <= elapsed < (b.n + 1) * MsPerHour
    ensures b.DaysAgo? ==> 1 <= b.n && b.n * MsPerDay <= elapsed < (b.n + 1) * MsPerDay
  {
    var minutes := ElapsedMinutes(elapsed);
    if minutes < 1 then JustNow
    else if minutes < 60 then MinutesAgo(minutes)
    else if minutes < 1440 then
      var hours := minutes / 60;
      assert hours * MsPerHour <= elapsed < (hours + 1) * MsPerHour by {
        assert hours * 60 <= minutes < hours * 60 + 60;
        assert minutes * MsPerMinute <= elapsed < (minutes + 1) * MsPerMinute;
      }
      HoursAgo(hours)
    else
      var days := minutes / 1440;
      assert days * MsPerDay <= elapsed < (days + 1) * MsPerDay by {
        assert days * 1440 <= minutes < days * 1440 + 1440;
        assert minutes * MsPerMinute <= elapsed < (minutes + 1) * MsPerMinute;
      }
      DaysAgo(days)
  }

  function Unit(b: Ago): string {
    match b
    case JustNow => ""
    case MinutesAgo(_) => "minute"
    case HoursAgo(_) => "hour"
    case DaysAgo(_) => "day"
  }

  /** The text of a bucket: "Just now", or the count, the unit (plural
      unless the count is 1) and "ago". */
  function Phrase(b: Ago): string {
    if b == JustNow then "Just now"
    else NatToString(b.n) + Suffix(b)
  }

  /** What follows the count: the unit and "ago". */
  function Suffix(b: Ago): string
    requires b != JustNow
  {
    " " + Plural(Unit(b), b.n) + " ago"
  }

  /** `_formatTimeAgo`: the displayed text determines the bucket of the
      elapsed time. */
  function FormatTimeAgo(elapsed: int): (r: string)
    ensures ParsePhrase(r) == Some(Bucket(elapsed))
  {
    PhraseRoundTrip(Bucket(elapsed));
    Phrase(Bucket(elapsed))
  }

  /** Reads a phrase back into its bucket. */
  function ParsePhrase(s: string): Option<Ago> {
    var k := LeadingDigits(s, 10);
    if k == 0 then (if s == "Just now" then Some(JustNow) else None)
    else ParseUnit(DigitsValue(s[..k], 10), s[k..])
  }

  /** The part of a phrase after its count. */
  function ParseUnit(n: nat, rest: string): Option<Ago> {
    if rest == " " + Plural("minute", n) + " ago" then Some(MinutesAgo(n))
    else if rest == " " + Plural("hour", n) + " ago" then Some(HoursAgo(n))
    else if rest == " " + Plural("day", n) + " ago" then Some(DaysAgo(n))
    else None
  }

  lemma ParseCount(n: nat, rest: string)
    requires rest == [] || !IsDigit(rest[0])
    ensures ParsePhrase(NatToString(n) + rest) == ParseUnit(n, rest)
  {
    NumberPrefix(n, rest);
    DecimalValueOfNat(n);
  }

  lemma UnitRoundTrip(b: Ago)
    requires b != JustNow
    ensures ParseUnit(b.n, Suffix(b)) == Some(b)
  {
    var rest := Suffix(b);
    match b
    case MinutesAgo(_) =>
    case HoursAgo(_) =>
      assert rest[1] == 'h';
      assert (" " + Plural("minute", b.n) + " ago")[1] == 'm';
    case DaysAgo(_) =>
      assert rest[1] == 'd';
      assert (" " + Plural("minute", b.n) + " ago")[1] == 'm';
      assert (" " + Plural("hour", b.n) + " ago")[1] == 'h';
  }

  /** Every phrase names its bucket unambiguously: reading it back gives
      the bucket, count and unit included. */
  lemma PhraseRoundTrip(b: Ago)
    ensures ParsePhrase(Phrase(b)) == Some(b)
  {
    if b != JustNow {
      ParseCount(b.n, Suffix(b));
      UnitRoundTrip(b);
    } else {
      JustNowRoundTrip();
    }
  }

  lemma JustNowRoundTrip()
    ensures ParsePhrase("Just now") == Some(JustNow)
  {
    assert DigitVal("Just now"[0]) >= 10;
  }

  /** The unit is singular exactly for a count of one. */
  lemma SingularExactlyForOne(b: Ago)
    requires b != JustNow
    ensures Phrase(b)[|Phrase(b)| - 5] == 's' <==> b.n != 1
  {
    var w := Plural(Unit(b), b.n);
    var tail := Suffix(b);
    assert tail == " " + w + " ago";
    assert tail[|tail| - 5] == w[|w| - 1];
    var p := Phrase(b);
    assert p == NatToString(b.n) + tail;
    assert p[|p| - 5] == tail[|tail| - 5];
    PluralLast(Unit(b), b.n);
  }

  /** A word not ending in 's' gains one exactly when the count is not one. */
  lemma PluralLast(word: string, n: int)
    requires word != [] && word[|word| - 1] != 's'
    ensures var w := Plural(word, n); w[|w| - 1] == 's' <==> n != 1
  {
  }
}

=== FILE: angular_shop.dfy ===
/** The Angular host: the same handlers without the mirrored selection
    (a configuration change only records the last action). */
module AngularShop {

  import opened Results
  import opened Shop
  import PS = ProductShowcase
  import VanillaShop

  datatype App = App(cartItems: seq<CartItem>, wishlistItems: seq<string>, lastAction: Option<LastAction>)

  function Initial(): (app: App)
    ensures app.cartItems == [] && app.wishlistItems == [] && app.lastAction == None
  {
    App([], [], None)
  }

  function HandleAddToCart(app: App, product: PS.Product, color: string, size: string, quantity: int): (r: App)
    ensures r.cartItems == app.cartItems + [CartItemOf(product, color, size, quantity)]
    ensures r.lastAction == Some(AddedToCart(CartItemOf(product, color, size, quantity)))
    ensures r.wishlistItems == app.wishlistItems
  {
    var item := CartItemOf(product, color, size, quantity);
    app.(cartItems := app.cartItems + [item], lastAction := Some(AddedToCart(item)))
  }

  function HandleWishlistChange(app: App, product: PS.Product, inWishlist: bool): (r: App)
    ensures r.wishlistItems == UpdateWishlist(app.wishlistItems, product.id, inWishlist)
    ensures inWishlist <==> product.id in r.wishlistItems
    ensures r.lastAction == Some(WishlistChanged(inWishlist, product.id))
    ensures r.cartItems == app.cartItems
  {
    app.(wishlistItems := UpdateWishlist(app.wishlistItems, product.id, inWishlist),
         lastAction := Some(WishlistChanged(inWishlist, product.id)))
  }

  /** A configuration change is only recorded. */
  function HandleConfigChange(app: App, color: string, size: string, quantity: int): (r: App)
    ensures r == app.(lastAction := Some(ConfigChanged(color, size, quantity)))
  {
    app.(lastAction := Some(ConfigChanged(color, size, quantity)))
  }

  function Handle(app: App, e: PS.Event): App {
    match e
    case AddToCart(p, c, s, q) => HandleAddToCart(app, p, c, s, q)
    case WishlistChange(p, inWishlist) => HandleWishlistChange(app, p, inWishlist)
    case ConfigChange(_, c, s, q) => HandleConfigChange(app, c, s, q)
  }

  function Process(app: App, events: seq<PS.Event>): App
    decreases |events|
  {
    if events == [] then app else Handle(Process(app, events[..|events| - 1]), events[|events| - 1])
  }

  /** Both hosts keep the same cart, wishlist and last action for every
      sequence of events. */
  lemma {:induction false} HostsAgree(events: seq<PS.Event>)
    ensures var a := Process(Initial(), events);
      var v := VanillaShop.Process(VanillaShop.Initial(), events);
      a.cartItems == v.cartItems && a.wishlistItems == v.wishlistItems && a.lastAction == v.lastAction
    decreases |events|
  {
    if events != [] {
      HostsAgree(events[..|events| - 1]);
    }
  }
}

=== FILE: app_shell.dfy ===
/** The `tm-app-shell` element: the current view and whether the sidebar
    is open.  The viewport width is a parameter. */
module AppShell {

  import Sidebar

  datatype Shell = Shell(currentView: string, sidebarOpen: bool)

  const MobileWidth := 768

  function Initial(): (s: Shell)
    ensures s.currentView == "dashboard" && !s.sidebarOpen
  {
    Shell("dashboard", false)
  }

  function ToggleSidebar(s: Shell): (r: Shell)
    ensures r.sidebarOpen == !s.sidebarOpen && r.currentView == s.currentView
  {
    s.(sidebarOpen := !s.sidebarOpen)
  }

  /** `_handleRouteChange`: the view follows the route; a narrow viewport
      also closes the sidebar, a wide one leaves it as it was. */
  function HandleRouteChange(s: Shell, route: string, innerWidth: int): (r: Shell)
    ensures r.currentView == route
    ensures innerWidth <= MobileWidth ==> !r.sidebarOpen
    ensures innerWidth > MobileWidth ==> r.sidebarOpen == s.sidebarOpen
  {
    if innerWidth <= MobileWidth then Shell(route, false) else s.(currentView := route)
  }

  /** The shell shows the sidebar's route. */
  predicate Follows(shell: Shell, bar: Sidebar.Sidebar) {
    shell.currentView == bar.activeRoute
  }

  /** A click in the sidebar, delivered to the shell if it was reported. */
  function Click(shell: Shell, bar: Sidebar.Sidebar, route: string, innerWidth: int): (Shell, Sidebar.Sidebar) {
    var step := Sidebar.HandleNavClick(bar, route);
    match step.emitted
    case Some(e) => (HandleRouteChange(shell, e.route, innerWidth), step.state)
    case None => (shell, step.state)
  }

  /** Starting together, the shell's view and the sidebar's route stay
      the same through every click, at any viewport width. */
  lemma ClickKeepsFollowing(shell: Shell, bar: Sidebar.Sidebar, route: string, innerWidth: int)
    requires Follows(shell, bar)
    ensures Follows(Click(shell, bar, route, innerWidth).0, Click(shell, bar, route, innerWidth).1)
  {
  }

  lemma InitialFollows()
    ensures Follows(Initial(), Sidebar.Initial())
  {
  }
}

=== FILE: async_load.dfy ===
/** The `asyncLoad` directive: it remembers the promise it is waiting on,
    shows a loading template until that promise settles, and ignores the
    settlement of any promise it is no longer waiting on.  Promises and
    functions are identified by integers; settling a promise is an event
    the caller applies. */
module AsyncLoad {

  import opened Results

  /** `_value`: `null`, or any other settled value. */
  datatype Value = Null | Val(v: int)

  /** A rejection reason, and whether JavaScript treats it as truthy. */
  datatype Reason = Reason(id: int, truthy: bool)

  /** The directive's first argument: a promise, or a function that
      returns the promise `made` when it is called. */
  datatype Arg = PromiseArg(promise: int) | FunctionArg(func: int, made: int)

  /** The directive's private fields. */
  datatype Loader = Loader(promise: Option<int>, value: Value, error: Option<Reason>, loading: bool)

  /** What is shown: the loading template, the error template applied to a
      reason, or a settled value. */
  datatype Shown = LoadingTemplate | ErrorTemplate(reason: Reason) | Showing(value: Value)

  /** The field initialisers. */
  const Initial := Loader(None, Null, None, false)

  /** The fields agree: while loading there is neither a value nor an error. */
  predicate Consistent(l: Loader) {
    && (l.loading ==> l.promise.Some? && l.value == Null && l.error.None?)
    && (l.error.Some? ==> l.value == Null)
  }

  /** Whether the argument is the very promise already being handled; a
      function never is, because what is stored is the promise it returned. */
  predicate SameArgument(l: Loader, arg: Arg) {
    arg.PromiseArg? && l.promise == Some(arg.promise)
  }

  /** The promise a render with this argument waits on. */
  function PromiseOf(arg: Arg): int {
    match arg
    case PromiseArg(p) => p
    case FunctionArg(_, p) => p
  }

  /** What a render for the current promise shows. */
  function Current(l: Loader): (s: Shown)
    ensures s.ErrorTemplate? <==> l.error.Some? && l.error.value.truthy
    ensures s.Showing? <==> !(l.error.Some? && l.error.value.truthy) && l.value != Null
    ensures s.Showing? ==> s.value == l.value
    ensures s.ErrorTemplate? ==> Some(s.reason) == l.error
  {
    if l.error.Some? && l.error.value.truthy then ErrorTemplate(l.error.value)
    else if l.value != Null then Showing(l.value)
    else LoadingTemplate
  }

  /** `render`: the same promise re-renders its current state; anything
      else starts a new load and shows the loading template. */
  function Render(l: Loader, arg: Arg): (r: (Loader, Shown))
    ensures SameArgument(l, arg) ==> r == (l, Current(l))
    ensures !SameArgument(l, arg) ==> r == (Loader(Some(PromiseOf(arg)), Null, None, true), LoadingTemplate)
    ensures Consistent(l) ==> Consistent(r.0)
  {
    if SameArgument(l, arg) then (l, Current(l))
    else (Loader(Some(PromiseOf(arg)), Null, None, true), LoadingTemplate)
  }

  /** The success handler for promise `p`: only the active promise updates
      the state and the part. */
  function Resolve(l: Loader, p: int, value: Value): (r: (Loader, Option<Shown>))
    ensures l.promise == Some(p) ==> r == (Loader(Some(p), value, None, false), Some(Showing(value)))
    ensures l.promise != Some(p) ==> r == (l, None)
    ensures Consistent(l) ==> Consistent(r.0)
  {
    if l.promise == Some(p) then (l.(value := value, loading := false, error := None), Some(Showing(value)))
    else (l, None)
  }

  /** The error handler for promise `p`: only the active promise updates
      the state, and the part shows the error template. */
  function Reject(l: Loader, p: int, reason: Reason): (r: (Loader, Option<Shown>))
    ensures l.promise == Some(p) ==> r == (Loader(Some(p), Null, Some(reason), false), Some(ErrorTemplate(reason)))
    ensures l.promise != Some(p) ==> r == (l, None)
    ensures Consistent(l) ==> Consistent(r.0)
  {
    if l.promise == Some(p) then (l.(error := Some(reason), loading := false, value := Null), Some(ErrorTemplate(reason)))
    else (l, None)
  }

  /** `disconnected`: every field back to its initial value. */
  function Disconnected(l: Loader): (r: Loader)
    ensures r == Initial && Consistent(r)
  {
    Loader(None, Null, None, false)
  }

  /** Once a new promise is rendered, the settlement of any other promise
      leaves the state alone and updates nothing. */
  lemma LatestPromiseWins(l: Loader, arg: Arg, q: int, value: Value, reason: Reason)
    requires q != PromiseOf(arg)
    ensures var started := Render(l, arg).0;
      && Resolve(started, q, value) == (started, None)
      && Reject(started, q, reason) == (started, None)
  {
  }

  /** A function argument starts a new load on every render, whatever the
      state, because the stored promise is never the function itself. */
  lemma FunctionArgumentAlwaysReloads(l: Loader, f: int, p: int)
    ensures Render(l, FunctionArg(f, p)) == (Loader(Some(p), Null, None, true), LoadingTemplate)
  {
  }

  /** Re-rendering the same promise changes nothing and shows the same. */
  lemma RenderSamePromiseIdempotent(l: Loader, p: int)
    ensures var (l1, s1) := Render(l, PromiseArg(p));
      Render(l1, PromiseArg(p)) == (l1, s1)
  {
  }

  /** The life of one promise: loading until it settles, then the value,
      or the error template for a truthy reason.  A falsy reason leaves the
      next render of the same promise on the loading template. */
  lemma PromiseLifecycle(l: Loader, p: int, v: int, reason: Reason)
    ensures var (started, shown) := Render(l, PromiseArg(p));
      && (!SameArgument(l, PromiseArg(p)) ==> shown == LoadingTemplate)
      && Render(Resolve(started, p, Val(v)).0, PromiseArg(p)).1 == Showing(Val(v))
      && Render(Reject(started, p, reason).0, PromiseArg(p)).1 ==
           (if reason.truthy then ErrorTemplate(reason) else LoadingTemplate)
  {
  }

  /** After disconnection, no settlement changes anything. */
  lemma DisconnectedIgnoresSettlement(l: Loader, p: int, value: Value, reason: Reason)
    ensures Resolve(Disconnected(l), p, value) == (Initial, None)
    ensures Reject(Disconnected(l), p, reason) == (Initial, None)
  {
  }
}

=== FILE: cache_example.dfy ===
/** The `cache-directive-example` element: three tabs, each with its own
    counter, and a switch for the `cache` directive.  Whether the directive
    keeps the DOM of an inactive tab is rendering and is not modelled. */
module CacheDirectiveExample {

  import opened Results

  datatype Example = Example(activeTab: string, tabOne: int, tabTwo: int, tabThree: int, cacheEnabled: bool)

  function Initial(): (ex: Example)
    ensures ex.activeTab == "tab1" && ex.cacheEnabled
    ensures ex.tabOne == 0 && ex.tabTwo == 0 && ex.tabThree == 0
  {
    Example("tab1", 0, 0, 0, true)
  }

  /** No counter is negative. */
  predicate Valid(ex: Example) {
    ex.tabOne >= 0 && ex.tabTwo >= 0 && ex.tabThree >= 0
  }

  /** The counter a tab name addresses; other names address none. */
  function CounterOf(ex: Example, tab: string): Option<int> {
    if tab == "tab1" then Some(ex.tabOne)
    else if tab == "tab2" then Some(ex.tabTwo)
    else if tab == "tab3" then Some(ex.tabThree)
    else None
  }

  function SetActiveTab(ex: Example, tab: string): (r: Example)
    ensures r.activeTab == tab
    ensures r == ex.(activeTab := tab)
  {
    ex.(activeTab := tab)
  }

  /** `incrementCounter`: the named tab's counter goes up by one and the
      others stay; an unknown name changes nothing. */
  function IncrementCounter(ex: Example, tab: string): (r: Example)
    ensures CounterOf(ex, tab).Some? ==> CounterOf(r, tab) == Some(CounterOf(ex, tab).value + 1)
    ensures forall t | t != tab && CounterOf(ex, t).Some? :: CounterOf(r, t) == CounterOf(ex, t)
    ensures CounterOf(ex, tab).None? ==> r == ex
    ensures r.activeTab == ex.activeTab && r.cacheEnabled == ex.cacheEnabled
  {
    if tab == "tab1" then ex.(tabOne := ex.tabOne + 1)
    else if tab == "tab2" then ex.(tabTwo := ex.tabTwo + 1)
    else if tab == "tab3" then ex.(tabThree := ex.tabThree + 1)
    else ex
  }

  /** `decrementCounter`: the named tab's counter goes down by one unless
      it is zero; the others stay; an unknown name changes nothing. */
  function DecrementCounter(ex: Example, tab: string): (r: Example)
    ensures CounterOf(ex, tab).Some? && CounterOf(ex, tab).value > 0 ==>
      CounterOf(r, tab) == Some(CounterOf(ex, tab).value - 1)
    ensures (CounterOf(ex, tab).None? || CounterOf(ex, tab).value <= 0) ==> r == ex
    ensures forall t | t != tab && CounterOf(ex, t).Some? :: CounterOf(r, t) == CounterOf(ex, t)
    ensures r.activeTab == ex.activeTab && r.cacheEnabled == ex.cacheEnabled
  {
    if tab == "tab1" then (if ex.tabOne > 0 then ex.(tabOne := ex.tabOne - 1) else ex)
    else if tab == "tab2" then (if ex.tabTwo > 0 then ex.(tabTwo := ex.tabTwo - 1) else ex)
    else if tab == "tab3" then (if ex.tabThree > 0 then ex.(tabThree := ex.tabThree - 1) else ex)
    else ex
  }

  function ToggleCache(ex: Example): (r: Example)
    ensures r.cacheEnabled == !ex.cacheEnabled
    ensures r.(cacheEnabled := ex.cacheEnabled) == ex
  {
    ex.(cacheEnabled := !ex.cacheEnabled)
  }

  /** The counters never go negative, whatever is clicked. */
  lemma StepsKeepValid(ex: Example, tab: string)
    requires Valid(ex)
    ensures Valid(IncrementCounter(ex, tab)) && Valid(DecrementCounter(ex, tab))
    ensures Valid(SetActiveTab(ex, tab)) && Valid(ToggleCache(ex))
  {
  }

  /** Incrementing and then decrementing the same tab restores it. */
  lemma IncrementThenDecrement(ex: Example, tab: string)
    requires Valid(ex)
    ensures DecrementCounter(IncrementCounter(ex, tab), tab) == ex
  {
  }

  /** The three tab bodies. */
  datatype Content = TabOne | TabTwo | TabThree

  /** The body `render` picks: tab one, tab two, or tab three for any
      other name. */
  function SelectContent(activeTab: string): (c: Content)
    ensures c == TabOne <==> activeTab == "tab1"
    ensures c == TabTwo <==> activeTab == "tab2"
    ensures c == TabThree <==> activeTab !in {"tab1", "tab2"}
  {
    if activeTab == "tab1" then TabOne else if activeTab == "tab2" then TabTwo else TabThree
  }

  /** What a tab body shows: its heading and its counter. */
  datatype Body = Body(heading: string, counter: int)

  /** Calls one of the three tab-body methods.  `self` is the receiver the
      call is made with: a method read off the element into a local
      variable and called on its own has no receiver, and class code runs
      in strict mode, so reading a counter through it throws a TypeError. */
  function Invoke(c: Content, self: Option<Example>): Result<Body> {
    match self
    case None => Err("TypeError")
    case Some(ex) =>
      match c
      case TabOne => Ok(Body("Tab One Content", ex.tabOne))
      case TabTwo => Ok(Body("Tab Two Content", ex.tabTwo))
      case TabThree => Ok(Body("Tab Three Content", ex.tabThree))
  }

  /** `render` as written: the chosen method is stored in a local and
      called without a receiver. */
  function RenderAsWritten(ex: Example): Result<Body> {
    Invoke(SelectContent(ex.activeTab), None)
  }

  /** Rendering as written fails for every state, cached or not. */
  lemma RenderAsWrittenAlwaysThrows(ex: Example)
    ensures RenderAsWritten(ex) == Err("TypeError")
  {
  }

  /** `render` with the chosen method called on the element. */
  function Render(ex: Example): (r: Result<Body>)
    ensures r.Ok?
  {
    Invoke(SelectContent(ex.activeTab), Some(ex))
  }

  /** The rendered body shows the counter of the tab the name addresses,
      and tab three's for any unknown name. */
  lemma RenderShowsActiveCounter(ex: Example)
    ensures CounterOf(ex, ex.activeTab).Some? ==> Render(ex).value.counter == CounterOf(ex, ex.activeTab).value
    ensures CounterOf(ex, ex.activeTab).None? ==> Render(ex).value.counter == ex.tabThree
  {
  }

  /** Changing a counter on an inactive tab does not change what is shown. */
  lemma InactiveCounterHidden(ex: Example, tab: string)
    requires tab in {"tab1", "tab2", "tab3"} && SelectContent(tab) != SelectContent(ex.activeTab)
    ensures Render(IncrementCounter(ex, tab)) == Render(ex)
  {
  }
}

=== FILE: chart.dfy ===
/** Data preparation of the `tm-task-chart` component: the "nice" y-axis
    maximum and its tick labels for bar charts, the angle accumulation of
    pie/doughnut segments, the colour and label fallbacks, the choice
    between a chart and the empty state, and the inline-style serialiser.
    Chart values are whole numbers; segment angles are exact reals. */
module TaskChart {

  import opened Results
  import opened Text

  /** The five fallback colours, used in turn by dataset or segment index. */
  const Palette: seq<string> := [
    "var(--chart-bar-color-1, #2962ff)",
    "var(--chart-bar-color-2, #00c853)",
    "var(--chart-bar-color-3, #ff6d00)",
    "var(--chart-bar-color-4, #d50000)",
    "var(--chart-bar-color-5, #aa00ff)"
  ]

  /** Number of gaps between y-axis grid lines. */
  const YAxisSteps := 5

  /** One dataset.  An empty `color` stands for a missing or falsy colour. */
  datatype Dataset = Dataset(caption: string, data: seq<int>, color: string, backgroundColor: Option<seq<string>>)

  /** The `data` property; `None` fields are missing (`undefined`/`null`). */
  datatype ChartInput = ChartInput(labels: Option<seq<string>>, datasets: Option<seq<Dataset>>)

  /** One pie/doughnut segment; angles are in degrees. */
  datatype DonutSegment = DonutSegment(value: int, percentage: real, startAngle: real, angle: real, endAngle: real,
                                       color: string, caption: string)

  /** `_chartData`: nothing yet, a processed bar chart, or processed segments. */
  datatype ChartData =
    | NoData
    | Bar(labels: seq<string>, datasets: seq<Dataset>)
    | Donut(segments: seq<DonutSegment>, total: int)

  /** The component's properties and internal state. */
  datatype Chart = Chart(kind: string, data: Option<ChartInput>, chartData: ChartData,
                         yAxisMax: int, yAxisValues: seq<int>)

  /** What `render` shows inside the container.  `RenderError` is the
      TypeError thrown when the cached data has the other chart's shape. */
  datatype View = EmptyState | BarView | DonutView | RenderError

  // ---------------------------------------------------------------- y axis

  function Pow10(k: nat): (r: nat)
    ensures r >= 1
  {
    if k == 0 then 1 else 10 * Pow10(k - 1)
  }

  /** `Math.floor(Math.log10(m))` for a positive whole number. */
  function Log10Floor(m: nat): (k: nat)
    requires m >= 1
    ensures Pow10(k) <= m < 10 * Pow10(k)
  {
    if m < 10 then 0 else 1 + Log10Floor(m / 10)
  }

  /** `_calculateYAxisMax`: 10 for an all-zero chart; otherwise the
      magnitude 10^⌊log10 m⌋ times the first of 1, 2, 5, 10 that reaches m. */
  function YAxisMax(maxValue: nat): (r: nat)
    ensures maxValue == 0 ==> r == 10
    ensures r >= maxValue && r >= 1
    ensures maxValue > 0 ==> 2 * r <= 5 * maxValue
  {
    if maxValue == 0 then 10
    else
      var magnitude := Pow10(Log10Floor(maxValue));
      if maxValue <= magnitude then magnitude
      else if maxValue <= 2 * magnitude then 2 * magnitude
      else if maxValue <= 5 * magnitude then 5 * magnitude
      else 10 * magnitude
  }

  lemma {:induction false} Pow10Monotone(j: nat, k: nat)
    requires j <= k
    ensures Pow10(j) <= Pow10(k)
    decreases k
  {
    if j < k {
      Pow10Monotone(j, k - 1);
    }
  }

  /** For positive m the axis maximum is 1, 2 or 5 times a power of ten. */
  lemma YAxisMaxIsNice(maxValue: nat) returns (factor: nat, k: nat)
    requires maxValue > 0
    ensures factor == 1 || factor == 2 || factor == 5
    ensures YAxisMax(maxValue) == factor * Pow10(k)
  {
    var e := Log10Floor(maxValue);
    var magnitude := Pow10(e);
    if maxValue <= magnitude {
      factor, k := 1, e;
    } else if maxValue <= 2 * magnitude {
      factor, k := 2, e;
    } else if maxValue <= 5 * magnitude {
      factor, k := 5, e;
    } else {
      factor, k := 1, e + 1;
    }
  }

  /** A candidate below the magnitude of m cannot reach m. */
  lemma SmallExponent(maxValue: nat, factor: nat, k: nat)
    requires maxValue > 0
    requires factor == 1 || factor == 2 || factor == 5
    ensures k < Log10Floor(maxValue) ==> factor * Pow10(k) < maxValue
  {
    var e := Log10Floor(maxValue);
    if k < e {
      Pow10Monotone(k + 1, e);
      assert factor * Pow10(k) <= 5 * Pow10(k);
    }
  }

  /** The axis maximum in terms of the magnitude of m. */
  lemma YAxisMaxByMagnitude(maxValue: nat)
    requires maxValue > 0
    ensures var magnitude := Pow10(Log10Floor(maxValue));
      && YAxisMax(maxValue) <= 10 * magnitude
      && (maxValue <= 5 * magnitude ==> YAxisMax(maxValue) <= 5 * magnitude)
      && (maxValue <= 2 * magnitude ==> YAxisMax(maxValue) <= 2 * magnitude)
      && (maxValue <= magnitude ==> YAxisMax(maxValue) <= magnitude)
  {
  }

  /** ... and no smaller number of that form reaches m. */
  lemma YAxisMaxIsLeast(maxValue: nat, factor: nat, k: nat)
    requires maxValue > 0
    requires factor == 1 || factor == 2 || factor == 5
    requires factor * Pow10(k) >= maxValue
    ensures YAxisMax(maxValue) <= factor * Pow10(k)
  {
    var e := Log10Floor(maxValue);
    var magnitude := Pow10(e);
    var candidate := factor * Pow10(k);
    YAxisMaxByMagnitude(maxValue);
    SmallExponent(maxValue, factor, k);
    if k > e {
      Pow10Monotone(e + 1, k);
      assert candidate >= 10 * magnitude by {
        AtLeastOnce(factor, Pow10(k));
      }
    } else if factor == 1 {
      assert candidate == magnitude;
    } else if factor == 2 {
      assert candidate == 2 * magnitude;
    } else {
      assert candidate == 5 * magnitude;
    }
  }

  lemma AtLeastOnce(factor: nat, x: nat)
    requires factor >= 1
    ensures factor * x >= x
  {
  }

  /** `Math.round(yMax * i / 5)` for whole numbers: half rounds up. */
  function Tick(yMax: nat, i: nat): nat {
    (2 * yMax * i + YAxisSteps) / (2 * YAxisSteps)
  }

  /** `_yAxisValues`: six labels from 0 to the maximum. */
  function YAxisValues(yMax: nat): (r: seq<int>)
    ensures |r| == YAxisSteps + 1
    ensures r[0] == 0 && r[YAxisSteps] == yMax
    ensures forall i, j | 0 <= i <= j < |r| :: 0 <= r[i] <= r[j] <= yMax
  {
    var r := seq(YAxisSteps + 1, i requires 0 <= i => Tick(yMax, i));
    assert forall i, j | 0 <= i <= j < |r| :: 2 * yMax * i <= 2 * yMax * j by {
      forall i: nat, j: nat | i <= j ensures 2 * yMax * i <= 2 * yMax * j {
        MultiplyMonotone(2 * yMax, i, j);
      }
    }
    assert forall i | 0 <= i < |r| :: 2 * yMax * i <= 2 * yMax * YAxisSteps by {
      forall i: nat | i <= YAxisSteps ensures 2 * yMax * i <= 2 * yMax * YAxisSteps {
        MultiplyMonotone(2 * yMax, i, YAxisSteps);
      }
    }
    r
  }

  lemma MultiplyMonotone(a: nat, i: nat, j: nat)
    requires i <= j
    ensures a * i <= a * j
  {
  }

  // ------------------------------------------------------------ bar charts

  /** The running maximum of `_processBarData`, started at `acc`. */
  function MaxOfValues(values: seq<int>, acc: int): (m: int)
    ensures m >= acc
    ensures forall j | 0 <= j < |values| :: values[j] <= m
    ensures m == acc || m in values
  {
    if values == [] then acc
    else MaxOfValues(values[1..], if values[0] > acc then values[0] else acc)
  }

  function MaxOfDatasets(datasets: seq<Dataset>, acc: int): (m: int)
    ensures m >= acc
    ensures forall i, j | 0 <= i < |datasets| && 0 <= j < |datasets[i].data| :: datasets[i].data[j] <= m
    ensures m == acc || exists i | 0 <= i < |datasets| :: m in datasets[i].data
  {
    if datasets == [] then acc
    else
      var m := MaxOfDatasets(datasets[1..], MaxOfValues(datasets[0].data, acc));
      assert forall i | 1 <= i < |datasets| :: datasets[i] == datasets[1..][i - 1];
      m
  }

  /** The fallback colour for index `i`. */
  function PaletteColor(i: nat): string {
    Palette[i % |Palette|]
  }

  /** `dataset.color || palette[i % 5]`. */
  function WithColor(d: Dataset, i: nat): (r: Dataset)
    ensures r.caption == d.caption && r.data == d.data && r.backgroundColor == d.backgroundColor
    ensures r.color == (if d.color != "" then d.color else PaletteColor(i))
  {
    d.(color := if d.color != "" then d.color else PaletteColor(i))
  }

  function ColorDatasets(datasets: seq<Dataset>): (r: seq<Dataset>)
    ensures |r| == |datasets|
    ensures forall i | 0 <= i < |r| :: r[i] == WithColor(datasets[i], i)
  {
    seq(|datasets|, i requires 0 <= i < |datasets| => WithColor(datasets[i], i))
  }

  /** `_processBarData`: nothing happens without labels or without a
      non-empty dataset list; otherwise the axis and the coloured datasets
      are computed. */
  function ProcessBarData(c: Chart, input: ChartInput): (r: Chart)
    ensures r.kind == c.kind && r.data == c.data
    ensures input.labels.None? || input.datasets.None? || input.datasets.value == [] ==> r == c
    ensures input.labels.Some? && input.datasets.Some? && input.datasets.value != [] ==>
      var ds := input.datasets.value;
      && r.chartData == Bar(input.labels.value, ColorDatasets(ds))
      && r.yAxisMax == YAxisMax(MaxOfDatasets(ds, 0))
      && r.yAxisValues == YAxisValues(r.yAxisMax)
      && r.yAxisMax >= 0
      && (forall i, j | 0 <= i < |ds| && 0 <= j < |ds[i].data| :: ds[i].data[j] <= r.yAxisMax)
      && |r.yAxisValues| == 6 && r.yAxisValues[0] == 0 && r.yAxisValues[5] == r.yAxisMax
  {
    if input.labels.None? || input.datasets.None? || input.datasets.value == [] then c
    else
      var ds := input.datasets.value;
      var maxValue := MaxOfDatasets(ds, 0);
      var yMax := YAxisMax(maxValue);
      c.(chartData := Bar(input.labels.value, ColorDatasets(ds)), yAxisMax := yMax, yAxisValues := YAxisValues(yMax))
  }

  /** `dataset.data[labelIndex] || 0`: a missing value draws as 0. */
  function BarValue(d: Dataset, labelIndex: nat): (v: int)
    ensures labelIndex < |d.data| ==> v == d.data[labelIndex]
    ensures labelIndex >= |d.data| ==> v == 0
  {
    if labelIndex < |d.data| then d.data[labelIndex] else 0
  }

  /** A bar's height as a percentage of the axis. */
  function BarHeight(value: int, yMax: int): real
    requires yMax > 0
  {
    value as real / yMax as real * 100.0
  }

  /** After processing, no bar reaches above the top grid line, and bars
      of non-negative values start at the bottom. */
  lemma BarsFitTheAxis(c: Chart, input: ChartInput, datasetIndex: nat, labelIndex: nat)
    requires input.labels.Some? && input.datasets.Some?
    requires datasetIndex < |input.datasets.value|
    ensures var r := ProcessBarData(c, input);
      var value := BarValue(input.datasets.value[datasetIndex], labelIndex);
      && r.yAxisMax > 0
      && BarHeight(value, r.yAxisMax) <= 100.0
      && (value >= 0 ==> BarHeight(value, r.yAxisMax) >= 0.0)
  {
    var r := ProcessBarData(c, input);
    var d := input.datasets.value[datasetIndex];
    if labelIndex < |d.data| {
      assert d.data[labelIndex] <= r.yAxisMax;
    }
    HeightBounds(BarValue(d, labelIndex), r.yAxisMax);
  }

  lemma HeightBounds(value: int, yMax: int)
    requires 0 < yMax && value <= yMax
    ensures BarHeight(value, yMax) <= 100.0
    ensures value >= 0 ==> BarHeight(value, yMax) >= 0.0
  {
    var q := value as real / yMax as real;
    assert q * yMax as real == value as real;
    assert q <= 1.0;
  }

  // ------------------------------------------------------- donut segments

  function Sum(values: seq<int>): int {
    if values == [] then 0 else values[0] + Sum(values[1..])
  }

  /** `backgroundColor?.[i] || palette[i % 5]`. */
  function SegmentColor(backgroundColor: Option<seq<string>>, i: nat): (r: string)
    ensures backgroundColor.Some? && i < |backgroundColor.value| && backgroundColor.value[i] != "" ==>
      r == backgroundColor.value[i]
    ensures !(backgroundColor.Some? && i < |backgroundColor.value| && backgroundColor.value[i] != "") ==>
      r == PaletteColor(i)
  {
    if backgroundColor.Some? && i < |backgroundColor.value| && backgroundColor.value[i] != "" then backgroundColor.value[i]
    else PaletteColor(i)
  }

  /** `labels[i] || \`Item ${i + 1}\``. */
  function SegmentLabel(labels: seq<string>, i: nat): (r: string)
    ensures i < |labels| && labels[i] != "" ==> r == labels[i]
    ensures !(i < |labels| && labels[i] != "") ==> r == "Item " + NatToString(i + 1)
  {
    if i < |labels| && labels[i] != "" then labels[i] else "Item " + NatToString(i + 1)
  }

  /** The segments for `values[i..]`, the first one starting at `current`. */
  function BuildSegments(values: seq<int>, total: int, i: nat, current: real,
                         backgroundColor: Option<seq<string>>, labels: seq<string>): (r: seq<DonutSegment>)
    requires i <= |values|
    ensures |r| == |values| - i
    ensures |r| > 0 ==> r[0].startAngle == current && r[0].value == values[i]
    decreases |values| - i
  {
    if i == |values| then []
    else
      var value := values[i];
      var percentage := if total == 0 then 0.0 else (value as real / total as real) * 100.0;
      var angle := if total == 0 then 0.0 else (value as real / total as real) * 360.0;
      var segment := DonutSegment(value, percentage, current, angle, current + angle,
                                  SegmentColor(backgroundColor, i), SegmentLabel(labels, i));
      [segment] + BuildSegments(values, total, i + 1, current + angle, backgroundColor, labels)
  }

  /** Segment `k` is built from value `i + k` with that index's colour and
      caption. */
  lemma {:induction false} SegmentsFollowValues(values: seq<int>, total: int, i: nat, current: real,
                                                backgroundColor: Option<seq<string>>, labels: seq<string>)
    requires i <= |values|
    ensures forall k | 0 <= k < |values| - i ::
      var segment := BuildSegments(values, total, i, current, backgroundColor, labels)[k];
      && segment.value == values[i + k]
      && segment.color == SegmentColor(backgroundColor, i + k)
      && segment.caption == SegmentLabel(labels, i + k)
    decreases |values| - i
  {
    if i < |values| {
      var r := BuildSegments(values, total, i, current, backgroundColor, labels);
      var angle := r[0].angle;
      var rest := BuildSegments(values, total, i + 1, current + angle, backgroundColor, labels);
      assert r == [r[0]] + rest;
      SegmentsFollowValues(values, total, i + 1, current + angle, backgroundColor, labels);
      forall k | 0 <= k < |r|
        ensures r[k].value == values[i + k]
        ensures r[k].color == SegmentColor(backgroundColor, i + k)
        ensures r[k].caption == SegmentLabel(labels, i + k)
      {
        if k > 0 {
          assert r[k] == rest[k - 1];
          assert i + 1 + (k - 1) == i + k;
        }
      }
    }
  }

  /** Each segment ends where the next begins, and a zero total gives
      empty segments. */
  lemma {:induction false} SegmentsContiguous(values: seq<int>, total: int, i: nat, current: real,
                                              backgroundColor: Option<seq<string>>, labels: seq<string>)
    requires i <= |values|
    ensures forall k | 0 <= k < |values| - i ::
      var segment := BuildSegments(values, total, i, current, backgroundColor, labels)[k];
      && segment.endAngle == segment.startAngle + segment.angle
      && (total == 0 ==> segment.percentage == 0.0 && segment.angle == 0.0)
    ensures forall k | 0 <= k < |values| - i - 1 ::
      BuildSegments(values, total, i, current, backgroundColor, labels)[k + 1].startAngle ==
      BuildSegments(values, total, i, current, backgroundColor, labels)[k].endAngle
    decreases |values| - i
  {
    if i < |values| {
      var r := BuildSegments(values, total, i, current, backgroundColor, labels);
      var angle := r[0].angle;
      var rest := BuildSegments(values, total, i + 1, current + angle, backgroundColor, labels);
      assert r == [r[0]] + rest;
      SegmentsContiguous(values, total, i + 1, current + angle, backgroundColor, labels);
      forall k | 0 <= k < |r|
        ensures r[k].endAngle == r[k].startAngle + r[k].angle
        ensures total == 0 ==> r[k].percentage == 0.0 && r[k].angle == 0.0
      {
        if k > 0 {
          assert r[k] == rest[k - 1];
        }
      }
      forall k | 0 <= k < |r| - 1 ensures r[k + 1].startAngle == r[k].endAngle {
        assert r[k + 1] == rest[k];
        if k > 0 {
          assert r[k] == rest[k - 1];
        }
      }
    }
  }

  /** Fractions of one total add up. */
  lemma AnglesAdd(a: int, b: int, total: int)
    requires total != 0
    ensures (a as real / total as real) * 360.0 + (b as real / total as real) * 360.0
            == ((a + b) as real / total as real) * 360.0
  {
  }

  /** The last segment ends where the share of the remaining values
      carries the first start. */
  lemma {:induction false} SegmentsEnd(values: seq<int>, total: int, i: nat, current: real,
                                       backgroundColor: Option<seq<string>>, labels: seq<string>)
    requires i < |values| && total != 0
    ensures var r := BuildSegments(values, total, i, current, backgroundColor, labels);
      r[|r| - 1].endAngle == current + (Sum(values[i..]) as real / total as real) * 360.0
    decreases |values| - i
  {
    var angle := (values[i] as real / total as real) * 360.0;
    SumFrom(values, i);
    if i + 1 < |values| {
      SegmentsEnd(values, total, i + 1, current + angle, backgroundColor, labels);
      SegmentsLast(values, total, i, current, backgroundColor, labels);
      AnglesAdd(values[i], Sum(values[i + 1..]), total);
    } else {
      assert values[i + 1..] == [];
    }
  }

  lemma SumFrom(values: seq<int>, i: nat)
    requires i < |values|
    ensures Sum(values[i..]) == values[i] + Sum(values[i + 1..])
  {
    assert values[i..][1..] == values[i + 1..];
  }

  /** The last segment built from `i` is the last one built from `i + 1`. */
  lemma SegmentsLast(values: seq<int>, total: int, i: nat, current: real,
                     backgroundColor: Option<seq<string>>, labels: seq<string>)
    requires i + 1 < |values| && total != 0
    ensures var r := BuildSegments(values, total, i, current, backgroundColor, labels);
      var rest := BuildSegments(values, total, i + 1, current + (values[i] as real / total as real) * 360.0,
                                backgroundColor, labels);
      r[|r| - 1] == rest[|rest| - 1]
  {
  }

  /** `_processDonutData`: without a non-empty dataset list nothing happens;
      otherwise the first dataset becomes contiguous segments starting at 0°. */
  function ProcessDonutData(c: Chart, input: ChartInput): (r: Chart)
    ensures r.kind == c.kind && r.data == c.data && r.yAxisMax == c.yAxisMax && r.yAxisValues == c.yAxisValues
    ensures input.datasets.None? || input.datasets.value == [] ==> r == c
    ensures input.datasets.Some? && input.datasets.value != [] ==>
      var values := input.datasets.value[0].data;
      && r.chartData.Donut?
      && r.chartData.total == Sum(values)
      && |r.chartData.segments| == |values|
      && (|values| > 0 ==> r.chartData.segments[0].startAngle == 0.0)
  {
    if input.datasets.None? || input.datasets.value == [] then c
    else
      var dataset := input.datasets.value[0];
      var labels := if input.labels.Some? then input.labels.value else [];
      var total := Sum(dataset.data);
      c.(chartData := Donut(BuildSegments(dataset.data, total, 0, 0.0, dataset.backgroundColor, labels), total))
  }

  /** The processed segments tile the circle: contiguous from 0 degrees,
      the last one ending at 360 when the total is not zero; a zero total
      gives empty segments. */
  lemma DonutSegmentsContiguous(c: Chart, input: ChartInput)
    requires input.datasets.Some? && input.datasets.value != []
    ensures var d := ProcessDonutData(c, input).chartData;
      && (forall k | 0 <= k < |d.segments| :: d.segments[k].endAngle == d.segments[k].startAngle + d.segments[k].angle)
      && (forall k | 0 <= k < |d.segments| - 1 :: d.segments[k + 1].startAngle == d.segments[k].endAngle)
      && (|d.segments| > 0 ==> d.segments[0].startAngle == 0.0)
      && (d.total != 0 ==> |d.segments| > 0 && d.segments[|d.segments| - 1].endAngle == 360.0)
      && (d.total == 0 ==> forall k | 0 <= k < |d.segments| :: d.segments[k].percentage == 0.0 && d.segments[k].angle == 0.0)
  {
    var dataset := input.datasets.value[0];
    var labels := if input.labels.Some? then input.labels.value else [];
    var total := Sum(dataset.data);
    SegmentsContiguous(dataset.data, total, 0, 0.0, dataset.backgroundColor, labels);
    if total != 0 {
      SegmentsCloseCircle(dataset.data, dataset.backgroundColor, labels);
    }
  }

  /** With a non-zero total the last segment ends at 360 degrees. */
  lemma SegmentsCloseCircle(values: seq<int>, backgroundColor: Option<seq<string>>, labels: seq<string>)
    requires Sum(values) != 0
    ensures var r := BuildSegments(values, Sum(values), 0, 0.0, backgroundColor, labels);
      |r| > 0 && r[|r| - 1].endAngle == 360.0
  {
    assert values != [] && values[0..] == values;
    SegmentsEnd(values, Sum(values), 0, 0.0, backgroundColor, labels);
    WholeShare(Sum(values));
  }

  lemma WholeShare(total: int)
    requires total != 0
    ensures 0.0 + (total as real / total as real) * 360.0 == 360.0
  {
  }

  /** The large-arc flag of a segment's SVG path: 1 exactly for segments
      wider than half the circle. */
  function LargeArc(segment: DonutSegment): (flag: nat)
    ensures flag == 1 <==> segment.angle > 180.0
    ensures flag <= 1
  {
    if segment.angle > 180.0 then 1 else 0
  }

  // ------------------------------------------------------ state and views

  /** The constructor's defaults. */
  const InitialChart := Chart("bar", None, NoData, 0, [])

  /** `_processData`: without data nothing happens; bar charts and
      pie/doughnut charts are processed; other kinds are left alone. */
  function ProcessData(c: Chart): (r: Chart)
    ensures c.data.None? ==> r == c
    ensures c.data.Some? && c.kind == "bar" ==> r == ProcessBarData(c, c.data.value)
    ensures c.data.Some? && (c.kind == "pie" || c.kind == "doughnut") ==> r == ProcessDonutData(c, c.data.value)
    ensures c.kind != "bar" && c.kind != "pie" && c.kind != "doughnut" ==> r == c
  {
    if c.data.None? then c
    else if c.kind == "bar" then ProcessBarData(c, c.data.value)
    else if c.kind == "pie" || c.kind == "doughnut" then ProcessDonutData(c, c.data.value)
    else c
  }

  /** The part of `render` that picks the chart or the empty state.
      `render` runs before `updated` reprocesses the data, so after a
      change of `type` it meets data prepared for the other kind: the bar
      chart then maps over missing labels and the pie chart over missing
      segments, and both throw. */
  function ChooseView(c: Chart): (v: View)
    ensures v == BarView <==> c.kind == "bar" && c.chartData.Bar?
    ensures v == DonutView <==> (c.kind == "pie" || c.kind == "doughnut") && c.chartData.Donut? && c.chartData.total != 0
    ensures v == RenderError <==>
      || (c.kind == "bar" && c.chartData.Donut?)
      || ((c.kind == "pie" || c.kind == "doughnut") && c.chartData.Bar?)
  {
    if c.kind == "bar" then
      match c.chartData
      case NoData => EmptyState
      case Bar(_, _) => BarView
      case Donut(_, _) => RenderError
    else if c.kind == "pie" || c.kind == "doughnut" then
      match c.chartData
      case NoData => EmptyState
      case Bar(_, _) => RenderError
      case Donut(_, total) => if total == 0 then EmptyState else DonutView
    else EmptyState
  }

  /** Bar data with labels and at least one dataset is drawn as bars once
      processed, whatever was cached before. */
  lemma PreparedBarsDrawn(c: Chart, input: ChartInput)
    requires c.kind == "bar" && c.data == Some(input)
    requires input.labels.Some? && input.datasets.Some? && input.datasets.value != []
    ensures ChooseView(ProcessData(c)) == BarView
  {
  }

  /** Pie data whose first dataset has a non-zero sum is drawn once
      processed. */
  lemma PreparedDonutDrawn(c: Chart, input: ChartInput)
    requires (c.kind == "pie" || c.kind == "doughnut") && c.data == Some(input)
    requires input.datasets.Some? && input.datasets.value != [] && Sum(input.datasets.value[0].data) != 0
    ensures ChooseView(ProcessData(c)) == DonutView
  {
  }

  /** Switching a drawn pie chart to "bar" throws on the render that
      precedes reprocessing. */
  lemma SwitchToBarThrows(c: Chart)
    requires (c.kind == "pie" || c.kind == "doughnut") && ChooseView(c) == DonutView
    ensures ChooseView(c.(kind := "bar")) == RenderError
  {
  }

  // ------------------------------------------------------ update cycle

  /** Bar data that `_processBarData` accepts. */
  predicate BarReady(input: ChartInput) {
    input.labels.Some? && input.datasets.Some? && input.datasets.value != []
  }

  /** Pie data whose first dataset sums to something other than zero. */
  predicate DonutReady(input: ChartInput) {
    input.datasets.Some? && input.datasets.value != [] && Sum(input.datasets.value[0].data) != 0
  }

  /** A chart as an element is mounted: its `type` and `data` properties
      set, nothing processed yet. */
  function Mounted(kind: string, input: ChartInput): (c: Chart)
    ensures c.kind == kind && c.data == Some(input) && c.chartData.NoData?
  {
    InitialChart.(kind := kind, data := Some(input))
  }

  /** One Lit update as the component is written: `render` reads the cached
      `_chartData` first, and only afterwards do `firstUpdated`/`updated`
      process the data.  The result lands in a non-reactive field, so no
      further update is scheduled and the returned view stays on screen. */
  function UpdateAsWritten(c: Chart): (r: (Chart, View))
    ensures c.chartData.NoData? ==> r.1 == EmptyState
    ensures r.0.kind == c.kind && r.0.data == c.data
  {
    (ProcessData(c), ChooseView(c))
  }

  /** A chart mounted with bar data that would be drawn shows the empty
      state after its first update, while the processed data it now holds
      would be drawn as bars. */
  lemma MountedBarsShowEmptyState(input: ChartInput)
    requires BarReady(input)
    ensures var (after, shown) := UpdateAsWritten(Mounted("bar", input));
      shown == EmptyState && ChooseView(after) == BarView
  {
  }

  /** The update the component evidently intends: the data is processed
      before `render` reads it (as `willUpdate` would), so the view shown
      is the view of the state the update leaves behind. */
  function Update(c: Chart): (r: (Chart, View))
    ensures r.1 == ChooseView(r.0)
    ensures r.0.kind == c.kind && r.0.data == c.data
    ensures c.kind == "bar" && c.data.Some? && BarReady(c.data.value) ==> r.1 == BarView
    ensures (c.kind == "pie" || c.kind == "doughnut") && c.data.Some? && DonutReady(c.data.value) ==> r.1 == DonutView
  {
    var processed := ProcessData(c);
    (processed, ChooseView(processed))
  }

  /** With processing before rendering, a mounted chart draws its data on
      the first update, and switching a drawn pie chart to bars with bar
      data draws bars instead of throwing. */
  lemma MountedChartsDrawn(input: ChartInput, c: Chart)
    requires BarReady(input)
    requires (c.kind == "pie" || c.kind == "doughnut") && ChooseView(c) == DonutView
    ensures Update(Mounted("bar", input)).1 == BarView
    ensures DonutReady(input) ==> Update(Mounted("doughnut", input)).1 == DonutView
    ensures Update(c.(kind := "bar", data := Some(input))).1 == BarView
  {
  }

  /** A pie chart whose values sum to zero falls back to the empty state,
      whatever the values were. */
  lemma ZeroTotalShowsEmptyState(c: Chart, input: ChartInput)
    requires c.kind == "pie" || c.kind == "doughnut"
    requires c.data == Some(input)
    requires input.datasets.Some? && input.datasets.value != [] && Sum(input.datasets.value[0].data) == 0
    ensures ChooseView(ProcessData(c)) == EmptyState
  {
  }

  // ------------------------------------------------------------ style map

  /** Declarations `key: value` of the entries whose value is defined. */
  function Declarations(entries: seq<(string, Option<string>)>): (r: seq<string>)
    ensures |r| <= |entries|
  {
    if entries == [] then []
    else
      var rest := Declarations(entries[1..]);
      if entries[0].1.Some? then [entries[0].0 + ": " + entries[0].1.value] + rest else rest
  }

  function Join(parts: seq<string>, sep: string): string {
    if parts == [] then ""
    else if |parts| == 1 then parts[0]
    else parts[0] + sep + Join(parts[1..], sep)
  }

  /** `_styleMap`: undefined values are dropped, the rest become
      `key: value` and are joined with "; " in entry order. */
  function StyleMap(entries: seq<(string, Option<string>)>): string {
    Join(Declarations(entries), "; ")
  }

  /** The defined entries, in order. */
  function Defined(entries: seq<(string, Option<string>)>): (r: seq<(string, string)>)
    ensures |r| <= |entries|
  {
    if entries == [] then []
    else
      var rest := Defined(entries[1..]);
      if entries[0].1.Some? then [(entries[0].0, entries[0].1.value)] + rest else rest
  }

  /** Splits `s` at every occurrence of the two-character separator. */
  function SplitOn(s: string, sep: string): seq<string>
    requires |sep| == 2
    decreases |s|
  {
    var i := IndexOf(s, sep, 0);
    if i == -1 then [s] else [s[..i]] + SplitOn(s[i + 2..], sep)
  }

  /** Reads a declaration `key: value` back into its pair. */
  function ParseDeclaration(d: string): (string, string) {
    var i := IndexOf(d, ": ", 0);
    if i == -1 then (d, "") else (d[..i], d[i + 2..])
  }

  function ParseDeclarations(ds: seq<string>): seq<(string, string)> {
    if ds == [] then [] else [ParseDeclaration(ds[0])] + ParseDeclarations(ds[1..])
  }

  /** Reads a serialised style back into its declarations. */
  function ParseStyle(s: string): seq<(string, string)> {
    if s == "" then [] else ParseDeclarations(SplitOn(s, "; "))
  }

  /** Keys and values contain no ';', and keys contain no ':'. */
  predicate PlainEntries(entries: seq<(string, Option<string>)>) {
    forall k | 0 <= k < |entries| ::
      ';' !in entries[k].0 && ':' !in entries[k].0 && (entries[k].1.Some? ==> ';' !in entries[k].1.value)
  }

  lemma {:induction false} FirstOccurrenceAfter(p: string, sep: string, rest: string)
    requires |sep| == 2 && sep[0] !in p
    ensures IndexOf(p + sep + rest, sep, 0) == |p|
  {
    var s := p + sep + rest;
    assert Occurs(s, sep, |p|) by {
      assert s[|p|..|p| + 2] == sep;
    }
    forall i | 0 <= i < |p| ensures !Occurs(s, sep, i) {
      assert s[i..i + 2][0] == s[i] == p[i];
    }
  }

  lemma {:induction false} NoOccurrence(p: string, sep: string)
    requires |sep| == 2 && sep[0] !in p
    ensures IndexOf(p, sep, 0) == -1
  {
    forall i | 0 <= i && i + 2 <= |p| ensures !Occurs(p, sep, i) {
      assert p[i..i + 2][0] == p[i];
    }
  }

  lemma {:induction false} SplitJoin(parts: seq<string>)
    requires parts != []
    requires forall k | 0 <= k < |parts| :: ';' !in parts[k]
    ensures SplitOn(Join(parts, "; "), "; ") == parts
    decreases |parts|
  {
    if |parts| == 1 {
      NoOccurrence(parts[0], "; ");
    } else {
      var rest := Join(parts[1..], "; ");
      FirstOccurrenceAfter(parts[0], "; ", rest);
      var s := parts[0] + "; " + rest;
      assert s[..|parts[0]|] == parts[0];
      assert s[|parts[0]| + 2..] == rest;
      SplitJoin(parts[1..]);
      assert parts == [parts[0]] + parts[1..];
    }
  }

  lemma {:induction false} ParseDeclarationsOfEntries(entries: seq<(string, Option<string>)>)
    requires PlainEntries(entries)
    ensures ParseDeclarations(Declarations(entries)) == Defined(entries)
    ensures forall k | 0 <= k < |Declarations(entries)| :: ';' !in Declarations(entries)[k]
    decreases |entries|
  {
    if entries != [] {
      assert PlainEntries(entries[1..]) by {
        forall k | 0 <= k < |entries[1..]| ensures ';' !in entries[1..][k].0 {
          assert entries[1..][k] == entries[k + 1];
        }
      }
      ParseDeclarationsOfEntries(entries[1..]);
      var (key, value) := entries[0];
      if value.Some? {
        var d := key + ": " + value.value;
        assert d == key + ": " + value.value + "";
        FirstOccurrenceAfter(key, ": ", value.value);
        assert d[..|key|] == key;
        assert d[|key| + 2..] == value.value;
        assert ';' !in d;
      }
    }
  }

  lemma DeclarationsNonEmpty(entries: seq<(string, Option<string>)>)
    ensures Declarations(entries) == [] <==> Defined(entries) == []
    ensures Declarations(entries) != [] ==> StyleMap(entries) != ""
  {
    if Declarations(entries) != [] {
      var ds := Declarations(entries);
      assert |ds[0]| >= 2 by {
        DeclarationShape(entries);
      }
      if |ds| > 1 {
        assert Join(ds, "; ") == ds[0] + "; " + Join(ds[1..], "; ");
      }
    }
  }

  lemma {:induction false} DeclarationShape(entries: seq<(string, Option<string>)>)
    ensures forall k | 0 <= k < |Declarations(entries)| :: |Declarations(entries)[k]| >= 2
    ensures Declarations(entries) == [] <==> Defined(entries) == []
    decreases |entries|
  {
    if entries != [] {
      DeclarationShape(entries[1..]);
    }
  }

  /** The serialised style reads back as exactly the defined entries, in
      order: undefined values are dropped and nothing else is lost. */
  lemma StyleMapRoundTrip(entries: seq<(string, Option<string>)>)
    requires PlainEntries(entries)
    ensures ParseStyle(StyleMap(entries)) == Defined(entries)
  {
    ParseDeclarationsOfEntries(entries);
    DeclarationsNonEmpty(entries);
    var ds := Declarations(entries);
    if ds != [] {
      SplitJoin(ds);
    }
  }
}

=== FILE: counter.dfy ===
/** The `counter-element` of the testing chapter: a count that the
    increment button raises up to an optional maximum and that reset
    returns to zero, each change announced with a `count-changed` event.
    Both `count` and `max` are `Number` properties, so either may be
    fractional (`max="2.5"`); they are modelled as reals. */
module Counter {

  import opened Results

  /** The `max` property: a number, or `Infinity` (the default). */
  datatype Bound = Finite(limit: real) | Infinite

  datatype CounterElement = CounterElement(count: real, caption: string, max: Bound)

  /** The `count-changed` event's detail value. */
  datatype Event = CountChanged(value: real)

  /** What `render` derives from the state. */
  datatype View = View(incrementDisabled: bool, maxReachedClass: bool, shown: real)

  /** The constructor's defaults. */
  const Initial := CounterElement(0.0, "Count", Infinite)

  predicate Below(count: real, max: Bound) {
    max.Infinite? || count < max.limit
  }

  /** `count >= max`. */
  predicate MaxReached(c: CounterElement) {
    !Below(c.count, c.max)
  }

  predicate IsWhole(x: real) {
    x.Floor as real == x
  }

  function Min(a: nat, b: nat): nat {
    if a <= b then a else b
  }

  /** The number of increments that take `x` to `limit` or beyond: the
      least whole `k` with `x + k >= limit`. */
  function Need(x: real, limit: real): (k: nat)
    requires x < limit
    ensures k >= 1
    ensures x + k as real >= limit
    ensures x + (k - 1) as real < limit
  {
    var d := limit - x;
    if d.Floor as real == d then d.Floor else d.Floor + 1
  }

  /** `Need` is the only whole number with its two defining bounds. */
  lemma NeedUnique(x: real, limit: real, k: int)
    requires x < limit
    requires x + k as real >= limit && x + (k - 1) as real < limit
    ensures k == Need(x, limit)
  {
    var m := Need(x, limit);
  }

  /** One step up from a whole number below a whole limit stays within it. */
  lemma WholeStep(x: real, max: Bound)
    ensures max.Finite? && IsWhole(x) && IsWhole(max.limit) && x < max.limit ==> x + 1.0 <= max.limit
  {
    if max.Finite? && IsWhole(x) && IsWhole(max.limit) && x < max.limit {
      assert x.Floor < max.limit.Floor;
    }
  }

  /** `increment`: only below the maximum does the count rise by one and
      the change get announced. A click may therefore take the count past
      a fractional maximum, but by less than one, and never past a whole
      maximum from a whole count. */
  function Increment(c: CounterElement): (r: (CounterElement, Option<Event>))
    ensures Below(c.count, c.max) ==> r.0 == c.(count := c.count + 1.0) && r.1 == Some(CountChanged(c.count + 1.0))
    ensures MaxReached(c) ==> r == (c, None)
    ensures c.max.Finite? ==> r.0 == c || r.0.count < c.max.limit + 1.0
    ensures c.max.Finite? && IsWhole(c.count) && IsWhole(c.max.limit) && c.count <= c.max.limit ==>
              r.0.count <= c.max.limit
  {
    WholeStep(c.count, c.max);
    if Below(c.count, c.max) then (c.(count := c.count + 1.0), Some(CountChanged(c.count + 1.0)))
    else (c, None)
  }

  /** `reset`: back to zero, announced even when the count was already 0. */
  function Reset(c: CounterElement): (r: (CounterElement, Event))
    ensures r.0.count == 0.0 && r.0.max == c.max && r.0.caption == c.caption
    ensures r.1 == CountChanged(0.0)
  {
    (c.(count := 0.0), CountChanged(0.0))
  }

  /** The button is disabled and the count highlighted exactly at the maximum. */
  function Render(c: CounterElement): (v: View)
    ensures v.incrementDisabled <==> MaxReached(c)
    ensures v.maxReachedClass == v.incrementDisabled
    ensures v.shown == c.count
  {
    var reached := MaxReached(c);
    View(reached, reached, c.count)
  }

  /** `n` clicks of the increment button, with the events they raise. */
  function Clicks(c: CounterElement, n: nat): (CounterElement, seq<Event>)
    decreases n
  {
    if n == 0 then (c, [])
    else
      var (next, e) := Increment(c);
      var (last, events) := Clicks(next, n - 1);
      (last, (if e.Some? then [e.value] else []) + events)
  }

  /** `n` clicks raise the count by one per effective click, and a click is
      effective until the count first reaches the maximum; the events
      announce the successive counts. */
  lemma {:induction false} ClicksSaturate(c: CounterElement, n: nat)
    ensures var (last, events) := Clicks(c, n);
      && last.max == c.max && last.caption == c.caption
      && last.count == c.count + |events| as real
      && (forall i | 0 <= i < |events| :: events[i] == CountChanged(c.count + (i + 1) as real))
      && (c.max.Infinite? ==> |events| == n)
      && (c.max.Finite? && c.count >= c.max.limit ==> |events| == 0)
      && (c.max.Finite? && c.count < c.max.limit ==> |events| == Min(n, Need(c.count, c.max.limit)))
    decreases n
  {
    if n > 0 {
      var (next, e) := Increment(c);
      ClicksSaturate(next, n - 1);
      if c.max.Finite? && c.count < c.max.limit && next.count < c.max.limit {
        NeedUnique(c.count, c.max.limit, Need(next.count, c.max.limit) + 1);
      }
    }
  }

  /** From below a finite maximum, any number of clicks leaves the count
      less than one above it, and at or below it when the count and the
      maximum are whole. */
  lemma ClicksOvershootLessThanOne(c: CounterElement, n: nat)
    requires c.max.Finite? && c.count < c.max.limit
    ensures Clicks(c, n).0.count < c.max.limit + 1.0
    ensures IsWhole(c.count) && IsWhole(c.max.limit) ==> Clicks(c, n).0.count <= c.max.limit
  {
    ClicksSaturate(c, n);
    var k := Need(c.count, c.max.limit);
    if IsWhole(c.count) && IsWhole(c.max.limit) {
      NeedUnique(c.count, c.max.limit, c.max.limit.Floor - c.count.Floor);
    }
  }

  /** `max="2.5"`: three clicks from 0 pass the maximum, since 2 < 2.5. */
  lemma FractionalMaxPassed()
    ensures Clicks(Initial.(max := Finite(2.5)), 3).0.count == 3.0
  {
    ClicksSaturate(Initial.(max := Finite(2.5)), 3);
    NeedUnique(0.0, 2.5, 3);
  }

  /** Starting from zero, enough clicks always reach a finite maximum and
      disable the button. */
  lemma ClicksReachMax(limit: real, n: nat)
    requires n as real >= limit
    ensures Render(Clicks(Initial.(max := Finite(limit)), n).0).incrementDisabled
  {
    var c := Initial.(max := Finite(limit));
    ClicksSaturate(c, n);
    if 0.0 < limit {
      var k := Need(0.0, limit);
    }
  }
}

=== FILE: dashboard.dfy ===
/** The `data-dashboard` component's data processing: the status, priority
    and search filters applied one after the other, then a sort by the
    chosen key and direction; and the filter-change handler.  Creation
    dates are millisecond timestamps. */
module Dashboard {

  import opened Text
  import opened Lists
  import opened Sorting

  datatype Item = Item(id: int, title: string, description: string, status: string, priority: string,
                       category: string, createdAt: int)

  datatype Filter = Filter(status: string, priority: string, search: string)

  /** Which filter a select or input changes. */
  datatype FilterField = StatusField | PriorityField | SearchField

  datatype DashboardState = DashboardState(filter: Filter, sortBy: string, sortDirection: string)

  /** The constructor's defaults. */
  const Initial := DashboardState(Filter("all", "all", ""), "date", "desc")

  predicate StatusMatches(item: Item, filter: Filter) {
    filter.status == "all" || item.status == filter.status
  }

  predicate PriorityMatches(item: Item, filter: Filter) {
    filter.priority == "all" || item.priority == filter.priority
  }

  /** An empty search keeps everything; otherwise the lower-cased title or
      description must contain the lower-cased term. */
  predicate SearchMatches(item: Item, filter: Filter) {
    filter.search == []
    || Includes(Lower(item.title), Lower(filter.search))
    || Includes(Lower(item.description), Lower(filter.search))
  }

  /** The three filters together. */
  predicate Matches(item: Item, filter: Filter) {
    StatusMatches(item, filter) && PriorityMatches(item, filter) && SearchMatches(item, filter)
  }

  /** The comparator's key: title, priority or status by name, and the
      creation date for "date" and every other value. */
  function SortKey(sortBy: string): Item -> Key {
    if sortBy == "title" then (item: Item) => Str(item.title)
    else if sortBy == "priority" then (item: Item) => Str(item.priority)
    else if sortBy == "status" then (item: Item) => Str(item.status)
    else (item: Item) => Time(item.createdAt)
  }

  /** The filter stages of `_processData`, in the source's order. */
  function FilterItems(data: seq<Item>, filter: Filter): (r: seq<Item>) {
    var byStatus := if filter.status != "all" then Keep(data, (item: Item) => item.status == filter.status) else data;
    var byPriority := if filter.priority != "all" then Keep(byStatus, (item: Item) => item.priority == filter.priority) else byStatus;
    if filter.search != [] then
      var term := Lower(filter.search);
      Keep(byPriority, (item: Item) => Includes(Lower(item.title), term) || Includes(Lower(item.description), term))
    else byPriority
  }

  /** The filter stages keep each item as often as it occurs in the input
      when it matches every filter, and drop it otherwise. */
  lemma FilterItemsCounts(data: seq<Item>, filter: Filter)
    ensures forall x :: multiset(FilterItems(data, filter))[x] == if Matches(x, filter) then multiset(data)[x] else 0
  {
  }

  /** `_processData`: the matching items, as a permutation, sorted by the
      key, ascending only for "asc"; items with equal keys stay in the
      order the filters leave them, as the engine's sort is stable. */
  function ProcessData(data: seq<Item>, filter: Filter, sortBy: string, sortDirection: string): (r: seq<Item>)
    ensures forall x :: multiset(r)[x] == if Matches(x, filter) then multiset(data)[x] else 0
    ensures forall x | x in r :: Matches(x, filter)
    ensures SortedBy(r, SortKey(sortBy), sortDirection != "asc")
    ensures forall k :: Keep(r, HasKey(SortKey(sortBy), k)) == Keep(FilterItems(data, filter), HasKey(SortKey(sortBy), k))
  {
    FilterItemsCounts(data, filter);
    var r := SortBy(FilterItems(data, filter), SortKey(sortBy), sortDirection != "asc");
    assert forall x | x in r :: Matches(x, filter) by {
      forall x | x in r ensures Matches(x, filter) {
        assert multiset(r)[x] > 0;
      }
    }
    r
  }

  /** With no filter set, every item is shown: the output is a permutation
      of the input. */
  lemma NoFilterKeepsAll(data: seq<Item>, sortBy: string, sortDirection: string)
    ensures multiset(ProcessData(data, Filter("all", "all", ""), sortBy, sortDirection)) == multiset(data)
  {
    var r := ProcessData(data, Filter("all", "all", ""), sortBy, sortDirection);
    assert forall x :: multiset(r)[x] == multiset(data)[x];
  }

  /** An item is shown exactly when it is in the data and matches. */
  lemma ShownExactly(data: seq<Item>, filter: Filter, sortBy: string, sortDirection: string, x: Item)
    ensures x in ProcessData(data, filter, sortBy, sortDirection) <==> x in data && Matches(x, filter)
  {
    var r := ProcessData(data, filter, sortBy, sortDirection);
    assert x in r <==> multiset(r)[x] > 0;
    assert x in data <==> multiset(data)[x] > 0;
  }

  function SetFilter(filter: Filter, field: FilterField, value: string): Filter {
    match field
    case StatusField => filter.(status := value)
    case PriorityField => filter.(priority := value)
    case SearchField => filter.(search := value)
  }

  /** `_handleFilterChange`: one filter key takes the value, the others and
      the sort settings stay. */
  function HandleFilterChange(d: DashboardState, field: FilterField, value: string): (r: DashboardState)
    ensures r.sortBy == d.sortBy && r.sortDirection == d.sortDirection
    ensures field == StatusField ==> r.filter.status == value && r.filter.priority == d.filter.priority && r.filter.search == d.filter.search
    ensures field == PriorityField ==> r.filter.priority == value && r.filter.status == d.filter.status && r.filter.search == d.filter.search
    ensures field == SearchField ==> r.filter.search == value && r.filter.status == d.filter.status && r.filter.priority == d.filter.priority
  {
    d.(filter := SetFilter(d.filter, field, value))
  }

  /** `_handleSortChange` and `_handleSortDirectionChange`. */
  function HandleSortChange(d: DashboardState, sortBy: string): (r: DashboardState)
    ensures r.sortBy == sortBy && r.filter == d.filter && r.sortDirection == d.sortDirection
  {
    d.(sortBy := sortBy)
  }

  function HandleSortDirectionChange(d: DashboardState, direction: string): (r: DashboardState)
    ensures r.sortDirection == direction && r.filter == d.filter && r.sortBy == d.sortBy
  {
    d.(sortDirection := direction)
  }
}

=== FILE: focus_example.dfy ===
/** The `focus-directive-example` element: which field should hold focus,
    the focus options and the form data.  The focus directive itself (timers,
    `focus()`/`blur()`) is not modelled. */
module FocusDirectiveExample {

  import opened Results
  import opened Text

  /** The two boolean options and the delay in milliseconds. */
  datatype FocusOptions = FocusOptions(preventScroll: bool, select: bool, delay: int)

  datatype Example = Example(focusedField: string, options: FocusOptions, formData: map<string, string>)

  const DefaultFormData: map<string, string> := map["name" := "", "email" := "", "phone" := "", "country" := "us"]

  function Initial(): (ex: Example)
    ensures ex.focusedField == "name"
    ensures !ex.options.preventScroll && !ex.options.select && ex.options.delay == 0
    ensures ex.formData.Keys == {"name", "email", "phone", "country"} && ex.formData["country"] == "us"
  {
    Example("name", FocusOptions(false, false, 0), DefaultFormData)
  }

  function FocusField(ex: Example, field: string): (r: Example)
    ensures r.focusedField == field
    ensures r.options == ex.options && r.formData == ex.formData
  {
    ex.(focusedField := field)
  }

  /** `handleInput`: one form field takes the typed value. */
  function HandleInput(ex: Example, field: string, value: string): (r: Example)
    ensures r.formData.Keys == ex.formData.Keys + {field}
    ensures field in r.formData && r.formData[field] == value
    ensures forall f | f in ex.formData && f != field :: r.formData[f] == ex.formData[f]
    ensures r.focusedField == ex.focusedField && r.options == ex.options
  {
    ex.(formData := ex.formData[field := value])
  }

  /** The two options the checkboxes toggle. */
  datatype BoolOption = PreventScroll | Select

  function OptionValue(o: FocusOptions, which: BoolOption): bool {
    match which
    case PreventScroll => o.preventScroll
    case Select => o.select
  }

  /** `toggleOption`: one option flips, the other and the delay stay. */
  function ToggleOption(ex: Example, which: BoolOption): (r: Example)
    ensures OptionValue(r.options, which) == !OptionValue(ex.options, which)
    ensures forall w | w != which :: OptionValue(r.options, w) == OptionValue(ex.options, w)
    ensures r.options.delay == ex.options.delay
    ensures r.focusedField == ex.focusedField && r.formData == ex.formData
  {
    match which
    case PreventScroll => ex.(options := ex.options.(preventScroll := !ex.options.preventScroll))
    case Select => ex.(options := ex.options.(select := !ex.options.select))
  }

  /** `parseInt(value) || 0`: NaN and zero both give zero. */
  function DelayOf(input: string): (d: int)
    ensures ParseInt(input).None? ==> d == 0
    ensures ParseInt(input).Some? ==> d == ParseInt(input).value
  {
    match ParseInt(input)
    case None => 0
    case Some(v) => v
  }

  /** `updateDelay`: the delay is the parsed number, or 0. */
  function UpdateDelay(ex: Example, input: string): (r: Example)
    ensures r.options.delay == DelayOf(input)
    ensures r.options.preventScroll == ex.options.preventScroll && r.options.select == ex.options.select
    ensures r.focusedField == ex.focusedField && r.formData == ex.formData
  {
    ex.(options := ex.options.(delay := DelayOf(input)))
  }

  /** A delay typed as digits is taken exactly; text with no leading
      number gives zero. */
  lemma UpdateDelayReadsNumber(ex: Example, n: nat, junk: string)
    requires junk != [] && !IsSpace(junk[0]) && !IsDigit(junk[0]) && junk[0] !in "+-"
    ensures UpdateDelay(ex, NatToString(n)).options.delay == n
    ensures UpdateDelay(ex, junk).options.delay == 0
  {
    assert NatToString(n) + [] == NatToString(n);
    ParseIntOfPrefix(n, []);
    assert TrimStart(junk) == junk;
    assert LeadingDigits(junk, 10) == 0;
  }

  /** `resetForm`: the default data and the name field, options kept. */
  function ResetForm(ex: Example): (r: Example)
    ensures r.formData == Initial().formData && r.focusedField == Initial().focusedField
    ensures r.options == ex.options
  {
    ex.(formData := DefaultFormData, focusedField := "name")
  }

  /** Whatever was typed or focused, a reset returns to the initial state
      except for the options. */
  lemma ResetUndoesEditing(ex: Example, field: string, value: string, focus: string)
    ensures ResetForm(HandleInput(FocusField(ex, focus), field, value)) == ResetForm(ex)
    ensures ResetForm(ex) == Initial().(options := ex.options)
  {
  }
}

=== FILE: highlight.dfy ===
/** The `highlight` directive: text is split into plain runs and highlighted
    runs by a leftmost, non-overlapping scan for the search term, optionally
    ignoring (ASCII) case.  The document fragment it builds is modelled as a
    sequence of segments. */
module Highlight {

  import opened Results
  import opened Text

  /** A text node (`Plain`) or a `<span class="highlight">` (`Hit`). */
  datatype Segment = Plain(text: string) | Hit(text: string)

  /** What `render` returns: the text itself, or a fragment of segments. */
  datatype View = Unchanged(text: string) | Fragment(segs: seq<Segment>)

  /** What `update` returns. */
  datatype UpdateResult = NoChange | Rendered(view: View)

  /** The arguments remembered from the last `render`. */
  datatype Directive = Directive(text: string, searchTerm: string, caseSensitive: bool)

  /** The kinds of template part a directive can be bound to. */
  datatype PartType = ChildPart | AttributePart | PropertyPart | BooleanAttributePart | EventPart | ElementPart

  const Initial := Directive("", "", false)

  /** Constructing the directive on anything but a child (text content)
      part throws. */
  function Create(part: PartType): (r: Result<Directive>)
    ensures r.Ok? <==> part == ChildPart
    ensures r.Ok? ==> r.value == Initial
    ensures r.Err? ==> r.message == "highlight directive can only be used in text content"
  {
    if part != ChildPart then Err("highlight directive can only be used in text content")
    else Ok(Initial)
  }

  /** The string the scan runs over: the text itself, or its lower-cased copy. */
  function Fold(s: string, caseSensitive: bool): (r: string)
    ensures |r| == |s|
  {
    if caseSensitive then s else Lower(s)
  }

  lemma FoldSlice(s: string, caseSensitive: bool, i: nat, j: nat)
    requires i <= j <= |s|
    ensures Fold(s, caseSensitive)[i..j] == Fold(s[i..j], caseSensitive)
  {
  }

  function Flatten(segs: seq<Segment>): string {
    if segs == [] then "" else segs[0].text + Flatten(segs[1..])
  }

  /** No occurrence of `key` in `search` starts in [lo, hi). */
  ghost predicate NoMatchIn(search: string, key: string, lo: int, hi: int) {
    forall i | lo <= i < hi :: !Occurs(search, key, i)
  }

  /** `segs` is the highlighting of `text[pos..end]`, where `search` is the
      (possibly folded) text and `key` the (possibly folded) term: every hit
      sits on an occurrence, every plain run is non-empty, contains the start
      of no occurrence, and is followed by a hit if anything follows it. */
  ghost predicate Covers(segs: seq<Segment>, text: string, search: string, key: string, pos: nat, end: nat)
    decreases |segs|
  {
    && pos <= end <= |text|
    && |search| == |text|
    && if segs == [] then pos == end
       else match segs[0]
         case Hit(s) =>
           && Occurs(search, key, pos)
           && pos + |key| <= end
           && s == text[pos..pos + |key|]
           && Covers(segs[1..], text, search, key, pos + |key|, end)
         case Plain(s) =>
           && s != []
           && pos + |s| <= end
           && s == text[pos..pos + |s|]
           && NoMatchIn(search, key, pos, pos + |s|)
           && (|segs| > 1 ==> segs[1].Hit?)
           && Covers(segs[1..], text, search, key, pos + |s|, end)
  }

  /** The result of highlighting `term` in the whole of `text`. */
  ghost predicate IsHighlighting(segs: seq<Segment>, text: string, term: string, caseSensitive: bool) {
    Covers(segs, text, Fold(text, caseSensitive), Fold(term, caseSensitive), 0, |text|)
  }

  lemma {:induction false} CoversAppend(a: seq<Segment>, b: seq<Segment>, text: string, search: string, key: string,
                                        pos: nat, mid: nat, end: nat)
    requires Covers(a, text, search, key, pos, mid)
    requires Covers(b, text, search, key, mid, end)
    requires a == [] || a[|a| - 1].Hit?
    ensures Covers(a + b, text, search, key, pos, end)
    decreases |a|
  {
    if a == [] {
      assert a + b == b;
    } else {
      var ab := a + b;
      assert ab[0] == a[0] && ab[1..] == a[1..] + b;
      var next: nat := if a[0].Hit? then pos + |key| else pos + |a[0].text|;
      assert a[1..] == [] || a[1..][|a[1..]| - 1] == a[|a| - 1];
      CoversAppend(a[1..], b, text, search, key, next, mid, end);
      if a[0].Hit? {
        CoversHitCons(ab, text, search, key, pos, end);
      } else {
        assert ab[1] == a[1];
        CoversPlainCons(ab, text, search, key, pos, end);
      }
    }
  }

  /** A hit on an occurrence, followed by a covering of the rest. */
  lemma CoversHitCons(segs: seq<Segment>, text: string, search: string, key: string, pos: nat, end: nat)
    requires segs != [] && segs[0].Hit?
    requires pos <= end <= |text| && |search| == |text|
    requires Occurs(search, key, pos) && pos + |key| <= end && segs[0].text == text[pos..pos + |key|]
    requires Covers(segs[1..], text, search, key, pos + |key|, end)
    ensures Covers(segs, text, search, key, pos, end)
  {
  }

  /** A non-empty plain run free of occurrences, followed by a hit and a
      covering of the rest. */
  lemma CoversPlainCons(segs: seq<Segment>, text: string, search: string, key: string, pos: nat, end: nat)
    requires segs != [] && segs[0].Plain? && segs[0].text != []
    requires pos <= end <= |text| && |search| == |text|
    requires pos + |segs[0].text| <= end && segs[0].text == text[pos..pos + |segs[0].text|]
    requires NoMatchIn(search, key, pos, pos + |segs[0].text|)
    requires |segs| > 1 ==> segs[1].Hit?
    requires Covers(segs[1..], text, search, key, pos + |segs[0].text|, end)
    ensures Covers(segs, text, search, key, pos, end)
  {
  }

  /** What a covering says about the flat text and about each segment. */
  lemma {:induction false} CoversMeaning(segs: seq<Segment>, text: string, search: string, key: string, pos: nat, end: nat)
    requires Covers(segs, text, search, key, pos, end)
    ensures Flatten(segs) == text[pos..end]
    ensures forall k | 0 <= k < |segs| && segs[k].Plain? :: segs[k].text != []
    ensures forall k | 0 <= k < |segs| && segs[k].Hit? ::
      exists p :: Occurs(search, key, p) && segs[k].text == text[p..p + |key|]
    decreases |segs|
  {
    if segs != [] {
      var s := segs[0].text;
      var next := if segs[0].Hit? then pos + |key| else pos + |s|;
      CoversMeaning(segs[1..], text, search, key, next, end);
      assert text[pos..end] == text[pos..next] + text[next..end];
      forall k | 0 <= k < |segs| && segs[k].Hit?
        ensures exists p :: Occurs(search, key, p) && segs[k].text == text[p..p + |key|]
      {
        if k == 0 {
          assert Occurs(search, key, pos) && segs[k].text == text[pos..pos + |key|];
        } else {
          assert segs[k] == segs[1..][k - 1];
        }
      }
      forall k | 0 <= k < |segs| && segs[k].Plain? ensures segs[k].text != [] {
        if k > 0 {
          assert segs[k] == segs[1..][k - 1];
        }
      }
    }
  }

  /** A highlighted slice of the original text equals the term once both
      are folded the same way, and has the term's length. */
  lemma HitMatchesTerm(text: string, term: string, caseSensitive: bool, p: int)
    requires Occurs(Fold(text, caseSensitive), Fold(term, caseSensitive), p)
    ensures |text[p..p + |term|]| == |term|
    ensures Fold(text[p..p + |term|], caseSensitive) == Fold(term, caseSensitive)
  {
    FoldSlice(text, caseSensitive, p, p + |term|);
  }

  /** A covering of a non-empty range is not empty. */
  lemma CoversNonEmpty(a: seq<Segment>, text: string, search: string, key: string, pos: nat, end: nat)
    requires key != []
    requires Covers(a, text, search, key, pos, end)
    requires pos < end
    ensures a != []
  {
  }

  /** Whatever follows a leading plain run starts an occurrence or is the
      end of the range, so a second covering cannot open with a longer
      plain run. */
  lemma PlainPrefixAtLeast(a: seq<Segment>, b: seq<Segment>, text: string, search: string, key: string,
                           pos: nat, end: nat)
    requires key != []
    requires a != [] && b != [] && a[0].Plain? && b[0].Plain?
    requires Covers(a, text, search, key, pos, end)
    requires Covers(b, text, search, key, pos, end)
    ensures |a[0].text| >= |b[0].text|
  {
    var next := pos + |a[0].text|;
    if a[1..] != [] {
      assert a[1..][0] == a[1];
    }
  }

  /** The coverings are unique: the properties above pin the fragment down. */
  lemma {:induction false} CoversUnique(a: seq<Segment>, b: seq<Segment>, text: string, search: string, key: string,
                                        pos: nat, end: nat)
    requires key != []
    requires Covers(a, text, search, key, pos, end)
    requires Covers(b, text, search, key, pos, end)
    ensures a == b
    decreases |a| + |b|
  {
    if pos < end {
      CoversNonEmpty(a, text, search, key, pos, end);
      CoversNonEmpty(b, text, search, key, pos, end);
      if a[0].Hit? && b[0].Hit? {
        CoversUnique(a[1..], b[1..], text, search, key, pos + |key|, end);
        assert a == [a[0]] + a[1..] && b == [b[0]] + b[1..];
      } else if a[0].Plain? && b[0].Plain? {
        PlainPrefixAtLeast(a, b, text, search, key, pos, end);
        PlainPrefixAtLeast(b, a, text, search, key, pos, end);
        CoversUnique(a[1..], b[1..], text, search, key, pos + |a[0].text|, end);
        assert a == [a[0]] + a[1..] && b == [b[0]] + b[1..];
      }
    }
  }

  /** The segments one round of the scan appends: the text between the
      previous match and this one, when not empty, then the match. */
  function StepSegments(text: string, last: nat, index: int, len: nat): seq<Segment>
    requires last <= index && index + len <= |text|
  {
    (if index > last then [Plain(text[last..index])] else []) + [Hit(text[index..index + len])]
  }

  /** The scan so far: `segs` covers `text[..last]` and, unless empty,
      ends with a hit. */
  ghost predicate Scanned(segs: seq<Segment>, text: string, search: string, key: string, last: nat) {
    && last <= |text| && |search| == |text|
    && Covers(segs, text, search, key, 0, last)
    && (segs == [] || segs[|segs| - 1].Hit?)
  }

  /** One round of the scan appends the text between the previous match
      and the next one (when not empty), then the match. */
  lemma {:induction false} ScanStep(before: seq<Segment>, step: seq<Segment>, text: string, search: string, key: string,
                                   last: nat, index: int)
    requires key != [] && Scanned(before, text, search, key, last)
    requires index == IndexOf(search, key, last) && index != -1
    requires last <= index && index + |key| <= |text|
    requires step == StepSegments(text, last, index, |key|)
    ensures last < index + |key|
    ensures Scanned(before + step, text, search, key, index + |key|)
  {
    StepCovers(step, text, search, key, last, index);
    CoversAppend(before, step, text, search, key, 0, last, index + |key|);
  }

  lemma {:induction false} StepCovers(step: seq<Segment>, text: string, search: string, key: string, last: nat, index: int)
    requires |search| == |text| && last <= |text| && key != []
    requires index == IndexOf(search, key, last) && index != -1
    requires last <= index && index + |key| <= |text|
    requires step == StepSegments(text, last, index, |key|)
    ensures last <= index && index + |key| <= |text|
    ensures Covers(step, text, search, key, last, index + |key|)
  {
    assert Covers([Hit(text[index..index + |key|])], text, search, key, index, index + |key|);
    if index > last {
      assert step[1..] == [Hit(text[index..index + |key|])];
    }
  }

  /** The final plain run, when the text does not end with a match: no
      occurrence starts after the last match. */
  lemma {:induction false} ScanTail(before: seq<Segment>, text: string, search: string, key: string, last: nat)
    requires Scanned(before, text, search, key, last) && last < |text|
    requires IndexOf(search, key, last) == -1
    ensures Covers(before + [Plain(text[last..])], text, search, key, 0, |text|)
  {
    TailCovers(text, search, key, last);
    CoversAppend(before, [Plain(text[last..])], text, search, key, 0, last, |text|);
  }

  lemma {:induction false} TailCovers(text: string, search: string, key: string, last: nat)
    requires |search| == |text| && last < |text|
    requires IndexOf(search, key, last) == -1
    ensures Covers([Plain(text[last..])], text, search, key, last, |text|)
  {
    var tail := [Plain(text[last..])];
    assert tail[1..] == [];
    assert Covers(tail[1..], text, search, key, |text|, |text|);
    assert NoMatchIn(search, key, last, |text|);
    assert text[last..] == text[last..last + |text[last..]|];
  }

  /** The scan of `_highlightText` over the search text: the text before
      each `indexOf` match, the match itself, then any remaining text. */
  method Scan(text: string, searchText: string, term: string) returns (segs: seq<Segment>)
    requires |searchText| == |text| && term != []
    ensures Covers(segs, text, searchText, term, 0, |text|)
  {
    segs := [];
    var lastIndex: nat := 0;
    var index := IndexOf(searchText, term, lastIndex);
    while index != -1
      invariant Scanned(segs, text, searchText, term, lastIndex)
      invariant index == IndexOf(searchText, term, lastIndex)
      decreases |text| - lastIndex
    {
      var step := StepSegments(text, lastIndex, index, |term|);
      ScanStep(segs, step, text, searchText, term, lastIndex, index);
      segs := segs + step;
      lastIndex := index + |term|;
      index := IndexOf(searchText, term, lastIndex);
    }
    if lastIndex < |text| {
      ScanTail(segs, text, searchText, term, lastIndex);
      segs := segs + [Plain(text[lastIndex..])];
    }
  }

  /** `_highlightText`: an empty (folded) term leaves the text as it is;
      otherwise the text is split into plain runs and highlighted matches. */
  method HighlightText(text: string, searchTerm: string, caseSensitive: bool) returns (v: View)
    ensures searchTerm == [] ==> v == Unchanged(text)
    ensures searchTerm != [] ==> v.Fragment? && IsHighlighting(v.segs, text, searchTerm, caseSensitive)
    ensures searchTerm != [] ==> Flatten(v.segs) == text
    ensures searchTerm != [] ==> forall k | 0 <= k < |v.segs| && v.segs[k].Hit? ::
      |v.segs[k].text| == |searchTerm| && Fold(v.segs[k].text, caseSensitive) == Fold(searchTerm, caseSensitive)
    ensures searchTerm != [] ==> forall k | 0 <= k < |v.segs| && v.segs[k].Plain? :: v.segs[k].text != []
  {
    var term := Fold(searchTerm, caseSensitive);
    if term == [] {
      return Unchanged(text);
    }
    var searchText := Fold(text, caseSensitive);
    var segs := Scan(text, searchText, term);
    v := Fragment(segs);
    HighlightingMeaning(segs, text, searchTerm, caseSensitive);
  }

  /** The flat facts a highlighting implies: it spells the text, its plain
      runs are non-empty, and each hit is the term up to folding. */
  lemma HighlightingMeaning(segs: seq<Segment>, text: string, searchTerm: string, caseSensitive: bool)
    requires IsHighlighting(segs, text, searchTerm, caseSensitive)
    ensures Flatten(segs) == text
    ensures forall k | 0 <= k < |segs| && segs[k].Plain? :: segs[k].text != []
    ensures forall k | 0 <= k < |segs| && segs[k].Hit? ::
      |segs[k].text| == |searchTerm| && Fold(segs[k].text, caseSensitive) == Fold(searchTerm, caseSensitive)
  {
    var search, key := Fold(text, caseSensitive), Fold(searchTerm, caseSensitive);
    CoversMeaning(segs, text, search, key, 0, |text|);
    assert text[0..|text|] == text;
    forall k | 0 <= k < |segs| && segs[k].Hit?
      ensures |segs[k].text| == |searchTerm| && Fold(segs[k].text, caseSensitive) == key
    {
      var p :| Occurs(search, key, p) && segs[k].text == text[p..p + |key|];
      HitMatchesTerm(text, searchTerm, caseSensitive, p);
    }
  }

  /** The view `render(text, searchTerm, caseSensitive)` produces. */
  ghost predicate RenderedView(v: View, text: string, searchTerm: string, caseSensitive: bool) {
    if searchTerm == [] || text == [] then v == Unchanged(text)
    else v.Fragment? && IsHighlighting(v.segs, text, searchTerm, caseSensitive)
  }

  /** `render`: remembers its arguments; returns the text unchanged when the
      term or the text is empty, and the highlighted fragment otherwise. */
  method Render(d: Directive, text: string, searchTerm: string, caseSensitive: bool)
    returns (d': Directive, v: View)
    ensures d' == Directive(text, searchTerm, caseSensitive)
    ensures searchTerm == [] || text == [] ==> v == Unchanged(text)
    ensures RenderedView(v, text, searchTerm, caseSensitive)
  {
    d' := Directive(text, searchTerm, caseSensitive);
    if searchTerm == [] || text == [] {
      return d', Unchanged(text);
    }
    v := HighlightText(text, searchTerm, caseSensitive);
  }

  /** `update`: re-renders only when one of the three arguments differs
      from the remembered ones. */
  method Update(d: Directive, text: string, searchTerm: string, caseSensitive: bool)
    returns (d': Directive, r: UpdateResult)
    ensures d' == Directive(text, searchTerm, caseSensitive)
    ensures r == NoChange <==> d == Directive(text, searchTerm, caseSensitive)
    ensures r.Rendered? ==> RenderedView(r.view, text, searchTerm, caseSensitive)
  {
    if d.text != text || d.searchTerm != searchTerm || d.caseSensitive != caseSensitive {
      var v;
      d', v := Render(d, text, searchTerm, caseSensitive);
      r := Rendered(v);
    } else {
      d', r := d, NoChange;
    }
  }

  /** Whatever fragment two renders of the same arguments produce, it is
      the same fragment. */
  lemma RenderDeterministic(v1: View, v2: View, text: string, searchTerm: string, caseSensitive: bool)
    requires RenderedView(v1, text, searchTerm, caseSensitive)
    requires RenderedView(v2, text, searchTerm, caseSensitive)
    ensures v1 == v2
  {
    if searchTerm != [] && text != [] {
      CoversUnique(v1.segs, v2.segs, text, Fold(text, caseSensitive), Fold(searchTerm, caseSensitive), 0, |text|);
    }
  }
}

=== FILE: lists.dfy ===
/** `Array.prototype.filter` and the facts about it that the components
    rely on: it keeps exactly the matching elements, as often as they
    occur, in their original order. */
module Lists {

  /** The elements of `s` that satisfy `p`, in order. */
  function Keep<T(!new)>(s: seq<T>, p: T -> bool): (r: seq<T>)
    ensures forall x :: multiset(r)[x] == if p(x) then multiset(s)[x] else 0
    ensures forall x | x in r :: p(x)
    ensures |r| <= |s|
  {
    if s == [] then []
    else
      var rest := Keep(s[1..], p);
      assert s == [s[0]] + s[1..];
      if p(s[0]) then [s[0]] + rest else rest
  }

  /** `a` is `b` with some elements left out, the rest in the same order. */
  predicate IsSubsequence<T(==)>(a: seq<T>, b: seq<T>)
    decreases |b|
  {
    if a == [] then true
    else if b == [] then false
    else if a[0] == b[0] then IsSubsequence(a[1..], b[1..])
    else IsSubsequence(a, b[1..])
  }

  lemma {:induction false} SubsequenceOfItself<T>(s: seq<T>)
    ensures IsSubsequence(s, s)
    decreases |s|
  {
    if s != [] {
      SubsequenceOfItself(s[1..]);
    }
  }

  /** Filtering keeps the order of what remains. */
  lemma {:induction false} KeepIsSubsequence<T(!new)>(s: seq<T>, p: T -> bool)
    ensures IsSubsequence(Keep(s, p), s)
    decreases |s|
  {
    if s != [] {
      KeepIsSubsequence(s[1..], p);
      var rest := Keep(s[1..], p);
      if !p(s[0]) && rest != [] {
        assert rest[0] in rest;
        assert rest[0] != s[0];
      }
    }
  }

  /** Filtering twice is filtering once by both conditions. */
  lemma {:induction false} KeepKeep<T(!new)>(s: seq<T>, p: T -> bool, q: T -> bool)
    ensures Keep(Keep(s, p), q) == Keep(s, x => p(x) && q(x))
    decreases |s|
  {
    if s != [] {
      KeepKeep(s[1..], p, q);
      if p(s[0]) {
        assert Keep(s, p)[1..] == Keep(s[1..], p);
      }
    }
  }

  /** A condition and its negation split the list without loss. */
  lemma {:induction false} KeepPartition<T(!new)>(s: seq<T>, p: T -> bool, q: T -> bool)
    requires forall x :: q(x) <==> !p(x)
    ensures |Keep(s, p)| + |Keep(s, q)| == |s|
    decreases |s|
  {
    if s != [] {
      KeepPartition(s[1..], p, q);
    }
  }

  /** When every element matches, nothing is dropped. */
  lemma {:induction false} KeepAll<T(!new)>(s: seq<T>, p: T -> bool)
    ensures (forall i | 0 <= i < |s| :: p(s[i])) ==> Keep(s, p) == s
    decreases |s|
  {
    if s != [] {
      KeepAll(s[1..], p);
      assert s == [s[0]] + s[1..];
      if forall i | 0 <= i < |s| :: p(s[i]) {
        assert forall i | 0 <= i < |s[1..]| :: p(s[1..][i]) by {
          forall i | 0 <= i < |s[1..]| ensures p(s[1..][i]) {
            assert s[1..][i] == s[i + 1];
          }
        }
      }
    }
  }

  /** A non-empty list is its head followed by its tail. */
  lemma HeadTail<T>(s: seq<T>)
    requires s != []
    ensures [s[0]] + s[1..] == s
  {
  }

  /** Filtering a list with a given head. */
  lemma {:induction false} KeepCons<T(!new)>(x: T, s: seq<T>, p: T -> bool)
    ensures Keep([x] + s, p) == (if p(x) then [x] else []) + Keep(s, p)
  {
    assert ([x] + s)[1..] == s;
  }

  /** Filtering a concatenation filters each part. */
  lemma {:induction false} KeepAppend<T(!new)>(a: seq<T>, b: seq<T>, p: T -> bool)
    ensures Keep(a + b, p) == Keep(a, p) + Keep(b, p)
    decreases |a|
  {
    if a == [] {
      assert a + b == b;
    } else {
      var rest := a[1..];
      var head := if p(a[0]) then [a[0]] else [];
      calc {
        Keep(a + b, p);
        { assert a + b == [a[0]] + (rest + b); }
        Keep([a[0]] + (rest + b), p);
        { KeepCons(a[0], rest + b, p); }
        head + Keep(rest + b, p);
        { KeepAppend(rest, b, p); }
        head + (Keep(rest, p) + Keep(b, p));
        { Assoc(head, Keep(rest, p), Keep(b, p)); }
        (head + Keep(rest, p)) + Keep(b, p);
        { KeepCons(a[0], rest, p); assert a == [a[0]] + rest; }
        Keep(a, p) + Keep(b, p);
      }
    }
  }

  lemma Assoc<T>(x: seq<T>, y: seq<T>, z: seq<T>)
    ensures (x + y) + z == x + (y + z)
  {
  }
}

=== FILE: lit_tabs.dfy ===
/** The `lit-tabs` element: a row of tabs, one of them active. */
module LitTabs {

  import opened Results

  /** A tab; `disabled` is the truthiness of the tab object's field. */
  datatype Tab = Tab(id: string, caption: string, disabled: bool)

  datatype Tabs = Tabs(tabs: seq<Tab>, activeTabIndex: int)

  /** The `tab-change` event's detail. */
  datatype TabChange = TabChange(index: int, id: string)

  datatype Step = Step(state: Tabs, emitted: Option<TabChange>)

  function Initial(): (t: Tabs)
    ensures |t.tabs| == 3 && t.activeTabIndex == 0
    ensures forall i | 0 <= i < 3 :: !t.tabs[i].disabled
  {
    Tabs([Tab("tab1", "Tab 1", false), Tab("tab2", "Tab 2", false), Tab("tab3", "Tab 3", false)], 0)
  }

  /** `_handleTabClick`: a disabled tab is ignored; any other click makes
      the tab active and reports it, even when it was already active. */
  function HandleTabClick(t: Tabs, index: int, tab: Tab): (r: Step)
    ensures tab.disabled ==> r == Step(t, None)
    ensures !tab.disabled ==> r.state == t.(activeTabIndex := index)
    ensures !tab.disabled ==> r.emitted == Some(TabChange(index, tab.id))
  {
    if tab.disabled then Step(t, None)
    else Step(t.(activeTabIndex := index), Some(TabChange(index, tab.id)))
  }

  /** A click on the tab shown at a position. */
  function ClickAt(t: Tabs, index: int): Step
    requires 0 <= index < |t.tabs|
  {
    HandleTabClick(t, index, t.tabs[index])
  }

  /** The active tab is always one that was shown and enabled when it was
      clicked: clicking keeps the index in range and on an enabled tab. */
  predicate ActiveEnabled(t: Tabs) {
    0 <= t.activeTabIndex < |t.tabs| && !t.tabs[t.activeTabIndex].disabled
  }

  lemma ClickKeepsActiveEnabled(t: Tabs, index: int)
    requires ActiveEnabled(t) && 0 <= index < |t.tabs|
    ensures ActiveEnabled(ClickAt(t, index).state)
    ensures ClickAt(t, index).emitted.Some? <==> !t.tabs[index].disabled
  {
  }

  /** Clicking the active tab again changes nothing but reports it again. */
  lemma ReclickReports(t: Tabs)
    requires ActiveEnabled(t)
    ensures ClickAt(t, t.activeTabIndex).state == t
    ensures ClickAt(t, t.activeTabIndex).emitted == Some(TabChange(t.activeTabIndex, t.tabs[t.activeTabIndex].id))
  {
  }
}

=== FILE: product_showcase.dfy ===
/** The `product-showcase` element of the framework-integration examples:
    a product with colour, size and quantity selection, a wishlist toggle,
    an add-to-cart action and a star rating.  Every user action is a pure
    step from the old state to the new state and the event it emits. */
module ProductShowcase {

  import opened Results
  import opened Text

  datatype ColorOption = ColorOption(name: string, value: string)

  /** Ratings and prices are modelled as exact reals. */
  datatype Product = Product(
    id: string, name: string, price: real, rating: real, ratingCount: nat,
    description: string, features: seq<string>,
    colors: seq<ColorOption>, sizes: seq<string>, imageUrl: string)

  datatype Showcase = Showcase(
    product: Product, selectedColor: string, selectedSize: string,
    quantity: int, inWishlist: bool)

  /** The events the element dispatches. */
  datatype Event =
    | ConfigChange(product: Product, color: string, size: string, quantity: int)
    | WishlistChange(product: Product, inWishlist: bool)
    | AddToCart(product: Product, color: string, size: string, quantity: int)

  /** A step: the new state and what it dispatched. */
  datatype Step = Step(state: Showcase, emitted: Option<Event>)

  const DefaultProduct := Product(
    "eco-friendly-water-bottle", "Eco-Friendly Water Bottle", 24.99, 4.5, 128,
    "This reusable water bottle is made from sustainable materials and keeps your drinks cold for up to 24 hours or hot for up to 12 hours. Perfect for outdoor activities or daily use.",
    ["Made from recycled stainless steel", "Double-wall vacuum insulation",
     "BPA-free and eco-friendly", "Leak-proof design", "750ml capacity"],
    [ColorOption("Ocean Blue", "#0277bd"), ColorOption("Forest Green", "#388e3c"),
     ColorOption("Sunset Orange", "#e64a19"), ColorOption("Charcoal Black", "#212121")],
    ["S", "M", "L"],
    "https://via.placeholder.com/500x500.png?text=Eco+Water+Bottle")

  /** The constructor: the first colour, the middle size, one item, not in
      the wishlist. */
  function Initial(): (st: Showcase)
    ensures |st.product.colors| == 4 && st.selectedColor == st.product.colors[0].value == "#0277bd"
    ensures |st.product.sizes| == 3 && st.selectedSize == st.product.sizes[1] == "M"
    ensures st.quantity == 1 && !st.inWishlist
  {
    Showcase(DefaultProduct, DefaultProduct.colors[0].value, DefaultProduct.sizes[1], 1, false)
  }

  /** The quantity never drops below one. */
  predicate Valid(st: Showcase) {
    st.quantity >= 1
  }

  /** The configuration event carries the current selection. */
  function ConfigOf(st: Showcase): Event {
    ConfigChange(st.product, st.selectedColor, st.selectedSize, st.quantity)
  }

  function SelectColor(st: Showcase, color: string): (r: Step)
    ensures r.state == st.(selectedColor := color)
    ensures r.emitted == Some(ConfigOf(r.state))
  {
    var next := st.(selectedColor := color);
    Step(next, Some(ConfigOf(next)))
  }

  function SelectSize(st: Showcase, size: string): (r: Step)
    ensures r.state == st.(selectedSize := size)
    ensures r.emitted == Some(ConfigOf(r.state))
  {
    var next := st.(selectedSize := size);
    Step(next, Some(ConfigOf(next)))
  }

  function IncreaseQuantity(st: Showcase): (r: Step)
    ensures r.state == st.(quantity := st.quantity + 1)
    ensures r.emitted == Some(ConfigOf(r.state))
  {
    var next := st.(quantity := st.quantity + 1);
    Step(next, Some(ConfigOf(next)))
  }

  /** Decreasing stops at one, and then nothing is dispatched. */
  function DecreaseQuantity(st: Showcase): (r: Step)
    ensures st.quantity > 1 ==> r.state == st.(quantity := st.quantity - 1) && r.emitted == Some(ConfigOf(r.state))
    ensures st.quantity <= 1 ==> r == Step(st, None)
  {
    if st.quantity > 1 then
      var next := st.(quantity := st.quantity - 1);
      Step(next, Some(ConfigOf(next)))
    else Step(st, None)
  }

  /** The quantity typed into the field: accepted when `parseInt` reads a
      positive number, otherwise the field is reset to the current
      quantity and nothing changes. */
  function UpdateQuantity(st: Showcase, input: string): (r: Step)
    ensures (ParseInt(input).Some? && ParseInt(input).value > 0) ==>
      r.state == st.(quantity := ParseInt(input).value) && r.emitted == Some(ConfigOf(r.state))
    ensures !(ParseInt(input).Some? && ParseInt(input).value > 0) ==> r == Step(st, None)
  {
    match ParseInt(input)
    case Some(v) =>
      if v > 0 then
        var next := st.(quantity := v);
        Step(next, Some(ConfigOf(next)))
      else Step(st, None)
    case None => Step(st, None)
  }

  function ToggleWishlist(st: Showcase): (r: Step)
    ensures r.state == st.(inWishlist := !st.inWishlist)
    ensures r.emitted == Some(WishlistChange(st.product, r.state.inWishlist))
  {
    var next := st.(inWishlist := !st.inWishlist);
    Step(next, Some(WishlistChange(st.product, next.inWishlist)))
  }

  /** Adding to the cart changes nothing and reports the selection. */
  function AddItemToCart(st: Showcase): (r: Step)
    ensures r.state == st
    ensures r.emitted.Some? && r.emitted.value.AddToCart?
    ensures r.emitted.value.color == st.selectedColor && r.emitted.value.size == st.selectedSize
    ensures r.emitted.value.quantity == st.quantity && r.emitted.value.product == st.product
  {
    Step(st, Some(AddToCart(st.product, st.selectedColor, st.selectedSize, st.quantity)))
  }

  /** The user actions. */
  datatype Action =
    | PickColor(color: string) | PickSize(size: string)
    | Increase | Decrease | TypeQuantity(input: string)
    | Wishlist | Cart

  function Apply(st: Showcase, a: Action): Step {
    match a
    case PickColor(c) => SelectColor(st, c)
    case PickSize(s) => SelectSize(st, s)
    case Increase => IncreaseQuantity(st)
    case Decrease => DecreaseQuantity(st)
    case TypeQuantity(input) => UpdateQuantity(st, input)
    case Wishlist => ToggleWishlist(st)
    case Cart => AddItemToCart(st)
  }

  /** No action brings the quantity below one, and every action but the
      quantity ones leaves it alone. */
  lemma ActionsKeepValid(st: Showcase, a: Action)
    requires Valid(st)
    ensures Valid(Apply(st, a).state)
    ensures !(a.Increase? || a.Decrease? || a.TypeQuantity?) ==> Apply(st, a).state.quantity == st.quantity
  {
  }

  /** Any sequence of actions from the initial state keeps the quantity
      at least one. */
  function Run(st: Showcase, actions: seq<Action>): Showcase
    decreases |actions|
  {
    if actions == [] then st else Run(Apply(st, actions[0]).state, actions[1..])
  }

  lemma {:induction false} RunKeepsValid(st: Showcase, actions: seq<Action>)
    requires Valid(st)
    ensures Valid(Run(st, actions))
    decreases |actions|
  {
    if actions != [] {
      ActionsKeepValid(st, actions[0]);
      RunKeepsValid(Apply(st, actions[0]).state, actions[1..]);
    }
  }

  /** Increasing then decreasing restores the state. */
  lemma IncreaseThenDecrease(st: Showcase)
    requires Valid(st)
    ensures DecreaseQuantity(IncreaseQuantity(st).state).state == st
  {
  }

  lemma ToggleWishlistTwice(st: Showcase)
    ensures ToggleWishlist(ToggleWishlist(st).state).state == st
  {
  }

  /** Typing a printed positive number sets exactly that quantity. */
  lemma TypedNumberIsTaken(st: Showcase, n: nat)
    requires n > 0
    ensures UpdateQuantity(st, NatToString(n)).state == st.(quantity := n)
  {
    assert NatToString(n) + [] == NatToString(n);
    ParseIntOfPrefix(n, []);
  }

  // ---- Star rating ----

  const FullStar: char := '★'
  const HalfStar: char := '½'
  const EmptyStar: char := '☆'

  function Repeat(c: char, n: nat): (r: string)
    ensures |r| == n && forall i | 0 <= i < n :: r[i] == c
  {
    if n == 0 then [] else [c] + Repeat(c, n - 1)
  }

  /** `Math.ceil` on reals. */
  function Ceil(r: real): (c: int)
    ensures (c - 1) as real < r <= c as real
  {
    -((-r).Floor)
  }

  /** `_renderStars` as written: the empty stars are `5 - Math.ceil(rating)`,
      which counts the half star's slot as taken even when no half star is
      drawn.  `String.prototype.repeat` throws a RangeError on a negative
      count. */
  function StarsAsWritten(rating: real): (r: Result<string>)
    ensures r.Ok? <==> 0.0 <= rating <= 5.0
    ensures r.Ok? ==> |r.value| == if rating.Floor as real < rating < rating.Floor as real + 0.5 then 4 else 5
    ensures r.Ok? ==> && Count(r.value, FullStar) == rating.Floor
                      && Count(r.value, HalfStar) == (if rating - rating.Floor as real >= 0.5 then 1 else 0)
                      && Count(r.value, EmptyStar) == 5 - Ceil(rating)
  {
    var full := rating.Floor;
    var hasHalf := rating - full as real >= 0.5;
    var empty := 5 - Ceil(rating);
    if full < 0 || empty < 0 then Err("RangeError")
    else
      GlyphCounts(full, hasHalf, empty);
      Ok(Glyphs(full, hasHalf, empty))
  }

  /** Full stars, then the half star if any, then the empty stars. */
  function Glyphs(full: nat, hasHalf: bool, empty: nat): string {
    Repeat(FullStar, full) + (if hasHalf then [HalfStar] else []) + Repeat(EmptyStar, empty)
  }

  /** Each kind of glyph is counted by its own argument. */
  lemma GlyphCounts(full: nat, hasHalf: bool, empty: nat)
    ensures |Glyphs(full, hasHalf, empty)| == full + (if hasHalf then 1 else 0) + empty
    ensures Count(Glyphs(full, hasHalf, empty), FullStar) == full
    ensures Count(Glyphs(full, hasHalf, empty), HalfStar) == if hasHalf then 1 else 0
    ensures Count(Glyphs(full, hasHalf, empty), EmptyStar) == empty
  {
    var a := Repeat(FullStar, full);
    var h: string := if hasHalf then [HalfStar] else [];
    var e := Repeat(EmptyStar, empty);
    assert Glyphs(full, hasHalf, empty) == a + h + e;
    CountThree(a, h, e, FullStar);
    CountThree(a, h, e, HalfStar);
    CountThree(a, h, e, EmptyStar);
    CountRepeat(FullStar, full, FullStar);
    CountRepeat(FullStar, full, HalfStar);
    CountRepeat(FullStar, full, EmptyStar);
    CountRepeat(EmptyStar, empty, FullStar);
    CountRepeat(EmptyStar, empty, HalfStar);
    CountRepeat(EmptyStar, empty, EmptyStar);
    assert Count(h, FullStar) == 0 && Count(h, EmptyStar) == 0;
    assert Count(h, HalfStar) == if hasHalf then 1 else 0;
  }

  /** A rating such as 4.2 is drawn with four glyphs: the fifth slot is
      lost whenever the fractional part is below one half but not zero. */
  lemma StarsAsWrittenLoseASlot(rating: real)
    requires 0.0 <= rating <= 5.0
    requires 0.0 < rating - rating.Floor as real < 0.5
    ensures StarsAsWritten(rating).Ok? && |StarsAsWritten(rating).value| == 4
  {
    assert Ceil(rating) == rating.Floor + 1;
  }

  lemma FourPointTwo()
    ensures StarsAsWritten(4.2) == Ok([FullStar, FullStar, FullStar, FullStar])
  {
    assert (4.2).Floor == 4;
    assert Ceil(4.2) == 5;
    assert Repeat(FullStar, 4) == [FullStar, FullStar, FullStar, FullStar];
    assert Repeat(EmptyStar, 0) == [];
    assert !(4.2 - 4 as real >= 0.5);
    var glyphs: string := Repeat(FullStar, 4) + [] + Repeat(EmptyStar, 0);
    assert StarsAsWritten(4.2) == Ok(glyphs);
    assert glyphs == [FullStar, FullStar, FullStar, FullStar];
  }

  /** The star display with the empty stars filling the rest of the five
      slots.  Ratings outside 0..5 are the error the source's `repeat`
      raises. */
  function Stars(rating: real): (r: Result<string>)
    ensures r.Ok? <==> 0.0 <= rating <= 5.0
    ensures r.Ok? ==> |r.value| == 5
    ensures r.Ok? ==> && Count(r.value, FullStar) == rating.Floor
                      && Count(r.value, HalfStar) == (if rating - rating.Floor as real >= 0.5 then 1 else 0)
                      && Count(r.value, EmptyStar) == 5 - Count(r.value, FullStar) - Count(r.value, HalfStar)
  {
    var full := rating.Floor;
    var hasHalf := rating - full as real >= 0.5;
    var empty := 5 - full - (if hasHalf then 1 else 0);
    if rating < 0.0 || rating > 5.0 then Err("RangeError")
    else
      GlyphCounts(full, hasHalf, empty);
      Ok(Glyphs(full, hasHalf, empty))
  }

  function Count(s: string, c: char): (n: nat)
    ensures n <= |s|
  {
    if s == [] then 0 else (if s[0] == c then 1 else 0) + Count(s[1..], c)
  }

  lemma {:induction false} CountAppend(a: string, b: string, c: char)
    ensures Count(a + b, c) == Count(a, c) + Count(b, c)
    decreases |a|
  {
    if a != [] {
      assert (a + b)[0] == a[0] && (a + b)[1..] == a[1..] + b;
      CountAppend(a[1..], b, c);
    } else {
      assert a + b == b;
    }
  }

  lemma CountThree(a: string, h: string, e: string, c: char)
    ensures Count(a + h + e, c) == Count(a, c) + Count(h, c) + Count(e, c)
  {
    CountAppend(a + h, e, c);
    CountAppend(a, h, c);
  }

  lemma {:induction false} CountRepeat(x: char, n: nat, c: char)
    ensures Count(Repeat(x, n), c) == if x == c then n else 0
    decreases n
  {
    if n > 0 {
      assert Repeat(x, n)[1..] == Repeat(x, n - 1);
      CountRepeat(x, n - 1, c);
    }
  }

  /** The rating a star display shows: one per full star, a half for the
      half star. */
  function StarValue(s: string): real {
    Count(s, FullStar) as real + 0.5 * Count(s, HalfStar) as real
  }

  /** The display shows the rating rounded down to a half star. */
  lemma StarsShowRating(rating: real)
    requires 0.0 <= rating <= 5.0
    ensures StarValue(Stars(rating).value) <= rating < StarValue(Stars(rating).value) + 0.5
  {
  }

  /** Both versions agree whenever the rating is a whole or half number
      of stars, or has a fractional part of at least one half. */
  lemma StarsAgreeOffTheGap(rating: real)
    requires 0.0 <= rating <= 5.0
    requires rating - rating.Floor as real == 0.0 || rating - rating.Floor as real >= 0.5
    ensures StarsAsWritten(rating) == Stars(rating)
  {
    if rating - rating.Floor as real == 0.0 {
      assert Ceil(rating) == rating.Floor;
    } else {
      assert Ceil(rating) == rating.Floor + 1;
    }
  }
}

=== FILE: reactivity_todo.dfy ===
/** The `todo-list` element of the reactivity chapter: a task list with a
    status filter, derived counts, and handlers for the events of its
    child components.  `Date.now()` is a parameter. */
module ReactivityTodoList {

  import opened Lists

  datatype Task = Task(id: int, text: string, completed: bool)

  datatype TodoList = TodoList(tasks: seq<Task>, filter: string, loading: bool)

  /** The constructor's defaults: four tasks, the first one completed. */
  const Initial := TodoList([
    Task(1, "Learn about Lit properties", true),
    Task(2, "Understand Lit templates", false),
    Task(3, "Master event handling in Lit", false),
    Task(4, "Build a complete todo app", false)
  ], "all", false)

  predicate IsCompleted(t: Task) {
    t.completed
  }

  predicate IsActive(t: Task) {
    !t.completed
  }

  /** `filteredTasks`: "active" and "completed" select by status, in order
      and as often as they occur; every other filter shows all tasks. */
  function FilteredTasks(l: TodoList): (r: seq<Task>)
    ensures IsSubsequence(r, l.tasks)
    ensures l.filter == "active" ==> forall t :: multiset(r)[t] == if !t.completed then multiset(l.tasks)[t] else 0
    ensures l.filter == "completed" ==> forall t :: multiset(r)[t] == if t.completed then multiset(l.tasks)[t] else 0
    ensures l.filter == "active" ==> forall t :: t in r <==> t in l.tasks && !t.completed
    ensures l.filter == "completed" ==> forall t :: t in r <==> t in l.tasks && t.completed
    ensures l.filter != "active" && l.filter != "completed" ==> r == l.tasks
  {
    if l.filter == "active" then
      var r := Keep(l.tasks, IsActive);
      KeepIsSubsequence(l.tasks, IsActive);
      assert forall t :: t in r <==> multiset(r)[t] > 0;
      r
    else if l.filter == "completed" then
      var r := Keep(l.tasks, IsCompleted);
      KeepIsSubsequence(l.tasks, IsCompleted);
      assert forall t :: t in r <==> multiset(r)[t] > 0;
      r
    else
      SubsequenceOfItself(l.tasks);
      l.tasks
  }

  /** `totalTasks`. */
  function TotalTasks(l: TodoList): (n: nat)
    ensures n == |l.tasks|
  {
    |l.tasks|
  }

  /** `completedTasks`: how many tasks are done. */
  function CompletedTasks(l: TodoList): (n: nat)
    ensures n <= |l.tasks|
    ensures n == |Keep(l.tasks, IsCompleted)|
  {
    |Keep(l.tasks, IsCompleted)|
  }

  /** `activeTasks`, computed as the difference of the other two: the
      number of tasks that are not done. */
  function ActiveTasks(l: TodoList): (n: int)
    ensures n == |Keep(l.tasks, IsActive)|
  {
    KeepPartition(l.tasks, IsCompleted, IsActive);
    TotalTasks(l) - CompletedTasks(l)
  }

  /** The difference equals the number of tasks that are not done, so the
      counts add up. */
  lemma CountsAddUp(l: TodoList)
    ensures ActiveTasks(l) == |Keep(l.tasks, IsActive)| >= 0
    ensures ActiveTasks(l) + CompletedTasks(l) == TotalTasks(l)
  {
    KeepPartition(l.tasks, IsCompleted, IsActive);
  }

  /** The initial list has four tasks, one of them completed. */
  lemma InitialCounts()
    ensures TotalTasks(Initial) == 4 && CompletedTasks(Initial) == 1 && ActiveTasks(Initial) == 3
  {
    var t := Initial.tasks;
    assert Keep(t[3..], IsCompleted) == [];
    assert Keep(t[2..], IsCompleted) == [];
    assert Keep(t[1..], IsCompleted) == [];
    assert Keep(t, IsCompleted) == [t[0]];
  }

  /** `handleFilterChange`. */
  function HandleFilterChange(l: TodoList, filter: string): (r: TodoList)
    ensures r.filter == filter && r.tasks == l.tasks && r.loading == l.loading
  {
    l.(filter := filter)
  }

  /** `handleAddTask`: one open task with the event's text is appended. */
  function HandleAddTask(l: TodoList, text: string, now: int): (r: TodoList)
    ensures |r.tasks| == |l.tasks| + 1 && r.tasks[..|l.tasks|] == l.tasks
    ensures r.tasks[|l.tasks|] == Task(now, text, false)
    ensures r.filter == l.filter && r.loading == l.loading
  {
    l.(tasks := l.tasks + [Task(now, text, false)])
  }

  function Toggled(t: Task, id: int): Task {
    if t.id == id then t.(completed := !t.completed) else t
  }

  /** `handleTaskToggle`: every task with the id flips, the others stay. */
  function HandleTaskToggle(l: TodoList, id: int): (r: TodoList)
    ensures |r.tasks| == |l.tasks|
    ensures forall i | 0 <= i < |l.tasks| ::
      && r.tasks[i].id == l.tasks[i].id && r.tasks[i].text == l.tasks[i].text
      && (r.tasks[i].completed <==> (l.tasks[i].completed != (l.tasks[i].id == id)))
    ensures r.filter == l.filter && r.loading == l.loading
  {
    l.(tasks := seq(|l.tasks|, i requires 0 <= i < |l.tasks| => Toggled(l.tasks[i], id)))
  }

  /** Toggling the same id twice restores the list. */
  lemma ToggleTwiceRestores(l: TodoList, id: int)
    ensures HandleTaskToggle(HandleTaskToggle(l, id), id) == l
  {
    var twice := HandleTaskToggle(HandleTaskToggle(l, id), id);
    assert twice.tasks == l.tasks;
  }

  /** `handleTaskDelete`: every task with the id goes, the rest keep
      their order. */
  function HandleTaskDelete(l: TodoList, id: int): (r: TodoList)
    ensures forall t :: multiset(r.tasks)[t] == if t.id != id then multiset(l.tasks)[t] else 0
    ensures forall t :: t in r.tasks <==> t in l.tasks && t.id != id
    ensures IsSubsequence(r.tasks, l.tasks)
    ensures r.filter == l.filter && r.loading == l.loading
  {
    var p := (t: Task) => t.id != id;
    KeepIsSubsequence(l.tasks, p);
    var tasks := Keep(l.tasks, p);
    assert forall t :: t in tasks <==> multiset(tasks)[t] > 0;
    l.(tasks := tasks)
  }

  /** Deleting the id of a task just added, when no task had that id,
      gives back the list before the addition. */
  lemma AddThenDelete(l: TodoList, text: string, now: int)
    requires forall i | 0 <= i < |l.tasks| :: l.tasks[i].id != now
    ensures HandleTaskDelete(HandleAddTask(l, text, now), now) == l
  {
    var p := (t: Task) => t.id != now;
    var added := Task(now, text, false);
    assert HandleAddTask(l, text, now).tasks == l.tasks + [added];
    KeepAppend(l.tasks, [added], p);
    KeepAll(l.tasks, p);
    assert Keep([added], p) == [];
  }

  /** Unless only completed tasks are shown, a new task appears at the end
      of the visible list. */
  lemma AddedTaskShown(l: TodoList, text: string, now: int)
    requires l.filter != "completed"
    ensures FilteredTasks(HandleAddTask(l, text, now)) == FilteredTasks(l) + [Task(now, text, false)]
  {
    var added := Task(now, text, false);
    if l.filter == "active" {
      assert HandleAddTask(l, text, now).tasks == l.tasks + [added];
      KeepAppend(l.tasks, [added], IsActive);
      assert Keep([added], IsActive) == [added];
    }
  }
}

=== FILE: repeat_example.dfy ===
/** The list of the `repeat` directive example: a Fisher–Yates shuffle,
    a sort by name whose direction alternates, and adding and removing
    items.  Each `Math.random()` result is a parameter in [0, 1). */
module RepeatExample {

  import opened Lists
  import opened Sorting

  datatype Item = Item(id: int, name: string, category: string)

  datatype RepeatState = RepeatState(items: seq<Item>, sortDirection: string)

  /** The constructor's defaults. */
  const Initial := RepeatState([
    Item(1, "Apple", "Fruit"),
    Item(2, "Carrot", "Vegetable"),
    Item(3, "Banana", "Fruit"),
    Item(4, "Broccoli", "Vegetable"),
    Item(5, "Orange", "Fruit")
  ], "asc")

  const Fruits: seq<string> := ["Mango", "Strawberry", "Cherry", "Grape", "Kiwi", "Pineapple"]
  const Vegetables: seq<string> := ["Cucumber", "Spinach", "Pepper", "Onion", "Tomato", "Potato"]

  predicate IsRandom(x: real) {
    0.0 <= x < 1.0
  }

  /** `Math.floor(random * n)` lies in [0, n). */
  function ScaledIndex(random: real, n: nat): (j: nat)
    requires IsRandom(random) && n >= 1
    ensures j < n
  {
    var x := random * n as real;
    assert 0.0 <= x < n as real by {
      assert random * n as real < 1.0 * n as real;
    }
    x.Floor
  }

  /** `shuffleItems`: for i from the last index down to 1, swap element i
      with element `floor(random * (i + 1))`; `randoms[k]` is the draw of
      the k-th step.  The first draw alone decides the last position. */
  method Shuffle(items: seq<Item>, randoms: seq<real>) returns (shuffled: seq<Item>)
    requires |items| <= |randoms| + 1
    requires forall k | 0 <= k < |randoms| :: IsRandom(randoms[k])
    ensures multiset(shuffled) == multiset(items)
    ensures |shuffled| == |items|
    ensures |items| >= 2 ==> shuffled[|items| - 1] == items[ScaledIndex(randoms[0], |items|)]
  {
    shuffled := items;
    if |items| <= 1 {
      return;
    }
    var last := |items| - 1;
    var i := last;
    while i > 0
      invariant 0 <= i <= last
      invariant |shuffled| == |items|
      invariant multiset(shuffled) == multiset(items)
      invariant i == last ==> shuffled == items
      invariant i < last ==> shuffled[last] == items[ScaledIndex(randoms[0], |items|)]
      decreases i
    {
      var j := ScaledIndex(randoms[last - i], i + 1);
      shuffled := Swap(shuffled, i, j);
      i := i - 1;
    }
  }

  /** Exchanges two positions; the contents stay the same as a multiset. */
  function Swap(s: seq<Item>, i: nat, j: nat): (r: seq<Item>)
    requires i < |s| && j < |s|
    ensures |r| == |s| && r[i] == s[j] && r[j] == s[i]
    ensures forall k | 0 <= k < |s| && k != i && k != j :: r[k] == s[k]
    ensures multiset(r) == multiset(s)
  {
    var r := s[i := s[j]][j := s[i]];
    SwapMultiset(s, i, j);
    r
  }

  lemma SwapMultiset(s: seq<Item>, i: nat, j: nat)
    requires i < |s| && j < |s|
    ensures multiset(s[i := s[j]][j := s[i]]) == multiset(s)
  {
    var t := s[i := s[j]];
    assert multiset(t) == multiset(s) - multiset{s[i]} + multiset{s[j]};
    assert multiset(t[j := s[i]]) == multiset(t) - multiset{t[j]} + multiset{s[i]};
  }

  /** Sorting by name. */
  function NameKey(item: Item): Key {
    Str(item.name)
  }

  /** `sortItems`: a stable sort by name in the current direction (ascending
      for "asc", descending otherwise), after which the direction flips.
      Items with the same name keep their order. */
  function SortItems(st: RepeatState): (r: RepeatState)
    ensures multiset(r.items) == multiset(st.items)
    ensures SortedBy(r.items, NameKey, st.sortDirection != "asc")
    ensures forall k :: Keep(r.items, HasKey(NameKey, k)) == Keep(st.items, HasKey(NameKey, k))
    ensures r.sortDirection == if st.sortDirection == "asc" then "desc" else "asc"
  {
    RepeatState(SortBy(st.items, NameKey, st.sortDirection != "asc"),
                if st.sortDirection == "asc" then "desc" else "asc")
  }

  /** Two sorts in a row go one way and then the other. */
  lemma SortTwiceAlternates(st: RepeatState)
    requires st.sortDirection == "asc"
    ensures var once := SortItems(st);
      && SortedBy(once.items, NameKey, false)
      && SortedBy(SortItems(once).items, NameKey, true)
      && SortItems(once).sortDirection == "asc"
  {
  }

  /** `addItem`: the first draw picks the list (vegetables above 0.5), the
      second the name; the item gets the matching category and `now` as id. */
  function AddItem(st: RepeatState, now: int, listDraw: real, nameDraw: real): (r: RepeatState)
    requires IsRandom(listDraw) && IsRandom(nameDraw)
    ensures |r.items| == |st.items| + 1 && r.items[..|st.items|] == st.items
    ensures r.sortDirection == st.sortDirection
    ensures var added := r.items[|st.items|];
      && added.id == now
      && added.category == (if listDraw > 0.5 then "Vegetable" else "Fruit")
      && added.name in (if listDraw > 0.5 then Vegetables else Fruits)
      && (added.category == "Vegetable" <==> added.name in Vegetables)
      && (added.category == "Fruit" <==> added.name in Fruits)
  {
    var isVegetable := listDraw > 0.5;
    var options := if isVegetable then Vegetables else Fruits;
    var name := options[ScaledIndex(nameDraw, |options|)];
    var category := if isVegetable then "Vegetable" else "Fruit";
    st.(items := st.items + [Item(now, name, category)])
  }

  /** `removeItem`: every item with the id goes; the rest keep their order. */
  function RemoveItem(st: RepeatState, id: int): (r: RepeatState)
    ensures forall x :: multiset(r.items)[x] == if x.id != id then multiset(st.items)[x] else 0
    ensures forall x :: x in r.items <==> x in st.items && x.id != id
    ensures IsSubsequence(r.items, st.items)
    ensures r.sortDirection == st.sortDirection
  {
    var p := (x: Item) => x.id != id;
    KeepIsSubsequence(st.items, p);
    var items := Keep(st.items, p);
    assert forall x :: x in items <==> multiset(items)[x] > 0;
    st.(items := items)
  }

  /** Removing the id of an item just added, when no other item had that
      id, gives back the list before the addition. */
  lemma AddThenRemove(st: RepeatState, now: int, listDraw: real, nameDraw: real)
    requires IsRandom(listDraw) && IsRandom(nameDraw)
    requires forall i | 0 <= i < |st.items| :: st.items[i].id != now
    ensures RemoveItem(AddItem(st, now, listDraw, nameDraw), now) == st
  {
    var added := AddItem(st, now, listDraw, nameDraw);
    var p := (x: Item) => x.id != now;
    var last := added.items[|st.items|];
    assert added.items == st.items + [last];
    KeepAppend(st.items, [last], p);
    KeepAll(st.items, p);
    assert Keep([last], p) == [];
  }

  /** Removing twice is removing once. */
  lemma RemoveTwice(st: RepeatState, id: int)
    ensures RemoveItem(RemoveItem(st, id), id) == RemoveItem(st, id)
  {
    var once := RemoveItem(st, id);
    KeepAll(once.items, (x: Item) => x.id != id);
  }
}

=== FILE: results.dfy ===
/** Failure-carrying return values: a missing value (JavaScript `null`,
    `undefined` or NaN) and a thrown error. */
module Results {

  datatype Option<+T> = None | Some(value: T)

  datatype Result<+T> = Ok(value: T) | Err(message: string)
}

=== FILE: shop.dfy ===
/** What the host pages of the integration examples keep when the
    `product-showcase` element reports a change: cart lines, a wishlist of
    product ids and the last action, shared by the plain-script host and
    the Angular host. */
module Shop {

  import opened Results
  import opened Lists
  import PS = ProductShowcase

  /** One line of the cart, copied from an add-to-cart event. */
  datatype CartItem = CartItem(
    productId: string, name: string, price: real,
    color: string, size: string, quantity: int)

  /** The `lastAction` record shown by the host page. */
  datatype LastAction =
    | AddedToCart(item: CartItem)
    | WishlistChanged(inWishlist: bool, productId: string)
    | ConfigChanged(color: string, size: string, quantity: int)

  function CartItemOf(product: PS.Product, color: string, size: string, quantity: int): (item: CartItem)
    ensures item.productId == product.id && item.name == product.name && item.price == product.price
    ensures item.color == color && item.size == size && item.quantity == quantity
  {
    CartItem(product.id, product.name, product.price, color, size, quantity)
  }

  /** Every id appears at most once. */
  ghost predicate NoDuplicates(ids: seq<string>) {
    forall x :: multiset(ids)[x] <= 1
  }

  /** The wishlist after a wishlist-change event: the id is appended when
      it is added and absent, and every copy is filtered out when it is
      removed. */
  function UpdateWishlist(ids: seq<string>, id: string, inWishlist: bool): (r: seq<string>)
    ensures inWishlist ==> id in r && multiset(r) == multiset(ids) + (if id in ids then multiset{} else multiset{id})
    ensures inWishlist ==> |ids| <= |r| && r[..|ids|] == ids
    ensures !inWishlist ==> id !in r && IsSubsequence(r, ids)
    ensures !inWishlist ==> forall x | x != id :: multiset(r)[x] == multiset(ids)[x]
  {
    if inWishlist then
      if id in ids then ids else ids + [id]
    else
      KeepIsSubsequence(ids, (x: string) => x != id);
      Keep(ids, (x: string) => x != id)
  }

  /** The wishlist never holds an id twice. */
  lemma UpdateWishlistNoDuplicates(ids: seq<string>, id: string, inWishlist: bool)
    requires NoDuplicates(ids)
    ensures NoDuplicates(UpdateWishlist(ids, id, inWishlist))
  {
    var r := UpdateWishlist(ids, id, inWishlist);
    forall x ensures multiset(r)[x] <= 1 {
      if inWishlist && id !in ids && x == id {
        assert multiset(ids)[x] == 0;
      }
    }
  }

  /** Adding and then removing a product leaves no trace of it. */
  lemma AddThenRemove(ids: seq<string>, id: string)
    ensures var r := UpdateWishlist(UpdateWishlist(ids, id, true), id, false);
      id !in r && forall x | x != id :: multiset(r)[x] == multiset(ids)[x]
  {
  }

  /** The record of an event. */
  function ActionOf(e: PS.Event): (a: LastAction)
    ensures e.AddToCart? <==> a.AddedToCart?
    ensures e.WishlistChange? <==> a.WishlistChanged?
    ensures e.ConfigChange? <==> a.ConfigChanged?
  {
    match e
    case AddToCart(p, c, s, q) => AddedToCart(CartItemOf(p, c, s, q))
    case WishlistChange(p, inWishlist) => WishlistChanged(inWishlist, p.id)
    case ConfigChange(_, c, s, q) => ConfigChanged(c, s, q)
  }

  /** The number of add-to-cart events in a sequence. */
  function CartEvents(events: seq<PS.Event>): (n: nat)
    ensures n <= |events|
  {
    if events == [] then 0
    else (if events[|events| - 1].AddToCart? then 1 else 0) + CartEvents(events[..|events| - 1])
  }
}

=== FILE: sidebar.dfy ===
/** The `tm-sidebar` element: the active route and the navigation clicks. */
module Sidebar {

  import opened Results

  datatype Sidebar = Sidebar(activeRoute: string)

  /** The `route-change` event's detail. */
  datatype RouteChange = RouteChange(route: string)

  datatype Step = Step(state: Sidebar, emitted: Option<RouteChange>)

  const Routes: seq<string> := ["dashboard", "tasks", "calendar", "projects", "team", "reports", "profile", "settings"]

  function Initial(): (s: Sidebar)
    ensures s.activeRoute == "dashboard" == Routes[0]
  {
    Sidebar("dashboard")
  }

  /** `_handleNavClick`: only a different route is taken and reported. */
  function HandleNavClick(s: Sidebar, route: string): (r: Step)
    ensures route == s.activeRoute ==> r == Step(s, None)
    ensures route != s.activeRoute ==> r == Step(Sidebar(route), Some(RouteChange(route)))
  {
    if s.activeRoute != route then Step(Sidebar(route), Some(RouteChange(route)))
    else Step(s, None)
  }

  /** After any click the clicked route is active. */
  lemma ClickActivates(s: Sidebar, route: string)
    ensures HandleNavClick(s, route).state.activeRoute == route
  {
  }

  /** Clicking the same route twice reports it at most once. */
  lemma RepeatedClickSilent(s: Sidebar, route: string)
    ensures var first := HandleNavClick(s, route);
      var second := HandleNavClick(first.state, route);
      second == Step(first.state, None)
  {
  }

  /** The events a sequence of clicks reports. */
  function Reported(s: Sidebar, clicks: seq<string>): (events: seq<RouteChange>)
    ensures |events| <= |clicks|
    decreases |clicks|
  {
    if clicks == [] then []
    else
      var step := HandleNavClick(s, clicks[0]);
      (match step.emitted case Some(e) => [e] case None => []) + Reported(step.state, clicks[1..])
  }

  /** Clicks on one route report it at most once, however many. */
  lemma {:induction false} SameRouteReportedOnce(s: Sidebar, route: string, n: nat)
    ensures |Reported(s, seq(n, _ => route))| <= 1
    ensures |Reported(Sidebar(route), seq(n, _ => route))| == 0
    decreases n
  {
    if n > 0 {
      var clicks := seq(n, _ => route);
      assert clicks[0] == route && clicks[1..] == seq(n - 1, _ => route);
      SameRouteReportedOnce(Sidebar(route), route, n - 1);
    }
  }
}

=== FILE: sorting.dfy ===
/** The ordering used by `Array.prototype.sort` in the components.  Strings
    compare with `localeCompare`, which this model replaces by the
    lexicographic order on character codes (a total order); dates compare as
    millisecond timestamps.  The engine's sort is stable, so the model is a
    stable insertion sort. */
module Sorting {

  import opened Lists

  /** A sort key: a string field or a timestamp. */
  datatype Key = Str(s: string) | Time(t: int)

  /** Lexicographic order on character codes. */
  predicate StrLe(a: string, b: string) {
    a == [] || (b != [] && (a[0] < b[0] || (a[0] == b[0] && StrLe(a[1..], b[1..]))))
  }

  /** Keys of one kind compare naturally; timestamps come before strings
      (a key function never mixes the two). */
  predicate KeyLe(a: Key, b: Key) {
    match (a, b)
    case (Str(x), Str(y)) => StrLe(x, y)
    case (Time(x), Time(y)) => x <= y
    case (Time(_), Str(_)) => true
    case (Str(_), Time(_)) => false
  }

  lemma {:induction false} StrLeReflexive(a: string)
    ensures StrLe(a, a)
    decreases |a|
  {
    if a != [] {
      StrLeReflexive(a[1..]);
    }
  }

  lemma {:induction false} StrLeTotal(a: string, b: string)
    ensures StrLe(a, b) || StrLe(b, a)
    decreases |a|
  {
    if a != [] && b != [] && a[0] == b[0] {
      StrLeTotal(a[1..], b[1..]);
    }
  }

  lemma {:induction false} StrLeTransitive(a: string, b: string, c: string)
    requires StrLe(a, b) && StrLe(b, c)
    ensures StrLe(a, c)
    decreases |a|
  {
    if a != [] && a[0] == b[0] && b[0] == c[0] {
      StrLeTransitive(a[1..], b[1..], c[1..]);
    }
  }

  lemma {:induction false} StrLeAntisymmetric(a: string, b: string)
    requires StrLe(a, b) && StrLe(b, a)
    ensures a == b
    decreases |a|
  {
    if a != [] {
      StrLeAntisymmetric(a[1..], b[1..]);
      assert a == [a[0]] + a[1..] && b == [b[0]] + b[1..];
    }
  }

  lemma KeyLeTotal(a: Key, b: Key)
    ensures KeyLe(a, b) || KeyLe(b, a)
  {
    if a.Str? && b.Str? {
      StrLeTotal(a.s, b.s);
    }
  }

  lemma KeyLeTransitive(a: Key, b: Key, c: Key)
    requires KeyLe(a, b) && KeyLe(b, c)
    ensures KeyLe(a, c)
  {
    if a.Str? && b.Str? && c.Str? {
      StrLeTransitive(a.s, b.s, c.s);
    }
  }

  lemma KeyLeReflexive(a: Key)
    ensures KeyLe(a, a)
  {
    if a.Str? {
      StrLeReflexive(a.s);
    }
  }

  /** `x` may stand before `y`: the comparator does not put `x` after `y`. */
  predicate Before<T>(x: T, y: T, key: T -> Key, descending: bool) {
    if descending then KeyLe(key(y), key(x)) else KeyLe(key(x), key(y))
  }

  ghost predicate SortedBy<T>(s: seq<T>, key: T -> Key, descending: bool) {
    forall i, j | 0 <= i < j < |s| :: Before(s[i], s[j], key, descending)
  }

  lemma BeforeTotal<T>(x: T, y: T, key: T -> Key, descending: bool)
    ensures Before(x, y, key, descending) || Before(y, x, key, descending)
  {
    KeyLeTotal(key(x), key(y));
  }

  lemma BeforeTransitive<T>(x: T, y: T, z: T, key: T -> Key, descending: bool)
    requires Before(x, y, key, descending) && Before(y, z, key, descending)
    ensures Before(x, z, key, descending)
  {
    if descending {
      KeyLeTransitive(key(z), key(y), key(x));
    } else {
      KeyLeTransitive(key(x), key(y), key(z));
    }
  }

  /** Inserts `x` in front of the first element it may stand before. */
  function Insert<T>(x: T, s: seq<T>, key: T -> Key, descending: bool): seq<T> {
    if s == [] then [x]
    else if Before(x, s[0], key, descending) then [x] + s
    else [s[0]] + Insert(x, s[1..], key, descending)
  }

  lemma {:induction false} InsertMultiset<T>(x: T, s: seq<T>, key: T -> Key, descending: bool)
    ensures multiset(Insert(x, s, key, descending)) == multiset(s) + multiset{x}
  {
    if s != [] && !Before(x, s[0], key, descending) {
      InsertMultiset(x, s[1..], key, descending);
      assert s == [s[0]] + s[1..];
    }
  }

  /** Every element of a sorted sequence after its head may follow the head. */
  lemma HeadBeforeAll<T>(h: T, s: seq<T>, key: T -> Key, descending: bool)
    requires SortedBy([h] + s, key, descending)
    ensures forall y | y in multiset(s) :: Before(h, y, key, descending)
  {
    forall y | y in multiset(s) ensures Before(h, y, key, descending) {
      var j :| 0 <= j < |s| && s[j] == y;
      var hs := [h] + s;
      assert hs[0] == h && hs[j + 1] == y;
      assert Before(hs[0], hs[j + 1], key, descending);
    }
  }

  lemma {:induction false} InsertSorted<T>(x: T, s: seq<T>, key: T -> Key, descending: bool)
    requires SortedBy(s, key, descending)
    ensures SortedBy(Insert(x, s, key, descending), key, descending)
  {
    if s == [] {
    } else if Before(x, s[0], key, descending) {
      forall j | 0 < j < |s| ensures Before(x, s[j], key, descending) {
        BeforeTransitive(x, s[0], s[j], key, descending);
      }
    } else {
      BeforeTotal(x, s[0], key, descending);
      var rest := Insert(x, s[1..], key, descending);
      InsertSorted(x, s[1..], key, descending);
      InsertMultiset(x, s[1..], key, descending);
      assert s == [s[0]] + s[1..];
      HeadBeforeAll(s[0], s[1..], key, descending);
      forall j | 0 <= j < |rest| ensures Before(s[0], rest[j], key, descending) {
        assert rest[j] in multiset(rest);
      }
    }
  }

  /** The elements whose key is `k`. */
  function HasKey<T>(key: T -> Key, k: Key): T -> bool {
    x => key(x) == k
  }

  /** The comparator only puts `x` after `y` when their keys differ. */
  lemma NotBeforeDiffers<T>(x: T, y: T, key: T -> Key, descending: bool)
    ensures !Before(x, y, key, descending) ==> key(x) != key(y)
  {
    KeyLeReflexive(key(x));
  }

  /** Insertion passes over elements of other keys only, so among the
      elements of any one key `x` stays in front. */
  lemma {:induction false} InsertStable<T(!new)>(x: T, s: seq<T>, key: T -> Key, descending: bool, k: Key)
    ensures Keep(Insert(x, s, key, descending), HasKey(key, k)) == Keep([x] + s, HasKey(key, k))
    decreases |s|
  {
    if s != [] && !Before(x, s[0], key, descending) {
      var p := HasKey(key, k);
      var rest := Insert(x, s[1..], key, descending);
      var hs := if p(s[0]) then [s[0]] else [];
      var hx := if p(x) then [x] else [];
      NotBeforeDiffers(x, s[0], key, descending);
      InsertStable(x, s[1..], key, descending, k);
      assert Insert(x, s, key, descending) == [s[0]] + rest;
      KeepCons(s[0], rest, p);
      KeepCons(x, s[1..], p);
      HeadTail(s);
      KeepCons(s[0], s[1..], p);
      KeepCons(x, s, p);
      SwapEmptyHead(hs, hx, Keep(s[1..], p));
    }
  }

  /** Two heads of which one is empty can be swapped. */
  lemma SwapEmptyHead<T>(a: seq<T>, b: seq<T>, t: seq<T>)
    requires a == [] || b == []
    ensures a + (b + t) == b + (a + t)
  {
    if a == [] {
      assert a + (b + t) == b + t;
    } else {
      assert b + (a + t) == a + t;
    }
  }

  /** Lists that agree on the order within every key still agree after
      the same head is put in front of both. */
  lemma ConsKeepsKeyOrder<T(!new)>(x: T, a: seq<T>, b: seq<T>, key: T -> Key)
    requires forall k :: Keep(a, HasKey(key, k)) == Keep(b, HasKey(key, k))
    ensures forall k :: Keep([x] + a, HasKey(key, k)) == Keep([x] + b, HasKey(key, k))
  {
    forall k ensures Keep([x] + a, HasKey(key, k)) == Keep([x] + b, HasKey(key, k)) {
      KeepCons(x, a, HasKey(key, k));
      KeepCons(x, b, HasKey(key, k));
    }
  }

  lemma InsertStableAll<T(!new)>(x: T, s: seq<T>, key: T -> Key, descending: bool)
    ensures forall k :: Keep(Insert(x, s, key, descending), HasKey(key, k)) == Keep([x] + s, HasKey(key, k))
  {
    forall k ensures Keep(Insert(x, s, key, descending), HasKey(key, k)) == Keep([x] + s, HasKey(key, k)) {
      InsertStable(x, s, key, descending, k);
    }
  }

  /** A stable sort of `s` by `key`, ascending or descending: the result is
      ordered, holds the same elements, and the elements of each key keep
      their order. */
  function SortBy<T(!new)>(s: seq<T>, key: T -> Key, descending: bool): (r: seq<T>)
    ensures SortedBy(r, key, descending)
    ensures multiset(r) == multiset(s)
    ensures forall k :: Keep(r, HasKey(key, k)) == Keep(s, HasKey(key, k))
  {
    if s == [] then []
    else
      var rest := SortBy(s[1..], key, descending);
      InsertSorted(s[0], rest, key, descending);
      InsertMultiset(s[0], rest, key, descending);
      InsertStableAll(s[0], rest, key, descending);
      ConsKeepsKeyOrder(s[0], rest, s[1..], key);
      HeadTail(s);
      Insert(s[0], rest, key, descending)
  }
}

=== FILE: style_example.dfy ===
/** The `style-directive-example` element: a class map whose colour
    classes are mutually exclusive and a style map edited one property at a
    time.  `classMap` and `styleMap` themselves are rendering; the model
    keeps the two maps and what the directives would apply from them. */
module StyleDirectiveExample {

  import opened Text

  datatype Example = Example(classes: map<string, bool>, styles: map<string, string>, colorTheme: string)

  const ColorThemes: set<string> := {"primary", "secondary", "accent"}

  /** Inline style values are kept as the strings the inputs produce; the
      initial opacity 1 is written "1". */
  function Initial(): (ex: Example)
    ensures ex.colorTheme == "primary"
    ensures ActiveClasses(ex.classes) == {"box", "shadow", "primary"}
    ensures ex.classes.Keys == {"box", "rounded", "shadow", "bordered", "primary", "secondary", "accent"}
  {
    var classes := map[
      "box" := true, "rounded" := false, "shadow" := true, "bordered" := false,
      "primary" := true, "secondary" := false, "accent" := false];
    assert ActiveClasses(classes) == {"box", "shadow", "primary"} by {
      forall k | k in ActiveClasses(classes) ensures k in {"box", "shadow", "primary"} {
      }
    }
    Example(classes,
            map["padding" := "1rem", "fontSize" := "16px", "opacity" := "1", "transform" := "scale(1)"],
            "primary")
  }

  /** A class is on when its entry is present and true. */
  predicate On(classes: map<string, bool>, name: string) {
    name in classes && classes[name]
  }

  /** The classes `classMap` adds to the element. */
  function ActiveClasses(classes: map<string, bool>): (r: set<string>)
    ensures forall k :: k in r <==> On(classes, k)
  {
    set k | k in classes && classes[k]
  }

  /** `toggleClass`: the named class flips (a missing entry counts as off)
      and no other entry changes. */
  function ToggleClass(ex: Example, name: string): (r: Example)
    ensures r.classes.Keys == ex.classes.Keys + {name}
    ensures On(r.classes, name) == !On(ex.classes, name)
    ensures forall k | k in ex.classes && k != name :: r.classes[k] == ex.classes[k]
    ensures r.styles == ex.styles && r.colorTheme == ex.colorTheme
  {
    ex.(classes := ex.classes[name := !On(ex.classes, name)])
  }

  /** Toggling twice restores a class that had an entry. */
  lemma ToggleTwice(ex: Example, name: string)
    requires name in ex.classes
    ensures ToggleClass(ToggleClass(ex, name), name) == ex
  {
    var r := ToggleClass(ToggleClass(ex, name), name);
    assert r.classes == ex.classes;
  }

  /** `setColorTheme`: all three colour classes are switched off, then the
      chosen one is switched on. */
  function SetColorTheme(ex: Example, theme: string): (r: Example)
    ensures r.colorTheme == theme && On(r.classes, theme)
    ensures forall c | c in ColorThemes && c != theme :: c in r.classes && !r.classes[c]
    ensures forall k | k in ex.classes && k !in ColorThemes && k != theme :: k in r.classes && r.classes[k] == ex.classes[k]
    ensures r.classes.Keys == ex.classes.Keys + ColorThemes + {theme}
    ensures r.styles == ex.styles
  {
    var cleared := ex.classes["primary" := false]["secondary" := false]["accent" := false];
    ex.(classes := cleared[theme := true], colorTheme := theme)
  }

  /** Exactly one colour class is on, and it is the recorded theme. */
  predicate OneColorTheme(ex: Example) {
    ex.colorTheme in ColorThemes &&
    forall c | c in ColorThemes :: On(ex.classes, c) <==> c == ex.colorTheme
  }

  /** After choosing one of the three themes, it is the only colour class
      the element carries. */
  lemma SetColorThemeExclusive(ex: Example, theme: string)
    requires theme in ColorThemes
    ensures OneColorTheme(SetColorTheme(ex, theme))
    ensures ActiveClasses(SetColorTheme(ex, theme).classes) * ColorThemes == {theme}
  {
  }

  /** `updateStyle`: one property is set, the others are kept. */
  function UpdateStyle(ex: Example, property: string, value: string): (r: Example)
    ensures r.styles.Keys == ex.styles.Keys + {property}
    ensures property in r.styles && r.styles[property] == value
    ensures forall p | p in ex.styles && p != property :: r.styles[p] == ex.styles[p]
    ensures r.classes == ex.classes && r.colorTheme == ex.colorTheme
  {
    ex.(styles := ex.styles[property := value])
  }

  /** The controls of the element. */
  datatype Control =
    | ToggleRounded | ToggleShadow | ToggleBordered
    | Theme(theme: string)
    | Padding(value: string) | FontSize(value: string) | Opacity(value: string) | Scale(value: string)

  /** A control the page offers: the theme buttons name the three colour
      themes. */
  predicate Offered(c: Control) {
    c.Theme? ==> c.theme in ColorThemes
  }

  function Apply(ex: Example, c: Control): Example {
    match c
    case ToggleRounded => ToggleClass(ex, "rounded")
    case ToggleShadow => ToggleClass(ex, "shadow")
    case ToggleBordered => ToggleClass(ex, "bordered")
    case Theme(t) => SetColorTheme(ex, t)
    case Padding(v) => UpdateStyle(ex, "padding", v + "rem")
    case FontSize(v) => UpdateStyle(ex, "fontSize", v + "px")
    case Opacity(v) => UpdateStyle(ex, "opacity", v)
    case Scale(v) => UpdateStyle(ex, "transform", "scale(" + v + ")")
  }

  function Run(ex: Example, controls: seq<Control>): Example
    decreases |controls|
  {
    if controls == [] then ex else Run(Apply(ex, controls[0]), controls[1..])
  }

  lemma InitialOneColorTheme()
    ensures OneColorTheme(Initial())
  {
  }

  /** No control the page offers breaks the one-colour rule. */
  lemma ApplyKeepsOneColorTheme(ex: Example, c: Control)
    requires OneColorTheme(ex) && Offered(c)
    ensures OneColorTheme(Apply(ex, c))
  {
    if c.Theme? {
      SetColorThemeExclusive(ex, c.theme);
    }
  }

  lemma {:induction false} RunKeepsOneColorTheme(ex: Example, controls: seq<Control>)
    requires OneColorTheme(ex)
    requires forall i | 0 <= i < |controls| :: Offered(controls[i])
    ensures OneColorTheme(Run(ex, controls))
    decreases |controls|
  {
    if controls != [] {
      ApplyKeepsOneColorTheme(ex, controls[0]);
      RunKeepsOneColorTheme(Apply(ex, controls[0]), controls[1..]);
    }
  }

  /** The scale slider's value as the page reads it back: the "scale("
      prefix and the first ")" are removed. */
  function ScaleText(transform: string): string {
    ReplaceFirst(ReplaceFirst(transform, "scale(", ""), ")", "")
  }

  /** The first occurrence of a character that the prefix does not contain
      is just after the prefix. */
  lemma FirstAfter(v: string, c: char)
    requires c !in v
    ensures IndexOf(v + [c], [c], 0) == |v|
  {
    var s := v + [c];
    assert Occurs(s, [c], |v|) by {
      assert s[|v|..|v| + 1] == [c];
    }
    forall i | 0 <= i < |v| ensures !Occurs(s, [c], i) {
      assert s[i..i + 1][0] == v[i];
    }
  }

  /** The slider writes `scale(v)` and reads `v` back, whenever `v` has no
      closing parenthesis. */
  lemma ScaleRoundTrip(v: string)
    requires ')' !in v
    ensures ScaleText("scale(" + v + ")") == v
  {
    var s := "scale(" + v + ")";
    assert Occurs(s, "scale(", 0) by {
      assert s[0..6] == "scale(";
    }
    var once := ReplaceFirst(s, "scale(", "");
    assert once == v + ")" by {
      assert IndexOf(s, "scale(", 0) == 0;
      assert s[6..] == v + ")";
    }
    FirstAfter(v, ')');
    assert (v + ")")[..|v|] == v;
  }
}

=== FILE: task_card.dfy ===
/** The due-date and status texts of `tm-task-card`.  The clock is a
    parameter: `untilDue` is the due date minus the current time, in
    milliseconds. */
module TaskCard {

  import opened Results
  import opened Text

  const MsPerDay := 86400000

  /** `Math.ceil(untilDue / 86400000)`: the number of day boundaries up to
      the due date, rounded up. */
  function DaysRemaining(untilDue: int): (d: int)
    ensures (d - 1) * MsPerDay < untilDue <= d * MsPerDay
  {
    -((-untilDue) / MsPerDay)
  }

  /** The three kinds of due-date text. */
  datatype Due = Overdue(days: nat) | DueToday | Left(days: nat)

  /** Which text `_getDaysRemaining` shows for a whole number of days. */
  function Classify(d: int): (r: Due)
    ensures r.Overdue? <==> d < 0
    ensures r == DueToday <==> d == 0
    ensures r.Left? <==> d > 0
    ensures r.Overdue? ==> r.days == -d && r.days >= 1
    ensures r.Left? ==> r.days == d
  {
    if d < 0 then Overdue(-d) else if d == 0 then DueToday else Left(d)
  }

  function DueText(r: Due): string {
    match r
    case Overdue(n) => NatToString(n) + " " + Plural("day", n) + " overdue"
    case DueToday => "Due today"
    case Left(n) => NatToString(n) + " " + Plural("day", n) + " left"
  }

  /** `_getDaysRemaining`: the shown text recovers the whole number of
      days to the due date. */
  function DaysRemainingText(untilDue: int): (r: string)
    ensures var d := DaysRemaining(untilDue);
      ParseText(r) == Some(if d < 0 then Overdue(-d) else if d == 0 then DueToday else Left(d))
  {
    TextRoundTrip(Classify(DaysRemaining(untilDue)));
    DueText(Classify(DaysRemaining(untilDue)))
  }

  /** The text is "overdue" exactly when the due date is at least a whole
      day past, "Due today" exactly within the last day up to the due
      moment, and "left" whenever the due date is still ahead. */
  lemma DueTextRanges(untilDue: int)
    ensures Classify(DaysRemaining(untilDue)).Overdue? <==> untilDue <= -MsPerDay
    ensures Classify(DaysRemaining(untilDue)) == DueToday <==> -MsPerDay < untilDue <= 0
    ensures Classify(DaysRemaining(untilDue)).Left? <==> 0 < untilDue
  {
    var d := DaysRemaining(untilDue);
    if d < 0 {
      assert d * MsPerDay <= -MsPerDay;
    } else if d > 0 {
      assert (d - 1) * MsPerDay >= 0;
    }
  }

  /** Reads a due-date text back. */
  function ParseText(s: string): Option<Due> {
    var k := LeadingDigits(s, 10);
    if k == 0 then (if s == "Due today" then Some(DueToday) else None)
    else ParseTail(DigitsValue(s[..k], 10), s[k..])
  }

  function ParseTail(n: nat, rest: string): Option<Due> {
    if rest == " " + Plural("day", n) + " overdue" then Some(Overdue(n))
    else if rest == " " + Plural("day", n) + " left" then Some(Left(n))
    else None
  }

  lemma ParseCount(n: nat, rest: string)
    requires rest == [] || !IsDigit(rest[0])
    ensures ParseText(NatToString(n) + rest) == ParseTail(n, rest)
  {
    NumberPrefix(n, rest);
    DecimalValueOfNat(n);
  }

  lemma DueTodayRoundTrip()
    ensures ParseText("Due today") == Some(DueToday)
  {
    assert DigitVal("Due today"[0]) >= 10;
  }

  lemma TailsDiffer(n: nat)
    ensures " " + Plural("day", n) + " left" != " " + Plural("day", n) + " overdue"
  {
    var a := " " + Plural("day", n) + " left";
    var b := " " + Plural("day", n) + " overdue";
    assert |a| + 3 == |b|;
  }

  /** The text determines the due state, the day count included. */
  lemma TextRoundTrip(r: Due)
    ensures ParseText(DueText(r)) == Some(r)
  {
    match r
    case DueToday => DueTodayRoundTrip();
    case Overdue(n) =>
      var rest := " " + Plural("day", n) + " overdue";
      assert DueText(r) == NatToString(n) + rest;
      ParseCount(n, rest);
    case Left(n) =>
      var rest := " " + Plural("day", n) + " left";
      assert DueText(r) == NatToString(n) + rest;
      ParseCount(n, rest);
      TailsDiffer(n);
  }

  /** The label of a task's status; anything unrecognised reads "Overdue". */
  function StatusLabel(status: string): (shown: string)
    ensures status == "not-started" ==> shown == "Not started"
    ensures status == "in-progress" ==> shown == "In progress"
    ensures status == "completed" ==> shown == "Completed"
    ensures shown == "Overdue" <==> status !in {"not-started", "in-progress", "completed"}
  {
    if status == "not-started" then "Not started"
    else if status == "in-progress" then "In progress"
    else if status == "completed" then "Completed"
    else "Overdue"
  }

  /** The status a label stands for, for the three recognised statuses. */
  function LabelStatus(shown: string): Option<string> {
    if shown == "Not started" then Some("not-started")
    else if shown == "In progress" then Some("in-progress")
    else if shown == "Completed" then Some("completed")
    else None
  }

  /** Distinct recognised statuses get distinct labels, and every other
      status is shown as overdue. */
  lemma StatusLabelInverse(status: string)
    ensures LabelStatus(StatusLabel(status)) ==
      (if status in {"not-started", "in-progress", "completed"} then Some(status) else None)
  {
  }
}

=== FILE: task_form.dfy ===
/** The `task-form` element: a text input whose trimmed value must reach a
    minimum length before a `task-add` event is sent. */
module TaskForm {

  import opened Results
  import opened Text

  datatype TaskForm = TaskForm(taskText: string, error: string, minLength: int)

  /** The `task-add` event's detail. */
  datatype Event = TaskAdd(text: string)

  /** The constructor's defaults. */
  const Initial := TaskForm("", "", 3)

  /** The one condition both the submit button and the submit handler use. */
  predicate IsValid(f: TaskForm) {
    Utf16Length(Trim(f.taskText)) >= f.minLength
  }

  function TooShortMessage(minLength: int): string {
    "Task text must be at least " + IntToString(minLength) + " characters"
  }

  /** `handleInput`: the text is stored and any error cleared. */
  function HandleInput(f: TaskForm, value: string): (r: TaskForm)
    ensures r.taskText == value && r.error == "" && r.minLength == f.minLength
  {
    var f' := f.(taskText := value);
    if f.error != "" then f'.(error := "") else f'
  }

  /** `handleSubmit`: a short text sets the error and sends nothing; an
      accepted one sends the trimmed text and clears the form. */
  function HandleSubmit(f: TaskForm): (r: (TaskForm, Option<Event>))
    ensures !IsValid(f) ==> r == (f.(error := TooShortMessage(f.minLength)), None)
    ensures IsValid(f) ==> r == (f.(taskText := "", error := ""), Some(TaskAdd(Trim(f.taskText))))
    ensures r.1.Some? ==> Utf16Length(r.1.value.text) >= f.minLength
  {
    var text := Trim(f.taskText);
    if Utf16Length(text) < f.minLength then (f.(error := TooShortMessage(f.minLength)), None)
    else (f.(taskText := "", error := ""), Some(TaskAdd(text)))
  }

  /** The disabled state of the submit button. */
  function SubmitDisabled(f: TaskForm): (disabled: bool)
    ensures disabled <==> HandleSubmit(f).1.None?
  {
    !IsValid(f)
  }

  /** The message names the minimum length, which reads back as a number. */
  lemma MessageNamesMinimum(minLength: nat)
    ensures var m := TooShortMessage(minLength);
      m[..27] == "Task text must be at least " && ParseInt(m[27..]) == Some(minLength)
  {
    var prefix := "Task text must be at least ";
    var tail := NatToString(minLength) + " characters";
    var m := TooShortMessage(minLength);
    assert m == prefix + tail;
    assert m[27..] == tail;
    ParseIntOfPrefix(minLength, " characters");
  }

  /** A submitted task always has non-blank text when the minimum is
      positive, and a text with leading or trailing spaces is sent trimmed. */
  lemma SubmittedTextIsTrimmed(f: TaskForm)
    requires f.minLength >= 1 && IsValid(f)
    ensures var e := HandleSubmit(f).1.value;
      e.text != [] && !IsSpace(e.text[0]) && !IsSpace(e.text[|e.text| - 1])
  {
  }
}

=== FILE: testing_todo.dfy ===
/** The `todo-list` element of the testing chapter: adding, toggling and
    removing items by id, the status filter, the simulated remote load and
    the submit handler.  `Date.now()` is a parameter; the one-second delay
    of the load is the gap between its two halves. */
module TestingTodoList {

  import opened Results
  import opened Text
  import opened Lists

  datatype Todo = Todo(id: int, text: string, completed: bool)

  /** The events the element dispatches, each carrying a todo. */
  datatype Event = TodoAdded(todo: Todo) | TodoToggled(todo: Todo) | TodoRemoved(todo: Todo)

  /** The reactive properties; `filter` is whatever string was set. */
  datatype TodoList = TodoList(todos: seq<Todo>, loading: bool, filter: string)

  /** What the list area shows. */
  datatype View = LoadingMessage | EmptyMessage | Items(items: seq<Todo>)

  /** The constructor's defaults. */
  const Initial := TodoList([], false, "all")

  /** The three items the simulated remote source returns. */
  const LoadedTodos := [
    Todo(1, "Learn about Lit", true),
    Todo(2, "Build components", false),
    Todo(3, "Write tests", false)
  ]

  /** The index of the first todo with this id (`Array.find`). */
  function Find(todos: seq<Todo>, id: int): (r: Option<nat>)
    ensures r.Some? ==> r.value < |todos| && todos[r.value].id == id
    ensures r.Some? ==> forall j | 0 <= j < r.value :: todos[j].id != id
    ensures r.None? <==> forall j | 0 <= j < |todos| :: todos[j].id != id
  {
    if todos == [] then None
    else if todos[0].id == id then Some(0)
    else
      match Find(todos[1..], id)
      case None => None
      case Some(i) => Some(i + 1)
  }

  /** `addTodo`: blank text is refused; otherwise a new open todo with the
      text as given (not trimmed) is appended and announced. */
  function AddTodo(l: TodoList, text: string, now: int): (r: (TodoList, Option<Todo>, Option<Event>))
    ensures Trim(text) == [] ==> r == (l, None, None)
    ensures Trim(text) != [] ==>
      var t := Todo(now, text, false);
      r == (l.(todos := l.todos + [t]), Some(t), Some(TodoAdded(t)))
  {
    if Trim(text) == [] then (l, None, None)
    else
      var t := Todo(now, text, false);
      (l.(todos := l.todos + [t]), Some(t), Some(TodoAdded(t)))
  }

  /** `toggleTodo`: flips the first todo with this id and announces it;
      an unknown id changes nothing. */
  function ToggleTodo(l: TodoList, id: int): (r: (TodoList, Option<Event>))
    ensures Find(l.todos, id).None? ==> r == (l, None)
    ensures Find(l.todos, id).Some? ==>
      var i := Find(l.todos, id).value;
      && |r.0.todos| == |l.todos|
      && r.0.todos[i] == l.todos[i].(completed := !l.todos[i].completed)
      && (forall j | 0 <= j < |l.todos| && j != i :: r.0.todos[j] == l.todos[j])
      && r.0.loading == l.loading && r.0.filter == l.filter
      && r.1 == Some(TodoToggled(r.0.todos[i]))
  {
    match Find(l.todos, id)
    case None => (l, None)
    case Some(i) =>
      var t := l.todos[i].(completed := !l.todos[i].completed);
      (l.(todos := l.todos[i := t]), Some(TodoToggled(t)))
  }

  /** The todos whose id differs (`filter(t => t.id !== id)`). */
  function WithoutId(todos: seq<Todo>, id: int): (r: seq<Todo>)
    ensures forall t :: multiset(r)[t] == if t.id != id then multiset(todos)[t] else 0
    ensures forall t :: t in r <==> t in todos && t.id != id
    ensures IsSubsequence(r, todos)
    ensures (forall j | 0 <= j < |todos| :: todos[j].id != id) ==> r == todos
  {
    var p := (t: Todo) => t.id != id;
    KeepIsSubsequence(todos, p);
    KeepAll(todos, p);
    var r := Keep(todos, p);
    assert forall t :: t in r <==> multiset(r)[t] > 0;
    r
  }

  /** `removeTodo`: drops every todo with this id and announces the first
      of them; an unknown id changes nothing. */
  function RemoveTodo(l: TodoList, id: int): (r: (TodoList, Option<Event>))
    ensures Find(l.todos, id).None? ==> r == (l, None)
    ensures Find(l.todos, id).Some? ==>
      && r.0 == l.(todos := WithoutId(l.todos, id))
      && r.1 == Some(TodoRemoved(l.todos[Find(l.todos, id).value]))
  {
    match Find(l.todos, id)
    case None => (l, None)
    case Some(i) => (l.(todos := WithoutId(l.todos, id)), Some(TodoRemoved(l.todos[i])))
  }

  /** The todos with the given completion state, in order. */
  function WithStatus(todos: seq<Todo>, done: bool): (r: seq<Todo>)
    ensures forall t :: multiset(r)[t] == if t.completed == done then multiset(todos)[t] else 0
    ensures forall t :: t in r <==> t in todos && t.completed == done
    ensures IsSubsequence(r, todos)
  {
    var p := (t: Todo) => t.completed == done;
    KeepIsSubsequence(todos, p);
    var r := Keep(todos, p);
    assert forall t :: t in r <==> multiset(r)[t] > 0;
    r
  }

  /** `filteredTodos`: "active" and "completed" select by status; "all"
      and every other string show everything. */
  function FilteredTodos(l: TodoList): (r: seq<Todo>)
    ensures l.filter == "active" ==> forall t :: multiset(r)[t] == if !t.completed then multiset(l.todos)[t] else 0
    ensures l.filter == "completed" ==> forall t :: multiset(r)[t] == if t.completed then multiset(l.todos)[t] else 0
    ensures l.filter == "active" ==> forall t :: t in r <==> t in l.todos && !t.completed
    ensures l.filter == "completed" ==> forall t :: t in r <==> t in l.todos && t.completed
    ensures IsSubsequence(r, l.todos)
    ensures l.filter != "active" && l.filter != "completed" ==> r == l.todos
  {
    if l.filter == "active" then WithStatus(l.todos, false)
    else if l.filter == "completed" then WithStatus(l.todos, true)
    else
      KeepIsSubsequence(l.todos, (t: Todo) => true);
      KeepAll(l.todos, (t: Todo) => true);
      l.todos
  }

  /** `setFilter`. */
  function SetFilter(l: TodoList, filter: string): (r: TodoList)
    ensures r.filter == filter && r.todos == l.todos && r.loading == l.loading
  {
    l.(filter := filter)
  }

  /** The first half of `loadTodos`: the loading flag is raised. */
  function LoadBegin(l: TodoList): (r: TodoList)
    ensures r.loading && r.todos == l.todos && r.filter == l.filter
  {
    l.(loading := true)
  }

  /** The second half of `loadTodos`: the mock items replace the list, the
      flag is lowered, and the items are the promise's value. */
  function LoadFinish(l: TodoList): (r: (TodoList, seq<Todo>))
    ensures !r.0.loading && r.0.todos == r.1 && r.0.filter == l.filter
    ensures |r.1| == 3 && r.1[0].completed && !r.1[1].completed && !r.1[2].completed
  {
    (l.(todos := LoadedTodos, loading := false), LoadedTodos)
  }

  /** `handleSubmit`: a non-blank input adds a todo and clears the input. */
  function HandleSubmit(l: TodoList, input: string, now: int): (r: (TodoList, string, Option<Event>))
    ensures Trim(input) == [] ==> r == (l, input, None)
    ensures Trim(input) != [] ==>
      r.0.todos == l.todos + [Todo(now, input, false)] && r.1 == "" && r.2 == Some(TodoAdded(Todo(now, input, false)))
  {
    if Trim(input) == [] then (l, input, None)
    else
      var added := AddTodo(l, input, now);
      (added.0, "", added.2)
  }

  /** The list area of `render`. */
  function ListView(l: TodoList): (v: View)
    ensures l.loading <==> v == LoadingMessage
    ensures v == EmptyMessage <==> !l.loading && FilteredTodos(l) == []
    ensures v.Items? ==> v.items == FilteredTodos(l) && v.items != []
  {
    if l.loading then LoadingMessage
    else if FilteredTodos(l) == [] then EmptyMessage
    else Items(FilteredTodos(l))
  }

  // ---------------------------------------------------------------- lemmas

  /** Toggling the same id twice restores the list. */
  lemma ToggleTwiceRestores(l: TodoList, id: int)
    ensures ToggleTodo(ToggleTodo(l, id).0, id).0 == l
  {
    match Find(l.todos, id)
    case None =>
    case Some(i) =>
      var once := ToggleTodo(l, id).0;
      FindStable(l.todos, once.todos, id);
      assert once.todos[i := l.todos[i]] == l.todos;
  }

  /** Changing fields other than the id keeps the first match in place. */
  lemma {:induction false} FindStable(a: seq<Todo>, b: seq<Todo>, id: int)
    requires |a| == |b|
    requires forall j | 0 <= j < |a| :: a[j].id == b[j].id
    ensures Find(a, id) == Find(b, id)
    decreases |a|
  {
    if a != [] {
      FindStable(a[1..], b[1..], id);
    }
  }

  /** After removal no todo carries the id, and removing again is a no-op. */
  lemma RemoveIsComplete(l: TodoList, id: int)
    ensures Find(RemoveTodo(l, id).0.todos, id).None?
    ensures RemoveTodo(RemoveTodo(l, id).0, id) == (RemoveTodo(l, id).0, None)
  {
    var r := RemoveTodo(l, id).0;
    forall j | 0 <= j < |r.todos| ensures r.todos[j].id != id {
      assert r.todos[j] in r.todos;
    }
  }

  /** Every todo is either active or completed: the two filters split the
      list without loss. */
  lemma StatusesPartition(todos: seq<Todo>)
    ensures |WithStatus(todos, false)| + |WithStatus(todos, true)| == |todos|
  {
    KeepPartition(todos, (t: Todo) => t.completed == false, (t: Todo) => t.completed == true);
  }

  /** A freshly added todo is active and shows under the "active" filter. */
  lemma AddedTodoIsActive(l: TodoList, text: string, now: int)
    requires Trim(text) != []
    ensures var r := AddTodo(l, text, now).0.(filter := "active");
      Todo(now, text, false) in FilteredTodos(r)
  {
  }

  /** After loading, two of the three items are active. */
  lemma LoadedCounts(l: TodoList)
    ensures |FilteredTodos(LoadFinish(l).0.(filter := "active"))| == 2
    ensures |FilteredTodos(LoadFinish(l).0.(filter := "completed"))| == 1
  {
    var t := LoadedTodos;
    assert WithStatus(t[2..], false) == [t[2]];
    assert WithStatus(t[1..], false) == [t[1], t[2]];
    assert WithStatus(t[2..], true) == [];
    assert WithStatus(t[1..], true) == [];
  }
}

=== FILE: text.dfy ===
/** String helpers shared by the components.  The browser's string built-ins
    (`trim`, `toLowerCase`, `indexOf`, `includes`, `parseInt`, number-to-string
    conversion) are modelled here; case conversion is restricted to ASCII. */
module Text {

  import opened Results

  /** ECMAScript white space and line terminators: what `trim` removes and
      what the regular-expression class `\s` matches. */
  predicate IsSpace(c: char) {
    || c == ' ' || ('\t' <= c <= '\r')
    || c == '\U{00A0}' || c == '\U{1680}' || ('\U{2000}' <= c <= '\U{200A}')
    || c == '\U{2028}' || c == '\U{2029}' || c == '\U{202F}' || c == '\U{205F}'
    || c == '\U{3000}' || c == '\U{FEFF}'
  }

  /** `String.prototype.trimStart`. */
  function TrimStart(s: string): (r: string)
    ensures |r| <= |s| && r == s[|s| - |r|..]
    ensures forall i | 0 <= i < |s| - |r| :: IsSpace(s[i])
    ensures r == [] || !IsSpace(r[0])
  {
    if s != [] && IsSpace(s[0]) then TrimStart(s[1..]) else s
  }

  /** `String.prototype.trimEnd`. */
  function TrimEnd(s: string): (r: string)
    ensures |r| <= |s| && r == s[..|r|]
    ensures forall i | |r| <= i < |s| :: IsSpace(s[i])
    ensures r == [] || !IsSpace(r[|r| - 1])
  {
    if s != [] && IsSpace(s[|s| - 1]) then TrimEnd(s[..|s| - 1]) else s
  }

  /** `String.prototype.trim`: whitespace removed from both ends. */
  function Trim(s: string): (r: string)
    ensures |r| <= |s|
    ensures r == [] <==> forall i | 0 <= i < |s| :: IsSpace(s[i])
    ensures r != [] ==> !IsSpace(r[0]) && !IsSpace(r[|r| - 1])
  {
    var t := TrimStart(s);
    var r := TrimEnd(t);
    assert r != [] ==> r[0] == t[0];
    r
  }

  /** A JavaScript string's `length`: UTF-16 code units, two for each
      character outside the Basic Multilingual Plane. */
  function Utf16Length(s: string): (n: nat)
    ensures |s| <= n <= 2 * |s|
    ensures n == 0 <==> s == []
    ensures (forall i | 0 <= i < |s| :: s[i] as int < 0x1_0000) ==> n == |s|
  {
    if s == [] then 0
    else Utf16Length(s[..|s| - 1]) + (if s[|s| - 1] as int >= 0x1_0000 then 2 else 1)
  }

  /** One emoji is two code units long. */
  lemma EmojiIsTwoUnits()
    ensures Utf16Length("\U{1F600}") == 2 && |"\U{1F600}"| == 1
  {
    assert "\U{1F600}"[..0] == [];
  }

  /** The ASCII part of `toLowerCase`: 'A'..'Z' map to 'a'..'z'. */
  function LowerChar(c: char): char {
    if 'A' <= c <= 'Z' then (c as int + 32) as char else c
  }

  function Lower(s: string): (r: string)
    ensures |r| == |s|
    ensures forall i | 0 <= i < |s| :: r[i] == LowerChar(s[i])
  {
    seq(|s|, i requires 0 <= i < |s| => LowerChar(s[i]))
  }

  /** `t` occurs in `s` starting at index `i`. */
  predicate Occurs(s: string, t: string, i: int) {
    0 <= i && i + |t| <= |s| && s[i..i + |t|] == t
  }

  /** The first occurrence of `t` in `s` at or after `k`, or -1. */
  function FirstFrom(s: string, t: string, k: nat): (r: int)
    requires k <= |s|
    ensures r == -1 || (k <= r <= |s| && Occurs(s, t, r))
    ensures forall i | k <= i && (r == -1 || i < r) :: !Occurs(s, t, i)
    decreases |s| - k
  {
    if Occurs(s, t, k) then k
    else if k == |s| then -1
    else FirstFrom(s, t, k + 1)
  }

  /** `s.indexOf(t, from)`: the search starts at `from` clamped to the
      length of `s`. */
  function IndexOf(s: string, t: string, from: nat): (r: int)
    ensures r == -1 || (Occurs(s, t, r) && (from <= |s| ==> from <= r))
    ensures forall i | from <= i && (r == -1 || i < r) :: !Occurs(s, t, i)
  {
    FirstFrom(s, t, if from <= |s| then from else |s|)
  }

  /** `s.includes(t)`. */
  function Includes(s: string, t: string): (r: bool)
    ensures r <==> exists i :: Occurs(s, t, i)
  {
    var k := IndexOf(s, t, 0);
    k != -1
  }

  /** `s.replace(pattern, replacement)` with a string pattern: only the first
      occurrence is replaced. */
  function ReplaceFirst(s: string, pattern: string, replacement: string): (r: string)
    ensures IndexOf(s, pattern, 0) == -1 ==> r == s
    ensures IndexOf(s, pattern, 0) != -1 ==>
      var i := IndexOf(s, pattern, 0);
      r == s[..i] + replacement + s[i + |pattern|..]
  {
    var i := IndexOf(s, pattern, 0);
    if i == -1 then s else s[..i] + replacement + s[i + |pattern|..]
  }

  predicate IsDigit(c: char) {
    '0' <= c <= '9'
  }

  function DigitChar(d: nat): (c: char)
    requires d < 10
    ensures IsDigit(c)
  {
    ('0' as int + d) as char
  }

  /** Decimal rendering of a non-negative integer, as template literals
      render a whole number below 1e21 (larger numbers switch to exponent
      notation, which is not modelled). */
  function NatToString(n: nat): (r: string)
    ensures |r| >= 1
    ensures forall i | 0 <= i < |r| :: IsDigit(r[i])
    ensures r[0] == '0' ==> r == "0"
  {
    if n < 10 then [DigitChar(n)] else NatToString(n / 10) + [DigitChar(n % 10)]
  }

  function IntToString(i: int): string {
    if i < 0 then "-" + NatToString(-i) else NatToString(i)
  }

  /** `word` followed by "s" unless the count is exactly one. */
  function Plural(word: string, n: int): (r: string)
    ensures |r| == |word| + (if n == 1 then 0 else 1) && r[..|word|] == word
    ensures r == word <==> n == 1
    ensures n != 1 ==> r[|r| - 1] == 's'
  {
    if n != 1 then word + "s" else word
  }

  /** The value of a digit in radix up to 36 (letters of either case count
      from 10); 36 for anything else. */
  function DigitVal(c: char): nat {
    if '0' <= c <= '9' then c as nat - '0' as nat
    else if 'a' <= c <= 'z' then c as nat - 'a' as nat + 10
    else if 'A' <= c <= 'Z' then c as nat - 'A' as nat + 10
    else 36
  }

  /** Length of the longest prefix of `s` made of digits of `radix`. */
  function LeadingDigits(s: string, radix: nat): (k: nat)
    ensures k <= |s|
    ensures forall i | 0 <= i < k :: DigitVal(s[i]) < radix
    ensures k < |s| ==> DigitVal(s[k]) >= radix
  {
    if s != [] && DigitVal(s[0]) < radix then 1 + LeadingDigits(s[1..], radix) else 0
  }

  function DigitsValue(s: string, radix: nat): nat
    requires forall i | 0 <= i < |s| :: DigitVal(s[i]) < radix
  {
    if s == [] then 0 else DigitsValue(s[..|s| - 1], radix) * radix + DigitVal(s[|s| - 1])
  }

  /** `parseInt(s)` with no radix argument: leading whitespace is skipped, one
      sign is accepted, a "0x"/"0X" prefix selects radix 16, and the longest
      run of digits is read.  `None` is NaN (no digit at all). */
  function ParseInt(s: string): Option<int> {
    var t := TrimStart(s);
    var negative := t != [] && t[0] == '-';
    var u := if t != [] && (t[0] == '-' || t[0] == '+') then t[1..] else t;
    ParseSigned(negative, ParseMagnitude(u))
  }

  function ParseSigned(negative: bool, magnitude: Option<nat>): Option<int> {
    match magnitude
    case None => None
    case Some(v) => Some(if negative then -(v as int) else v as int)
  }

  /** The unsigned part of `parseInt`: an optional "0x"/"0X" prefix, then
      the longest run of digits. */
  function ParseMagnitude(u: string): Option<nat> {
    var hex := |u| >= 2 && u[0] == '0' && (u[1] == 'x' || u[1] == 'X');
    var radix := if hex then 16 else 10;
    var body := if hex then u[2..] else u;
    var k := LeadingDigits(body, radix);
    if k == 0 then None else Some(DigitsValue(body[..k], radix))
  }

  lemma {:induction false} DecimalValueOfNat(n: nat)
    ensures DigitsValue(NatToString(n), 10) == n
    decreases n
  {
    var r := NatToString(n);
    if n >= 10 {
      var p := NatToString(n / 10);
      assert r == p + [DigitChar(n % 10)];
      assert r[..|r| - 1] == p;
      DecimalValueOfNat(n / 10);
    }
  }

  lemma LeadingDigitsAll(s: string, radix: nat)
    requires forall i | 0 <= i < |s| :: DigitVal(s[i]) < radix
    ensures LeadingDigits(s, radix) == |s|
  {
  }

  lemma NotSpace(c: char)
    requires c == '-' || IsDigit(c)
    ensures !IsSpace(c)
  {
  }

  /** A printed natural number reads back as itself. */
  lemma MagnitudeOfNat(n: nat)
    ensures ParseMagnitude(NatToString(n)) == Some(n)
  {
    var u := NatToString(n);
    assert !(|u| >= 2 && u[0] == '0');
    LeadingDigitsAll(u, 10);
    assert u[..|u|] == u;
    DecimalValueOfNat(n);
  }

  /** Printing an integer and reading it back with `parseInt` is the identity. */
  lemma ParseIntRoundTrip(i: int)
    ensures ParseInt(IntToString(i)) == Some(i)
  {
    var s := IntToString(i);
    var n: nat := if i < 0 then -i else i;
    assert s[0] == '-' || IsDigit(s[0]);
    NotSpace(s[0]);
    assert TrimStart(s) == s;
    if i < 0 {
      assert s[1..] == NatToString(n);
    }
    MagnitudeOfNat(n);
  }

  /** A number followed by text that does not start with a digit: the
      number is recovered from the front. */
  lemma NumberPrefix(n: nat, rest: string)
    requires rest == [] || !IsDigit(rest[0])
    ensures var s := NatToString(n) + rest;
      LeadingDigits(s, 10) == |NatToString(n)| &&
      s[..|NatToString(n)|] == NatToString(n) &&
      s[|NatToString(n)|..] == rest
  {
    var u := NatToString(n);
    var s := u + rest;
    var k := LeadingDigits(s, 10);
    assert forall i | 0 <= i < |u| :: s[i] == u[i];
    assert |u| < |s| ==> s[|u|] == rest[0];
  }

  /** Text starting with a digit has no sign or white space to skip. */
  lemma ParseIntUnsigned(s: string)
    requires s != [] && IsDigit(s[0])
    ensures ParseInt(s) == ParseSigned(false, ParseMagnitude(s))
  {
    NotSpace(s[0]);
    assert TrimStart(s) == s;
  }

  lemma MagnitudeOfPrefix(n: nat, rest: string)
    requires rest == [] || (!IsDigit(rest[0]) && rest[0] != 'x' && rest[0] != 'X')
    ensures ParseMagnitude(NatToString(n) + rest) == Some(n)
  {
    var u := NatToString(n);
    var s := u + rest;
    NumberPrefix(n, rest);
    if |s| >= 2 && s[0] == '0' {
      assert u == "0";
      assert s[1] == rest[0];
    }
    DecimalValueOfNat(n);
  }

  /** `parseInt` reads a printed number back from the front of a longer
      text, provided the text does not continue the number. */
  lemma ParseIntOfPrefix(n: nat, rest: string)
    requires rest == [] || (!IsDigit(rest[0]) && rest[0] != 'x' && rest[0] != 'X')
    ensures ParseInt(NatToString(n) + rest) == Some(n)
  {
    var s := NatToString(n) + rest;
    assert s[0] == NatToString(n)[0];
    ParseIntUnsigned(s);
    MagnitudeOfPrefix(n, rest);
  }
}

=== FILE: theme_selector.dfy ===
/** The `theme-selector` element and the theme class it keeps on the
    document's root element, whose class list is modelled as a set. */
module ThemeSelector {

  import opened Results

  datatype Theme = Theme(id: string, name: string)

  datatype Selector = Selector(themes: seq<Theme>, currentTheme: string)

  /** The `theme-change` event's detail. */
  datatype ThemeChange = ThemeChange(theme: string)

  /** The selector, the root's class set and what was dispatched. */
  datatype Step = Step(state: Selector, root: set<string>, emitted: Option<ThemeChange>)

  const ThemeClasses: set<string> := {"theme-default", "theme-dark", "theme-light", "theme-nature", "theme-sunset"}

  function Initial(): (s: Selector)
    ensures s.currentTheme == "default" && |s.themes| == 5
    ensures forall i | 0 <= i < |s.themes| :: "theme-" + s.themes[i].id in ThemeClasses
  {
    assert "theme-" + "default" == "theme-default" && "theme-" + "dark" == "theme-dark";
    assert "theme-" + "light" == "theme-light" && "theme-" + "nature" == "theme-nature";
    assert "theme-" + "sunset" == "theme-sunset";
    Selector([Theme("default", "Default"), Theme("dark", "Dark"), Theme("light", "Light"),
              Theme("nature", "Nature"), Theme("sunset", "Sunset")], "default")
  }

  /** `_applyTheme`: the five theme classes are removed and the chosen
      one is added; every other class stays. */
  function ApplyTheme(root: set<string>, themeId: string): (r: set<string>)
    ensures "theme-" + themeId in r
    ensures forall c | c in ThemeClasses && c != "theme-" + themeId :: c !in r
    ensures forall c | c !in ThemeClasses && c != "theme-" + themeId :: c in r <==> c in root
  {
    root - ThemeClasses + {"theme-" + themeId}
  }

  /** Applying one theme after another is the same as applying the second. */
  lemma ApplyThemeLastWins(root: set<string>, a: string, b: string)
    requires "theme-" + a in ThemeClasses
    ensures ApplyTheme(ApplyTheme(root, a), b) == ApplyTheme(root, b)
  {
  }

  /** `firstUpdated`: the current theme is applied. */
  function FirstUpdated(s: Selector, root: set<string>): (r: set<string>)
    ensures r == ApplyTheme(root, s.currentTheme)
  {
    ApplyTheme(root, s.currentTheme)
  }

  /** `_selectTheme`: a different theme is taken, applied and reported;
      the current one changes nothing. */
  function SelectTheme(s: Selector, root: set<string>, themeId: string): (r: Step)
    ensures themeId == s.currentTheme ==> r == Step(s, root, None)
    ensures themeId != s.currentTheme ==>
      r.state == s.(currentTheme := themeId) && r.root == ApplyTheme(root, themeId) &&
      r.emitted == Some(ThemeChange(themeId))
  {
    if s.currentTheme != themeId then
      Step(s.(currentTheme := themeId), ApplyTheme(root, themeId), Some(ThemeChange(themeId)))
    else Step(s, root, None)
  }

  /** The root carries exactly one theme class, that of the current
      theme. */
  predicate InSync(s: Selector, root: set<string>) {
    "theme-" + s.currentTheme in ThemeClasses && root * ThemeClasses == {"theme-" + s.currentTheme}
  }

  /** Once the first update has applied a listed theme, every selection of a
      listed theme keeps the root in step with the selector. */
  lemma SelectKeepsInSync(s: Selector, root: set<string>, themeId: string)
    requires InSync(s, root) && "theme-" + themeId in ThemeClasses
    ensures InSync(SelectTheme(s, root, themeId).state, SelectTheme(s, root, themeId).root)
  {
  }

  lemma FirstUpdatedInSync(root: set<string>)
    ensures InSync(Initial(), FirstUpdated(Initial(), root))
  {
    assert "theme-" + "default" == "theme-default";
  }
}

=== FILE: validation_form.dfy ===
/** The `validation-form` element: per-field validation of a contact form,
    the input handler that clears a field's error, and the two halves of
    the submit handler around its simulated one-second request. */
module ValidationForm {

  import opened Results
  import opened Text

  datatype Field = Name | Email | Message | Subject

  datatype FormData = FormData(name: string, email: string, message: string, subject: string)

  /** The reactive properties. */
  datatype Form = Form(data: FormData, errors: map<Field, string>, loading: bool)

  /** The events the form dispatches. */
  datatype Event = ValidationError(errors: map<Field, string>) | FormSubmit(formData: FormData)

  const InitialData := FormData("", "", "", "general")

  /** The constructor's defaults. */
  const Initial := Form(InitialData, map[], false)

  const NameRequired := "Name is required"
  const NameTooShort := "Name must be at least 2 characters"
  const EmailRequired := "Email is required"
  const EmailInvalid := "Please enter a valid email address"
  const MessageRequired := "Message is required"
  const MessageTooShort := "Message must be at least 10 characters"

  // ------------------------------------------------------------ e-mail

  /** A character of `[^\s@]`. */
  predicate EmailChar(c: char) {
    !IsSpace(c) && c != '@'
  }

  predicate AllEmailChars(s: string) {
    forall i | 0 <= i < |s| :: EmailChar(s[i])
  }

  /** The regular expression `^[^\s@]+@[^\s@]+\.[^\s@]+$`, read as a split of
      the whole string into a local part, '@', a domain, '.', and a suffix,
      each part non-empty and free of '@' and white space. */
  ghost predicate MatchesEmailPattern(s: string) {
    exists at, dot | 0 < at && at + 1 < dot < |s| - 1 ::
      && s[at] == '@' && s[dot] == '.'
      && AllEmailChars(s[..at]) && AllEmailChars(s[at + 1..dot]) && AllEmailChars(s[dot + 1..])
  }

  /** A direct check: one '@' that is not first, no white space, and a '.'
      after the '@' that is neither next to it nor last. */
  predicate IsValidEmail(s: string) {
    var at := IndexOf(s, "@", 0);
    && at > 0
    && AllEmailChars(s[..at])
    && AllEmailChars(s[at + 1..])
    && var domain := s[at + 1..];
       var dot := IndexOf(domain, ".", 1);
       dot != -1 && dot < |domain| - 1
  }

  lemma SliceOfEmailChars(s: string, i: nat, j: nat)
    requires i <= j <= |s| && AllEmailChars(s)
    ensures AllEmailChars(s[i..j])
  {
    assert forall k | 0 <= k < j - i :: s[i..j][k] == s[i + k];
  }

  lemma CharOccurs(s: string, c: char, i: nat)
    requires i < |s|
    ensures Occurs(s, [c], i) <==> s[i] == c
  {
    assert s[i..i + 1] == [s[i]];
  }

  /** The direct check accepts only strings the pattern matches ... */
  lemma ValidEmailMatches(s: string)
    requires IsValidEmail(s)
    ensures MatchesEmailPattern(s)
  {
    var at := IndexOf(s, "@", 0);
    var domain := s[at + 1..];
    var dot := IndexOf(domain, ".", 1);
    CharOccurs(s, '@', at);
    CharOccurs(domain, '.', dot);
    var d := at + 1 + dot;
    assert s[d] == domain[dot];
    SliceOfEmailChars(domain, 0, dot);
    SliceOfEmailChars(domain, dot + 1, |domain|);
    assert s[at + 1..d] == domain[..dot];
    assert s[d + 1..] == domain[dot + 1..];
  }

  /** ... and accepts every string the pattern matches. */
  lemma MatchingEmailValid(s: string, at: nat, d: nat)
    requires 0 < at && at + 1 < d < |s| - 1
    requires s[at] == '@' && s[d] == '.'
    requires AllEmailChars(s[..at]) && AllEmailChars(s[at + 1..d]) && AllEmailChars(s[d + 1..])
    ensures IsValidEmail(s)
  {
    FirstAt(s, at);
    var domain := s[at + 1..];
    assert AllEmailChars(domain) by {
      forall k | 0 <= k < |domain| ensures EmailChar(domain[k]) {
        if at + 1 + k < d {
          assert domain[k] == s[at + 1..d][k];
        } else if at + 1 + k > d {
          assert domain[k] == s[d + 1..][k - (d - at)];
        }
      }
    }
    CharOccurs(domain, '.', d - at - 1);
  }

  /** The direct check accepts exactly the strings the pattern matches. */
  lemma IsValidEmailMatchesPattern(s: string)
    ensures IsValidEmail(s) <==> MatchesEmailPattern(s)
  {
    if IsValidEmail(s) {
      ValidEmailMatches(s);
    }
    if MatchesEmailPattern(s) {
      var at, d :| 0 < at && at + 1 < d < |s| - 1
        && s[at] == '@' && s[d] == '.'
        && AllEmailChars(s[..at]) && AllEmailChars(s[at + 1..d]) && AllEmailChars(s[d + 1..]);
      MatchingEmailValid(s, at, d);
    }
  }

  /** An '@' preceded only by e-mail characters is the first one. */
  lemma FirstAt(s: string, at: nat)
    requires at < |s| && s[at] == '@' && AllEmailChars(s[..at])
    ensures IndexOf(s, "@", 0) == at
  {
    CharOccurs(s, '@', at);
    forall i | 0 <= i < at ensures !Occurs(s, "@", i) {
      CharOccurs(s, '@', i);
      assert s[..at][i] == s[i];
    }
  }

  // -------------------------------------------------------- validation

  /** The error for the name, if any. */
  function NameError(name: string): Option<string> {
    if Trim(name) == [] then Some(NameRequired)
    else if Utf16Length(Trim(name)) < 2 then Some(NameTooShort)
    else None
  }

  /** The error for the e-mail; the pattern is matched against the untrimmed value. */
  function EmailError(email: string): Option<string> {
    if Trim(email) == [] then Some(EmailRequired)
    else if !IsValidEmail(email) then Some(EmailInvalid)
    else None
  }

  /** The error for the message, if any. */
  function MessageError(message: string): Option<string> {
    if Trim(message) == [] then Some(MessageRequired)
    else if Utf16Length(Trim(message)) < 10 then Some(MessageTooShort)
    else None
  }

  /** The error `validateForm` records for one field; the subject is never
      checked. */
  function FieldError(data: FormData, f: Field): (e: Option<string>)
    ensures f == Name ==> (e.Some? <==> Utf16Length(Trim(data.name)) < 2)
    ensures f == Email ==> (e.Some? <==> Trim(data.email) == [] || !IsValidEmail(data.email))
    ensures f == Message ==> (e.Some? <==> Utf16Length(Trim(data.message)) < 10)
    ensures f == Subject ==> e.None?
    ensures e.Some? ==> e.value != ""
  {
    match f
    case Name => NameError(data.name)
    case Email => EmailError(data.email)
    case Message => MessageError(data.message)
    case Subject => None
  }

  /** `validateForm`: exactly the fields with an error are in the map, with
      their messages, and the form is valid when the map is empty. */
  function Validate(data: FormData): (r: (map<Field, string>, bool))
    ensures forall f :: f in r.0 <==> FieldError(data, f).Some?
    ensures forall f | f in r.0 :: r.0[f] == FieldError(data, f).value
    ensures r.1 <==> forall f :: FieldError(data, f).None?
  {
    var errors := map f | f in {Name, Email, Message} && FieldError(data, f).Some? :: FieldError(data, f).value;
    var valid := FieldError(data, Name).None? && FieldError(data, Email).None? && FieldError(data, Message).None?;
    EveryField(data);
    (errors, valid)
  }

  /** A field has an error only if one of the three checked fields has. */
  lemma EveryField(data: FormData)
    ensures (forall f :: FieldError(data, f).None?) <==>
      FieldError(data, Name).None? && FieldError(data, Email).None? && FieldError(data, Message).None?
  {
    if FieldError(data, Name).None? && FieldError(data, Email).None? && FieldError(data, Message).None? {
      forall f ensures FieldError(data, f).None? {
        match f
        case Name =>
        case Email =>
        case Message =>
        case Subject =>
      }
    }
  }

  /** The form is valid exactly when the trimmed name is two UTF-16 code
      units long, the e-mail matches the pattern and the trimmed message
      is ten units long. */
  lemma ValidExactly(data: FormData)
    ensures Validate(data).1 <==>
      Utf16Length(Trim(data.name)) >= 2 && MatchesEmailPattern(data.email) && Utf16Length(Trim(data.message)) >= 10
  {
    EmailValidExactly(data.email);
    EveryField(data);
  }

  /** The e-mail passes exactly when it matches the pattern. */
  lemma EmailValidExactly(email: string)
    ensures EmailError(email).None? <==> MatchesEmailPattern(email)
  {
    IsValidEmailMatchesPattern(email);
    if IsValidEmail(email) {
      var at := IndexOf(email, "@", 0);
      assert !IsSpace(email[at]) by {
        CharOccurs(email, '@', at);
      }
    }
  }

  /** Lengths count code units: a name of one emoji is long enough. */
  lemma EmojiNameLongEnough()
    ensures NameError("\U{1F600}") == None
  {
    var name := "\U{1F600}";
    assert TrimStart(name) == name;
    assert TrimEnd(name) == name;
    EmojiIsTwoUnits();
  }

  /** The messages of the three checked fields, by cause. */
  lemma ErrorMessages(data: FormData)
    ensures FieldError(data, Name) ==
      if Trim(data.name) == [] then Some(NameRequired) else if Utf16Length(Trim(data.name)) < 2 then Some(NameTooShort) else None
    ensures FieldError(data, Email) ==
      if Trim(data.email) == [] then Some(EmailRequired) else if !IsValidEmail(data.email) then Some(EmailInvalid) else None
    ensures FieldError(data, Message) ==
      if Trim(data.message) == [] then Some(MessageRequired) else if Utf16Length(Trim(data.message)) < 10 then Some(MessageTooShort) else None
  {
  }

  // --------------------------------------------------------- handlers

  function Get(data: FormData, f: Field): string {
    match f
    case Name => data.name
    case Email => data.email
    case Message => data.message
    case Subject => data.subject
  }

  function Set(data: FormData, f: Field, value: string): (r: FormData)
    ensures Get(r, f) == value
    ensures forall g | g != f :: Get(r, g) == Get(data, g)
  {
    match f
    case Name => data.(name := value)
    case Email => data.(email := value)
    case Message => data.(message := value)
    case Subject => data.(subject := value)
  }

  /** `handleInput`: the field takes the value and loses its error, if it
      had a (non-empty, hence truthy) one; nothing else changes. */
  function HandleInput(f: Form, field: Field, value: string): (r: Form)
    ensures Get(r.data, field) == value
    ensures forall g | g != field :: Get(r.data, g) == Get(f.data, g)
    ensures field in f.errors && f.errors[field] != "" ==> r.errors == f.errors - {field}
    ensures !(field in f.errors && f.errors[field] != "") ==> r.errors == f.errors
    ensures r.loading == f.loading
  {
    var data := Set(f.data, field, value);
    if field in f.errors && f.errors[field] != "" then Form(data, f.errors - {field}, f.loading)
    else Form(data, f.errors, f.loading)
  }

  /** The first half of `handleSubmit`: validation; an invalid form stops
      here with the errors announced, a valid one starts loading. */
  function SubmitBegin(f: Form): (r: (Form, bool, Option<Event>))
    ensures r.0.data == f.data && r.0.errors == Validate(f.data).0
    ensures r.1 <==> Validate(f.data).1
    ensures r.1 ==> r.0.loading && r.2.None?
    ensures !r.1 ==> r.0.loading == f.loading && r.2 == Some(ValidationError(r.0.errors))
  {
    var (errors, valid) := Validate(f.data);
    if !valid then (f.(errors := errors), false, Some(ValidationError(errors)))
    else (f.(errors := errors, loading := true), true, None)
  }

  /** The second half: the data is announced, then the form is cleared. */
  function SubmitFinish(f: Form): (r: (Form, Event))
    ensures r.0 == f.(data := InitialData, loading := false)
    ensures r.1 == FormSubmit(f.data)
  {
    (f.(data := InitialData, loading := false), FormSubmit(f.data))
  }

  /** A successful submission announces what was typed and leaves an empty
      form without errors. */
  lemma SubmitRoundTrip(f: Form)
    requires Validate(f.data).1
    ensures var (begun, ok, _) := SubmitBegin(f);
      ok && SubmitFinish(begun) == (Form(InitialData, map[], false), FormSubmit(f.data))
  {
  }

  /** The cleared form is not valid: every required text field is empty. */
  lemma InitialDataInvalid()
    ensures var errors := Validate(InitialData).0;
      && errors[Name] == NameRequired && errors[Email] == EmailRequired && errors[Message] == MessageRequired
      && Subject !in errors
  {
    var empty := "";
    assert Trim(empty) == [];
    ErrorMessages(InitialData);
    var errors := Validate(InitialData).0;
    assert Name in errors && Email in errors && Message in errors;
  }

  /** Editing a field after validation clears its error and no other. */
  lemma EditingClearsOnlyThatError(data: FormData, field: Field, value: string)
    ensures var f := Form(data, Validate(data).0, false);
      var r := HandleInput(f, field, value);
      field !in r.errors && forall g | g != field :: (g in r.errors <==> g in f.errors)
  {
    var errors := Validate(data).0;
    if field in errors {
      assert errors[field] == FieldError(data, field).value;
    }
  }
}

=== FILE: vanilla_shop.dfy ===
/** The plain-script host page: its state object and the three event
    handlers that update it. */
module VanillaShop {

  import opened Results
  import opened Shop
  import PS = ProductShowcase

  datatype State = State(
    cartItems: seq<CartItem>, wishlistItems: seq<string>,
    selectedColor: Option<string>, selectedSize: Option<string>,
    quantity: int, inWishlist: bool, lastAction: Option<LastAction>)

  function Initial(): (st: State)
    ensures st.cartItems == [] && st.wishlistItems == [] && st.lastAction == None
    ensures st.selectedColor == None && st.selectedSize == None
    ensures st.quantity == 1 && !st.inWishlist
  {
    State([], [], None, None, 1, false, None)
  }

  /** The deferred copy of the element's selection after it is created. */
  function SyncFrom(st: State, el: PS.Showcase): (r: State)
    ensures r.selectedColor == Some(el.selectedColor) && r.selectedSize == Some(el.selectedSize)
    ensures r.quantity == el.quantity && r.inWishlist == el.inWishlist
    ensures r.cartItems == st.cartItems && r.wishlistItems == st.wishlistItems && r.lastAction == st.lastAction
  {
    st.(selectedColor := Some(el.selectedColor), selectedSize := Some(el.selectedSize),
        quantity := el.quantity, inWishlist := el.inWishlist)
  }

  /** `handleAddToCart`: one more cart line, copied from the event. */
  function HandleAddToCart(st: State, product: PS.Product, color: string, size: string, quantity: int): (r: State)
    ensures |r.cartItems| == |st.cartItems| + 1 && r.cartItems[..|st.cartItems|] == st.cartItems
    ensures r.cartItems[|st.cartItems|] == CartItemOf(product, color, size, quantity)
    ensures r.lastAction == Some(AddedToCart(r.cartItems[|st.cartItems|]))
    ensures r.wishlistItems == st.wishlistItems && r.inWishlist == st.inWishlist
    ensures r.selectedColor == st.selectedColor && r.selectedSize == st.selectedSize && r.quantity == st.quantity
  {
    var item := CartItemOf(product, color, size, quantity);
    st.(cartItems := st.cartItems + [item], lastAction := Some(AddedToCart(item)))
  }

  /** `handleWishlistChange`: the mirror flag follows the event and the
      product's id is added or removed. */
  function HandleWishlistChange(st: State, product: PS.Product, inWishlist: bool): (r: State)
    ensures r.inWishlist == inWishlist
    ensures r.inWishlist <==> product.id in r.wishlistItems
    ensures r.wishlistItems == UpdateWishlist(st.wishlistItems, product.id, inWishlist)
    ensures r.lastAction == Some(WishlistChanged(inWishlist, product.id))
    ensures r.cartItems == st.cartItems
  {
    st.(inWishlist := inWishlist,
        wishlistItems := UpdateWishlist(st.wishlistItems, product.id, inWishlist),
        lastAction := Some(WishlistChanged(inWishlist, product.id)))
  }

  /** `handleConfigChange`: the selection is copied. */
  function HandleConfigChange(st: State, color: string, size: string, quantity: int): (r: State)
    ensures r.selectedColor == Some(color) && r.selectedSize == Some(size) && r.quantity == quantity
    ensures r.lastAction == Some(ConfigChanged(color, size, quantity))
    ensures r.cartItems == st.cartItems && r.wishlistItems == st.wishlistItems && r.inWishlist == st.inWishlist
  {
    st.(selectedColor := Some(color), selectedSize := Some(size), quantity := quantity,
        lastAction := Some(ConfigChanged(color, size, quantity)))
  }

  function Handle(st: State, e: PS.Event): (r: State)
    ensures r.lastAction == Some(ActionOf(e))
  {
    match e
    case AddToCart(p, c, s, q) => HandleAddToCart(st, p, c, s, q)
    case WishlistChange(p, inWishlist) => HandleWishlistChange(st, p, inWishlist)
    case ConfigChange(_, c, s, q) => HandleConfigChange(st, c, s, q)
  }

  /** The state after a sequence of events, the last one handled last. */
  function Process(st: State, events: seq<PS.Event>): State
    decreases |events|
  {
    if events == [] then st else Handle(Process(st, events[..|events| - 1]), events[|events| - 1])
  }

  /** The cart has one line per add-to-cart event and the wishlist never
      holds an id twice. */
  lemma {:induction false} ProcessInvariant(events: seq<PS.Event>)
    ensures |Process(Initial(), events).cartItems| == CartEvents(events)
    ensures NoDuplicates(Process(Initial(), events).wishlistItems)
    decreases |events|
  {
    if events != [] {
      var prefix := events[..|events| - 1];
      var st := Process(Initial(), prefix);
      ProcessInvariant(prefix);
      var e := events[|events| - 1];
      if e.WishlistChange? {
        UpdateWishlistNoDuplicates(st.wishlistItems, e.product.id, e.inWishlist);
      }
    } else {
      assert multiset(Initial().wishlistItems) == multiset{};
    }
  }

  /** After events from one element, the mirror flag agrees with the
      wishlist once any wishlist change has been handled. */
  lemma {:induction false} MirrorAgrees(events: seq<PS.Event>, id: string)
    requires forall i | 0 <= i < |events| :: events[i].product.id == id
    ensures var st := Process(Initial(), events);
      st.inWishlist <==> id in st.wishlistItems
    decreases |events|
  {
    if events != [] {
      var prefix := events[..|events| - 1];
      MirrorAgrees(prefix, id);
    }
  }
}
